=== FILE: README.md ===
# Research paper assistant: reference search, section workflow and prompts

This project is a Dafny model of the deterministic core of a backend that
writes research papers section by section with a language model. It covers
three parts.

- **Reference gathering** (`OpenAlexSearch.get_reference_papers_content`
  and its helpers). The scholarly index is searched first for the paper
  title. It is then searched for keyword combinations, from the largest
  combination size down to single keywords, in `itertools.combinations`
  order. Each query is an AND of quoted keywords. A record is accepted once
  per id, and the search stops at 40 papers. The papers found are then
  analysed by the completion service. Around this loop sit the helpers:
  - record normalisation;
  - the APA/MLA/Chicago and IEEE-like citation formatters;
  - download-link collection;
  - section keyword expansion;
  - the download file name.
- **The paper state machine** (the endpoint bodies of `main.py`): start,
  generate-next, generate-section, confirm-section, confirm-abstract,
  edit-section and edit-abstract. Each is a pure update of a `Paper`
  record.
- **Prompt assembly and marker extraction** (`chatgpt.py`):
  - the section prompt with its per-section rubric, chosen by the
    lower-cased name;
  - the optional reference block;
  - extraction of `[digits]` citation markers;
  - the humanizer fallback;
  - the cleanup of the title list;
  - the whole-paper prompt.

The external services are parameters of the model:
- the search service (`Gather.Search`);
- the completion service (`Services.Llm`);
- the humanizer (`Services.Humanizer`);
- the abstract writer (`PaperState.AbstractWriter`);
- the JSON rendering of the edit history (`Edits.Renderer`);
- the timestamp.

Each service may fail, and a failure is an `Err`. A request to the
completion service is a `Completion` record. Its user message is a
`Services.Message` value, which names the kind of prompt and the values the
prompt is built from. The prompt text of each kind is given by the `Prompts`
functions.

Python dictionaries read with `.get` are modelled by `PyValues.Field`: a key
can be absent, hold `null`, or hold a value. The insertion-ordered
`section_content` dictionary is `OrderedMap.Dict`.

## Model

| member | source | states |
|---|---|---|
| Works.PaperKey | backend/openalex_search.py:298-299 | A record can be accepted only under a non-empty id; the key is that id. |
| Works.Names | backend/openalex_search.py:214-215 | A missing author or concept list reads as empty. A `null` list or an entry without a display name raises. Otherwise the names come one per entry, in list order. |
| Works.GetPaperDetails | backend/openalex_search.py:203-218 | Normalising raises exactly when the author or concept list is `null` or has an unreadable entry, or when `primary_location` is `null`. The title defaults to "No title", the abstract to "" and the citation count to 0. The authors keep authorship order, and the keywords are the concept names in order (none when the list is absent). The URL is the primary landing page, "" when there is no primary location. The publication year is copied with "" as its default. A string DOI has every resolver prefix occurrence deleted, and an absent or `null` DOI is kept as "" or `null`. |
| Works.DetailsDoiStripsResolver | backend/openalex_search.py:205-207 | A DOI stored as a resolver URL and the same DOI stored bare both normalise to the bare DOI. |
| Works.GetDownloadLinks | backend/openalex_search.py:133-190 | Collecting links raises exactly when `locations` or `open_access` is `null`. |
| Works.DownloadLinksPdfExactly | backend/openalex_search.py:138-178 | The links flagged as PDFs are exactly the truthy `pdf_url` values: the primary location's first, then those of the non-null locations, in order. |
| Works.DownloadLinksLandingExactly | backend/openalex_search.py:138-186 | The links not flagged as PDFs are exactly the truthy landing pages, in order: the primary location's as "Primary Location", then each non-null location's labelled with its source name, then the open-access URL when `is_oa` and `oa_url` are both truthy. |
| Works.DownloadLinksOpenAccess | backend/openalex_search.py:180-187 | An open-access link is present if and only if `is_oa` and `oa_url` are both truthy. When present, it is the last link and carries `oa_url`. |
| Works.SectionKeywords | backend/openalex_search.py:192-201 | The result always starts with the base keywords. "related_work", "methodology", "results" and "conclusion", in any capitalisation, add their own three, four, five and four keywords in the listed order. Every other name, "introduction" included, gets the base keywords unchanged. |
| Works.SectionKeywordsExamples | backend/openalex_search.py:192-201 | "Methodology" is expanded by the methodology keywords, while "Related Work", which is not a dictionary key after lower-casing, gets the base keywords alone. |
| Works.SectionKeywordsIgnoreCase | backend/openalex_search.py:201 | Section names that differ only in letter case get the same keywords. |
| Works.SanitizeTitle | backend/openalex_search.py:65 | The cleaned title has the title's length and only file-name characters. A character is kept exactly when it is an ASCII letter, a digit, a space, `-` or `_`. |
| Works.LastIndexOf | backend/openalex_search.py:70 | Returns the last occurrence of the character, or -1 when it is absent. |
| Works.Extension | backend/openalex_search.py:69-70 | The URL extension is empty, or it is a suffix of the path that starts with its only dot and holds no `/`. |
| Works.ExtensionOfName | backend/openalex_search.py:69-70 | A path whose last component is a non-empty stem, a dot and a suffix, with no dot or `/` in the stem or suffix, has the dot and that suffix as its extension. |
| Works.DownloadFileName | backend/openalex_search.py:64-72 | The file name always ends in ".pdf". It starts with the cleaned title cut to 100 characters, followed by the URL extension. ".pdf" is added exactly when the title and extension do not already end with it. |
| Works.DownloadFileNamePdfUrl | backend/openalex_search.py:69-72 | A URL path whose last component is a dot-free stem followed by ".pdf" gives the cleaned title plus one ".pdf", not two. |
| Works.DownloadFileNameNoExtension | backend/openalex_search.py:69-72 | Without a URL extension, the file name is the cleaned title plus ".pdf". |
| Citations.AuthorText | backend/openalex_search.py:456 | An empty author list is credited to "Anonymous". Otherwise the authors are joined with ", ", and a single author is printed as is. |
| Citations.AuthorTextNames | backend/openalex_search.py:456 | Every author occurs in the author text. |
| Citations.ReferenceDoi | backend/openalex_search.py:450-452 | A DOI that starts with the resolver loses every occurrence of the resolver. Any other DOI is left exactly as it is. |
| Citations.ApaStripsResolverDoi | backend/openalex_search.py:450-468 | An APA reference whose DOI is a resolver URL ends with the resolver once, followed by the bare DOI. It ends with a full stop when the bare DOI is empty. |
| Citations.Apa | backend/openalex_search.py:454-468 | APA text opens with the authors, the year in parentheses, the title followed by ". " and the journal. It ends with ". https://doi.org/" and the DOI when there is one, and with "." otherwise. |
| Citations.Mla | backend/openalex_search.py:469-481 | MLA text opens with the authors, a full stop, the title in quotes followed by a full stop, and the journal. It ends with a full stop. |
| Citations.Chicago | backend/openalex_search.py:482-494 | Chicago text opens with the authors, a full stop, the title in quotes followed by a full stop, and the journal. It ends with a full stop. |
| Citations.ApaNamesAll | backend/openalex_search.py:454-468 | APA text contains every author, the year, the title, the journal, and the volume and pages when they are truthy. |
| Citations.MlaNamesAll | backend/openalex_search.py:469-481 | MLA text contains every author, the year, the title, the journal, and the volume and pages when they are truthy. |
| Citations.ChicagoNamesAll | backend/openalex_search.py:482-494 | Chicago text contains every author, the year, the title, the journal, and the volume and pages when they are truthy. |
| Citations.RenderNamesAll | backend/openalex_search.py:452-494 | Whichever style is chosen, the rendering contains every author, the year, the title, the journal, and the volume and pages when they are truthy. |
| Citations.FormatReference | backend/openalex_search.py:429-494 | With the journal supplied, formatting raises exactly when the author list or the biblio object cannot be read. |
| Citations.ReferenceNamesAll | backend/openalex_search.py:440-494 | A formatted reference, in any style, contains every author, the year ("n.d." when absent), the title ("No title" when absent) and the journal. It also contains the volume and the first page when those are truthy. |
| Citations.ReferenceEnding | backend/openalex_search.py:464-467 | Every formatted reference ends with a full stop. The one exception is an APA reference with a DOI, which ends with the DOI's resolver URL. |
| Citations.AnonymousWithoutAuthors | backend/openalex_search.py:456 | A record without authors is credited to "Anonymous" in every style. |
| Citations.OtherStylesAreChicago | backend/openalex_search.py:482 | Any style name other than "APA" and "MLA" gives the Chicago form. |
| Citations.IssueNeedsVolume | backend/openalex_search.py:458-461 | Without a truthy volume, the issue number has no effect on the text in any style. |
| Citations.ApaKeepsUnprefixedDoi | backend/openalex_search.py:450-452 | A DOI that does not start with the resolver is printed verbatim, even when the resolver occurs later in it. |
| Citations.FormatReferenceAsWritten | backend/openalex_search.py:445 | The formatter as the class defines it raises on every record. |
| Citations.FormatReferenceMissingHelper | backend/openalex_search.py:441-468 | On a record with no keys, the formatter as written raises. The corrected formatter gives "Anonymous (n.d.). No title. J." for that record. |
| Citations.FormatCitation | backend/openalex_search.py:362-379 | An IEEE-like citation raises exactly when the authors, the DOI or the primary source cannot be read. It opens with "[n] ". It ends with " doi: " and the resolver-free DOI when that is non-empty, and with "." otherwise. |
| Citations.CitationResolverDoi | backend/openalex_search.py:367 | A DOI given as a resolver URL and the same DOI without the resolver give the same citation. |
| Citations.SameCitationDoi | backend/openalex_search.py:367-377 | The DOI field affects a citation only through the resolver-free DOI read from it. |
| Citations.CitationNamesAll | backend/openalex_search.py:364-370 | A citation that is built names every author and holds the title in quotes, followed by a comma. |
| Combinations.Comb | backend/openalex_search.py:315 | Every combination has the requested size. |
| Combinations.CombCount | backend/openalex_search.py:315 | There are exactly n-choose-r combinations. |
| Combinations.CombSound | backend/openalex_search.py:315 | Every combination is a selection of the keywords that keeps their order. |
| Combinations.CombComplete | backend/openalex_search.py:315 | Every order-keeping selection of keywords is one of the combinations of its size. |
| Combinations.QuoteAll | backend/openalex_search.py:322 | Every keyword of a combination is quoted, in order. |
| Combinations.Query | backend/openalex_search.py:322 | A single keyword is queried as that keyword in double quotes. |
| Combinations.QueryPair | backend/openalex_search.py:322 | Two keywords are queried as both quoted terms joined by " AND ". |
| Combinations.QueryTriple | backend/openalex_search.py:322 | Three keywords are queried as the three quoted terms joined by " AND ". |
| Combinations.Queries | backend/openalex_search.py:317-322 | There is one query per combination, in combination order. |
| Combinations.CombinationsOfThree | backend/openalex_search.py:315 | Three keywords give their combinations in `itertools.combinations` order, size by size. |
| Combinations.QueriesOfThree | backend/openalex_search.py:317-322 | The combinations of three keywords give their AND-queries, level by level. |
| Combinations.ThreeKeywordQueries | backend/openalex_search.py:310-322 | For three keywords, the keyword queries run from the three-term AND down to the single quoted terms, in `itertools.combinations` order. |
| Gather.Hits | backend/openalex_search.py:326-327 | A missing `results` key reads as no hits, and a `null` one raises. |
| Gather.Consider | backend/openalex_search.py:330-343 | Considering one record adds at most one paper at the end. It preserves the invariant: at most 40 papers, each with a distinct non-empty id. |
| Gather.Absorb | backend/openalex_search.py:294-307 | Absorbing a result list only extends the accepted papers and preserves the invariant. |
| Gather.RunQueries | backend/openalex_search.py:310-343 | A successful run only extends the accepted papers and preserves the invariant. |
| Gather.AnalysisRequest | backend/openalex_search.py:259-267 | The analysis asks gpt-3.5-turbo, with 2000 tokens, about exactly the papers found. |
| Gather.Analysis | backend/openalex_search.py:220-282 | The analysis is the humanized completion, or the raw completion when the humanizer fails. When the completion fails, it is the fixed apology. |
| Gather.Gather | backend/openalex_search.py:284-360 | A gather returns at most 40 papers. It has no analysis exactly when the run failed, and then it has no papers either. |
| Gather.AbsorbFull | backend/openalex_search.py:330-332 | Once 40 papers are in, a result list changes nothing. |
| Gather.FullStops | backend/openalex_search.py:310-319 | Once 40 papers are in, no query is issued, so even a failing search cannot change the outcome. |
| Gather.RunQueriesAppend | backend/openalex_search.py:291-343 | Running two query lists in turn is the same as running their concatenation; a failure in the first list ends the run. |
| Gather.AbsorbProvenance | backend/openalex_search.py:298-303 | Every paper a result list adds is the details of a record in that list with the paper's id. |
| Gather.RunProvenance | backend/openalex_search.py:291-343 | Every paper a run adds was returned, with its id, by one of the run's queries. |
| Gather.GatherResult | backend/openalex_search.py:284-360 | A successful gather returns at most 40 papers with distinct non-empty ids. Each is the details of a record that one of the issued queries returned. A failed gather returns no papers and no analysis. |
| Gather.TitleHitsFirst | backend/openalex_search.py:291-307 | The papers found by the title query come first, in the order of its result list. |
| Gather.RetryAfterFailedDetails | backend/openalex_search.py:300-307 | A record whose details cannot be read leaves its id unseen, so a later record with that id is still accepted. |
| Gather.SeenIdSkipped | backend/openalex_search.py:299 | A record whose id was already accepted is skipped. |
| Gather.FailureDiscardsEarlierFinds | backend/openalex_search.py:326-360 | A failing keyword search discards a paper the title query already found: the gather returns no papers and no analysis. |
| Gather.TitleThenFailure | backend/openalex_search.py:293-326 | A run whose title query finds a readable record and whose only keyword query fails, fails. |
| Gather.TitleQueryFinds | backend/openalex_search.py:293-307 | A title query returning one readable record yields exactly that paper. |
| Gather.AbsorbOne | backend/openalex_search.py:294-303 | A result list of one readable record adds that record. |
| Gather.OneKeywordQueries | backend/openalex_search.py:310-322 | A single keyword gives the single query of that keyword in quotes. |
| Gather.QueryStep | backend/openalex_search.py:318-343 | A query issued before the budget is reached hands its readable results on to the rest of the run. |
| Gather.QueryFails | backend/openalex_search.py:326-327 | A query issued before the budget is reached that raises fails the whole run. |
| Gather.AbsorbHits | backend/openalex_search.py:330-343 | The inner loop's list of papers and its set of seen ids are the accepted papers' details and ids, as `Gather.Absorb` defines them. |
| Gather.SearchCombinations | backend/openalex_search.py:317-343 | The combination loop keeps the invariant. It fails only when the reference run fails, and otherwise it agrees with the reference run. |
| Gather.SearchLevel | backend/openalex_search.py:315-343 | One combination size keeps the invariant and agrees with the reference run. |
| Gather.SearchLevels | backend/openalex_search.py:310-343 | The keyword phase keeps the invariant. It fails exactly as the reference run does, and otherwise ends with the reference run's papers. |
| Gather.GetReferencePapersContent | backend/openalex_search.py:284-360 | The loop version returns what `Gather.Gather` defines, so at most 40 papers. |
| Services.Humanized | backend/chatgpt.py:323-329 | The humanizer's text is used when it succeeds; the original text is used unchanged when it fails. |
| Prompts.ReferenceStyle | backend/chatgpt.py:195 | The reference style is "APA" when the key is missing, "None" when it is `null`, and the stored value otherwise. |
| Prompts.PreviousSectionsText | backend/chatgpt.py:198 | The previous sections read "None" for an empty map, and otherwise the comma-joined keys in map order. |
| Prompts.BaseInfo | backend/chatgpt.py:189-207 | The common details open with the section header and end with the previous sections and the checklist. |
| Prompts.KindOf | backend/chatgpt.py:209-278 | A name gets the generic rubric exactly when it is not one of the seven table keys. |
| Prompts.RubricFor | backend/chatgpt.py:281-288 | A section gets the generic rubric exactly when its lower-cased name is not a table key. |
| Prompts.SectionPromptShape | backend/chatgpt.py:290 | A section prompt opens with the header naming the section and topic. It ends with a newline and the rubric that the lower-cased name selects. |
| Prompts.SectionPromptListsPrevious | backend/chatgpt.py:198-207 | A section prompt names every section already written, followed by the checklist. |
| Prompts.RubricIgnoresCase | backend/chatgpt.py:281 | The rubric does not depend on the capitalisation of the section name. |
| Prompts.RubricExamples | backend/chatgpt.py:281 | "Literature_Review" and "INTRODUCTION" get their specific rubrics. |
| Prompts.GenericRubricExamples | backend/chatgpt.py:281-288 | "Literature Review", with a space, and "Future Work" get the generic rubric. |
| Prompts.GenericRubricNamesSection | backend/chatgpt.py:281 | The generic rubric repeats the section name as the caller spelled it. |
| Prompts.WithReferenceBlock | backend/chatgpt.py:298-300 | The prompt grows exactly when the reference key is present and non-empty. The result always starts with the prompt and, when the key is present, ends with the reference text. |
| Prompts.Required | backend/chatgpt.py:28-33 | Indexing a key raises exactly when the key is missing; a stored `null` renders as "None". |
| Prompts.JoinedList | backend/chatgpt.py:29 | Comma-joining a list raises exactly when the key is missing or holds `null`. Otherwise the result is the join of the list. |
| Prompts.ResearchPaperPrompt | backend/chatgpt.py:24-52 | The whole-paper prompt raises exactly when the topic, length, academic field, paper type or reference style is missing, or when the keyword or section list is missing or `null`. Otherwise it opens with the topic and closes with the fixed requirements. |
| Prompts.ResearchPaperPromptNamesAll | backend/chatgpt.py:27-40 | A prompt that is built names every keyword and every required section, and carries the line "Reference Style: " followed by the style. |
| Prompts.PapersText | backend/openalex_search.py:224-233 | The analysis prompt describes every paper found. |
| Prompts.EditHead | backend/main.py:584-593 | An edit prompt opens with the text to edit and the instructions, and then shows the history. |
| Prompts.SectionEditPrompt | backend/main.py:584-604 | The section-edit prompt opens with the edit head and closes with the section checklist. |
| Prompts.AbstractEditPrompt | backend/main.py:337-356 | The abstract-edit prompt opens with the edit head and closes with the abstract checklist. |
| Prompts.EditHeadShows | backend/main.py:586-593 | A text that opens with an edit head opens with the text to edit and contains the history. |
| Chat.DigitRun | backend/chatgpt.py:316 | The scan of a digit run stops at the first non-digit, and everything it passes is a digit. |
| Chat.MarkersFrom | backend/chatgpt.py:316 | Everything the scan returns is one or more ASCII digits. |
| Chat.MarkersSound | backend/chatgpt.py:316 | Every marker found occurs in the text between brackets. |
| Chat.MarkersComplete | backend/chatgpt.py:316 | Every bracketed run of digits in the text is found. |
| Chat.MarkerSetExact | backend/chatgpt.py:316 | A string is a found marker if and only if it is a digit run that occurs between brackets. |
| Chat.MarkerExamples | backend/chatgpt.py:316 | "see [3] and [12]." yields "3" and then "12". |
| Chat.NonMarkerExamples | backend/chatgpt.py:316 | "[a]", "[3, 4]" and "[]" contribute nothing. |
| Chat.SectionRequest | backend/chatgpt.py:303-311 | A section is asked of gpt-4, with 2000 tokens, for that section and paper. |
| Chat.GenerateSection | backend/chatgpt.py:292-333 | A failure of the completion service is raised again. Otherwise the recorded markers are the earlier ones plus those of the raw text. The text is humanized, or returned raw when the humanizer fails. |
| Chat.SectionReferences | backend/chatgpt.py:316-321 | After a section, a marker is recorded if and only if it was recorded before or occurs in brackets in the service's reply. |
| Chat.TitleRequest | backend/chatgpt.py:78-86 | Titles are asked of gpt-4 with 500 tokens, and the user message is the title prompt of the given record. |
| Chat.GeneratePaperTitles | backend/chatgpt.py:54-96 | A failure of the service is raised again. Otherwise the result is the cleaned title list of the reply: at most five titles, each non-empty and stripped. |
| Titles.NonBlankLines | backend/chatgpt.py:90 | The kept lines are non-empty and stripped, and there are no more of them than lines. |
| Titles.NonBlankLine | backend/chatgpt.py:90 | A single line gives its stripped form when that is not blank, and nothing otherwise. |
| Titles.NonBlankLinesAppend | backend/chatgpt.py:90 | The lines of two pieces are kept piece by piece, so the kept lines stay in reply order. |
| Titles.NonBlankLinesExact | backend/chatgpt.py:90 | A string is kept if and only if it is non-empty and is the stripped form of some line. |
| Titles.CleanTitles | backend/chatgpt.py:89-92 | The titles are a prefix of the stripped non-blank lines in reply order. There are five of them, or all of those lines when there are fewer. Each is non-empty and stripped. |
| Titles.TitlesFromReply | backend/chatgpt.py:89-92 | Every title is a stripped line of the reply. When the reply has at most five non-blank lines, every one of them is a title. |
| PaperState.SplitKeywords | backend/main.py:276 | Splitting the stored keywords always gives at least one keyword. |
| PaperState.GuardedKeywords | backend/main.py:456-457 | The guarded split gives no keywords exactly when the stored text is empty. |
| PaperState.KeywordsRoundTrip | backend/main.py:210-276 | Non-empty keywords without commas survive being joined at start and split again. |
| PaperState.EmptyKeywords | backend/main.py:456-457 | A paper started without keywords stores "". Generate-next then reads one empty keyword, while generate-section reads none. |
| PaperState.DataFor | backend/main.py:273-286 | The prompt record carries the paper's topic, the given keywords and references, its length, academic field, paper type, target audience and reference style. |
| PaperState.FirstSection | backend/main.py:200-205 | There is no first section exactly when both section lists are empty. Otherwise it is the first required section, or the first custom one when none is required. |
| PaperState.StoredKeywords | backend/main.py:210 | A keyword list is stored comma-joined, and a keyword text is stored as it is. |
| PaperState.ListAndTextStoredAlike | backend/main.py:210 | A keyword list and the text joining it with commas are stored alike. |
| PaperState.StoredListReadsBack | backend/main.py:210 | A non-empty list of keywords without commas reads back as the same list in generate-next. |
| PaperState.Start | backend/main.py:197-240 | Starting fails exactly when there is no section or the abstract cannot be written. A new paper is in progress at its first section. Topic, length, academic field, paper type, reference style, target audience, required and custom sections, guidelines and selected title are copied from the request. Keywords sent as a list are stored comma-joined, and keywords sent as a text are stored as they are. Its content is the abstract alone when the abstract comes first, and empty otherwise. |
| PaperState.CurrentIndex | backend/main.py:260-261 | The index is -1 exactly when the current section is null or absent. Otherwise it is the first position of that section. |
| PaperState.NextAfter | backend/main.py:262 | The next section is one of the sections. There is none exactly when the current one is the last. |
| PaperState.GenerateNext | backend/main.py:251-297 | A missing or empty next section completes the paper and changes nothing else. Otherwise a failure of the service is raised again. On success, the paper is the old one with the written text stored under the next section's name and that section made current; every other field is kept. The reported following section is the one two places after the current one, if there is one. |
| PaperState.NextWalksInOrder | backend/main.py:260-262 | With distinct names, the section after position i is the one at i + 1. |
| PaperState.PreviewIsNext | backend/main.py:296 | With distinct names, the section reported as coming next is the one the following call writes. |
| PaperState.NextStartsAtFirst | backend/main.py:261-262 | A paper whose current section is unknown starts at the first section. |
| PaperState.RepeatedSectionCycles | backend/main.py:260-262 | A name listed twice sends generate-next back to its first occurrence, so a later section is never reached. |
| PaperState.FirstMissing | backend/main.py:562 | This is the first required section that is not confirmed. There is none exactly when every required section is confirmed. |
| PaperState.ConfirmSection | backend/main.py:538-563 | The confirmed list gains the section once and only grows. The paper is completed if and only if the confirmed set equals the required set, and otherwise it is in progress. The next section is the first unconfirmed required one. No field other than the confirmed list and the status changes. |
| PaperState.ExtraConfirmationBlocksCompletion | backend/main.py:552 | Once a non-required section is confirmed, no later confirmation completes the paper. |
| PaperState.CompletionWhenRequiredOnly | backend/main.py:546-562 | When only required sections were confirmed, the paper is completed exactly when no required section is left. |
| PaperState.ConfirmAbstract | backend/main.py:417-432 | Confirming the abstract sets the status to "abstract_confirmed". Putting the old status back gives the old paper, so nothing else changes. |
| PaperState.Or | backend/main.py:173-180 | `value or default` gives the value when it is truthy and the default otherwise. |
| PaperState.TitleData | backend/main.py:171-182 | The title record keeps the topic and keywords as sent. A missing or empty academic field, paper type or audience gets "general", "research" or "academic" respectively; a non-empty one is kept. |
| PaperState.GenerateTitles | backend/main.py:159-195 | An empty topic or empty keywords is rejected with its message. Otherwise the result is what the title generator gives for the defaulted record, so there are at most five titles. |
| PaperState.TitlesOfValidRequest | backend/main.py:170-188 | A valid title request fails exactly when the title service fails. Otherwise it gives the cleaned lines of the service's reply. |
| SectionWriting.Entries | backend/main.py:467-470 | The reference text describes every paper. |
| SectionWriting.ReferenceContent | backend/main.py:463-471 | The reference text is empty exactly when no papers were found. Otherwise it is framed by the introduction and the request to cite. |
| SectionWriting.ReferenceContentDescribesAll | backend/main.py:465-471 | Every gathered paper is described to the writer. |
| SectionWriting.Citation | backend/main.py:507-509 | A citation opens with the authors and the year. With a DOI it continues with the title and ends with the DOI. Without one it ends with the title. |
| SectionWriting.CiteOnce | backend/main.py:510-512 | The block only grows and afterwards contains the citation. It is unchanged when it already contained the citation. |
| SectionWriting.AppendCitations | backend/main.py:503-513 | The block only grows and cites every paper. |
| SectionWriting.AlreadyCited | backend/main.py:511 | A block that already cites every paper is left as it is. |
| SectionWriting.CitingTwice | backend/main.py:503-513 | Citing the same papers a second time changes nothing. |
| SectionWriting.WithReferences | backend/main.py:498-513 | A references block always exists afterwards. It starts with the old block, or with the header when it is new, and it cites every paper. Every other entry is unchanged. |
| SectionWriting.SectionData | backend/main.py:478-492 | The section is written with the reference text of the papers gathered for it. |
| SectionWriting.StoreSection | backend/main.py:494-513 | The section holds the new text, every other entry except the references is kept, and the references block only grows and cites every paper. |
| SectionWriting.GenerateNamedSection | backend/main.py:444-526 | A failure of the service is raised again. Otherwise the section is stored and made current, and no other field of the paper changes. |
| Edits.HistoryText | backend/main.py:592-593 | The editor is told "No previous edits" when the history is empty, and is shown the rendered history otherwise. |
| Edits.SectionEditRequest | backend/main.py:607-615 | A section edit is asked of gpt-4 with 1000 tokens. |
| Edits.EditSection | backend/main.py:575-641 | A failure is raised again. Otherwise only the edited section's entry changes, exactly one history item is appended, and no other field of the paper changes. |
| Edits.AbstractEditRequest | backend/main.py:359-367 | An abstract edit is asked of gpt-4 with 1000 tokens. |
| Edits.EditAbstract | backend/main.py:328-391 | A failure is raised again. Otherwise the whole content becomes the edited abstract alone, exactly one history item is appended, and no other field of the paper changes. |
| Edits.EditAbstractDropsSections | backend/main.py:383 | Editing the abstract removes every other section, the references included. |
| Edits.EditKeepsHistory | backend/main.py:619-634 | An edit appends one history item at the end. Earlier items are kept, and the new item records the replaced text and the instructions. |
| Edits.SectionEditorSees | backend/main.py:584-593 | The section editor is shown the text to edit first, and then the history. |
| Edits.AbstractEditorSees | backend/main.py:337-346 | The abstract editor is shown the abstract first, and then the history. |

## Left out

- The HTTP calls to the scholarly index, the completion service and the humanizer are function parameters. Their transport, timeouts and response parsing are not modelled.
- `backend/humanizer.py` is not part of this model. Its rate limiter uses wall-clock time and its retries come from a library, so the humanizer is only a parameter that may fail.
- The PDF download and text extraction are left out because they are file and network I/O: the body of `download_paper` apart from the file name, `extract_text_from_pdf`, `process_results`, `save_reference`, `search_and_download_papers` and `create_unique_download_dir`.
- Works.DownloadFileName: `urlparse` is not modelled. The path component of the download URL is the `urlPath` parameter.
- The ORM schema, database sessions, commits, rollbacks, 404 lookups, FastAPI routing, CORS and logging are left out because they are plumbing around the state updates. Each handler is modelled as the in-memory paper record it builds, not as what the database ends up storing.
- The user, health, root and edit-history endpoints are left out; they only read or list stored rows.
- The sampling temperature of 0.7 is a constant of every request and is not part of `Completion`.
- The prompt of `generate_abstract` is left out: the abstract writer is the `AbstractWriter` parameter of `PaperState.Start`.
- `json.dumps` of the edit history is the `Renderer` parameter, and `datetime.now()` is a timestamp parameter.
- Python's `str.isalnum`, `\d` and `str.lower` are modelled on ASCII. The one exception is that `lower` also maps the Kelvin sign to `k`. Non-ASCII letters and digits are treated as other characters.
- Stored JSON columns: `section_content`, `edit_history` and `confirmed_sections` are plain JSON columns (`backend/models.py:55-58`). The handlers change them in place (`backend/main.py:289`, `495-496`, `546-548` and `628-632`), and the ORM does not track in-place changes to such columns, so the stored row may keep the old contents. The model does not claim that those changes are persisted.
- PaperState.Start: the request is assumed to hold every key it indexes, each with a value of the expected type. A missing key raises `KeyError` at `backend/main.py:201-219`, and a `null` in a column declared NOT NULL (`backend/models.py:43-53`) fails at the flush (`backend/main.py:227`); neither is modelled.
- Works.Names: an author or concept whose `display_name` is present but `null` cannot be represented. Python keeps it as `None` (`backend/openalex_search.py:214-215`), and the later joins at `backend/main.py:469` and `507` raise `TypeError`, so `SectionWriting.GenerateNamedSection` succeeds in the model where the handler fails.
- Gather.Hits: a `null` element of the result list cannot be represented. `paper.get("id")` on it raises outside the inner `try` (`backend/openalex_search.py:297` and `334`) and aborts the gather.
- Prompts.ResearchPaperPrompt: the keyword and section lists hold strings. A string in their place, which `join` would split into characters, and a non-string element, which makes `join` raise, cannot be represented.
- Gather.Gather: an exception raised inside the analysis itself is not modelled. `get_chatgpt_analysis` catches its own exceptions, so none reaches the gather.
- Citations.FormatReference: the journal text is a parameter because the helper that should produce it is missing from the class.

## Behaviour followed from the code

Two behaviours a reader might not expect, kept as the code has them:

- A search that raises does not just skip that query. It aborts the whole gather, which then returns no papers and no analysis (`Gather.FailureDiscardsEarlierFinds`).
- A paper is completed when the confirmed sections equal the required sections as sets, not when they include them (`PaperState.ExtraConfirmationBlocksCompletion`).

## Findings

| source | as written | input that shows it | evidently intended | confidence | as-written member | corrected member |
|---|---|---|---|---|---|---|
| backend/openalex_search.py:445 | `format_reference` calls `self.get_journal_info(work)`, which no class in the backend defines, so every call raises `AttributeError` before any text is built. | A record with no keys, formatted in APA. | A journal name is read from the record and the reference is formatted. For the record with no keys, that gives "Anonymous (n.d.). No title. J." when the journal text is "J". | high; not executed | Citations.FormatReferenceAsWritten | Citations.FormatReference |

=== FILE: chat.dfy ===
/** The calls to the chat-completion service that write text: one section
    (with the citation markers it uses and the humanizer fallback) and the
    candidate titles. */
module Chat {
  import opened Wrappers
  import opened Seqs
  import opened Text
  import opened OrderedMap
  import opened Services
  import opened Prompts
  import opened Titles

  // ----- Citation markers -----

  /** The end of the run of digits that starts at `i`. */
  function DigitRun(s: string, i: nat): (j: nat)
    requires i <= |s|
    ensures i <= j <= |s|
    ensures AllDigits(s[i..j])
    ensures j == |s| || !IsDigit(s[j])
    decreases |s| - i
  {
    if i < |s| && IsDigit(s[i]) then
      var j := DigitRun(s, i + 1);
      assert s[i..j] == [s[i]] + s[i + 1..j];
      j
    else i
  }

  /** A citation marker `[n]`, with `n` one or more digits. */
  predicate IsMarker(m: string) {
    m != "" && AllDigits(m)
  }

  /** The markers found by scanning `s` from `i` on, left to right, each match
      consumed before the scan goes on: `re.findall(r'\[(\d+)\]', s[i:])`. */
  function MarkersFrom(s: string, i: nat): (ms: seq<string>)
    requires i <= |s|
    ensures forall k :: 0 <= k < |ms| ==> IsMarker(ms[k])
    decreases |s| - i
  {
    if i == |s| then []
    else if s[i] == '[' then
      var j := DigitRun(s, i + 1);
      if j > i + 1 && j < |s| && s[j] == ']' then [s[i + 1..j]] + MarkersFrom(s, j + 1)
      else MarkersFrom(s, i + 1)
    else MarkersFrom(s, i + 1)
  }

  function Markers(s: string): seq<string> {
    MarkersFrom(s, 0)
  }

  /** `set(re.findall(r'\[(\d+)\]', s))`. */
  function MarkerSet(s: string): set<string> {
    Elements(Markers(s))
  }

  /** Every marker found really is in the text, in brackets. */
  lemma {:induction false} MarkersSound(s: string, i: nat, m: string)
    requires i <= |s|
    requires m in MarkersFrom(s, i)
    ensures IsMarker(m)
    ensures exists k :: i <= k && OccursAt(s, "[" + m + "]", k)
    decreases |s| - i
  {
    if s[i] == '[' {
      var j := DigitRun(s, i + 1);
      if j > i + 1 && j < |s| && s[j] == ']' {
        if m == s[i + 1..j] {
          assert s[i..i + |"[" + m + "]"|] == "[" + m + "]";
          assert OccursAt(s, "[" + m + "]", i);
        } else {
          MarkersSound(s, j + 1, m);
        }
        return;
      }
    }
    MarkersSound(s, i + 1, m);
  }

  /** A run of digits followed by a non-digit ends there. */
  lemma DigitRunOfMarker(s: string, i: nat, m: string)
    requires IsMarker(m)
    requires i + |m| < |s| && s[i..i + |m|] == m && s[i + |m|] == ']'
    ensures DigitRun(s, i) == i + |m|
    decreases |m|
  {
    assert IsDigit(s[i]) by { assert s[i] == m[0]; }
    if |m| > 1 {
      assert s[i + 1..i + 1 + |m[1..]|] == m[1..];
      DigitRunOfMarker(s, i + 1, m[1..]);
    } else {
      assert !IsDigit(s[i + 1]);
    }
  }

  /** The pieces of a bracketed marker occurrence. */
  lemma MarkerAt(s: string, m: string, k: nat)
    requires OccursAt(s, "[" + m + "]", k)
    ensures k + 1 + |m| < |s|
    ensures s[k] == '[' && s[k + 1..k + 1 + |m|] == m && s[k + 1 + |m|] == ']'
  {
    var marker := "[" + m + "]";
    var w := s[k..k + |marker|];
    assert |marker| == |m| + 2;
    assert w == marker;
    assert s[k] == w[0] == '[';
    assert forall d :: 0 <= d < |m| ==> s[k + 1 + d] == w[1 + d] == m[d];
    assert s[k + 1 + |m|] == w[1 + |m|] == ']';
  }

  /** A run of digits holds no opening bracket. */
  lemma NoBracketInRun(s: string, a: nat, j: nat, k: nat)
    requires a <= k < j <= |s| && AllDigits(s[a..j])
    ensures s[k] != '['
  {
    assert s[k] == s[a..j][k - a];
  }

  /** Whether the scan at `i` takes a match: a `[`, one or more digits, `]`. */
  predicate TakesMatch(s: string, i: nat)
    requires i < |s|
  {
    s[i] == '[' && DigitRun(s, i + 1) > i + 1 && DigitRun(s, i + 1) < |s| && s[DigitRun(s, i + 1)] == ']'
  }

  /** Where the scan goes on after position `i`. */
  function NextScan(s: string, i: nat): (n: nat)
    requires i < |s|
    ensures i < n <= |s|
  {
    if TakesMatch(s, i) then DigitRun(s, i + 1) + 1 else i + 1
  }

  /** The scan from `i` goes on at `NextScan(s, i)`, having kept whatever it took. */
  lemma MarkersFromNext(s: string, i: nat)
    requires i < |s|
    ensures MarkersFrom(s, i)
      == (if TakesMatch(s, i) then [s[i + 1..DigitRun(s, i + 1)]] else []) + MarkersFrom(s, NextScan(s, i))
  {
  }

  /** Every bracketed run of digits at or after `i` is found: a match the scan
      takes cannot overlap a later one, since a match holds no `[`. */
  lemma {:induction false} MarkersComplete(s: string, i: nat, m: string, k: nat)
    requires i <= k
    requires IsMarker(m)
    requires OccursAt(s, "[" + m + "]", k)
    ensures m in MarkersFrom(s, i)
    decreases |s| - i
  {
    MarkerAt(s, m, k);
    if i == k {
      DigitRunOfMarker(s, k + 1, m);
      assert TakesMatch(s, k);
      MarkersFromNext(s, k);
    } else {
      if TakesMatch(s, i) {
        var j := DigitRun(s, i + 1);
        if k < j {
          NoBracketInRun(s, i + 1, j, k);
        }
        assert j < k by { assert s[j] != s[k]; }
      }
      MarkersComplete(s, NextScan(s, i), m, k);
      MarkersFromNext(s, i);
    }
  }

  /** The marker set is exactly the bracketed digit runs of the text. */
  lemma MarkerSetExact(s: string, m: string)
    ensures m in MarkerSet(s) <==> IsMarker(m) && Contains(s, "[" + m + "]")
  {
    if m in MarkerSet(s) {
      MarkersSound(s, 0, m);
    }
    if IsMarker(m) && Contains(s, "[" + m + "]") {
      var k :| 0 <= k <= |s| - |"[" + m + "]"| && OccursAt(s, "[" + m + "]", k);
      MarkersComplete(s, 0, m, k);
    }
  }

  /** The scan passes over a character that is not `[`. */
  lemma ScanPlain(s: string, i: nat)
    requires i < |s| && s[i] != '['
    ensures MarkersFrom(s, i) == MarkersFrom(s, i + 1)
  {
  }

  /** The scan passes over a `[` that does not open a match. */
  lemma ScanNoMatch(s: string, i: nat)
    requires i < |s| && !TakesMatch(s, i)
    ensures MarkersFrom(s, i) == MarkersFrom(s, i + 1)
  {
    MarkersFromNext(s, i);
  }

  /** The scan takes the match `[` digits `]` that ends at `j`. */
  lemma ScanMatch(s: string, i: nat, j: nat)
    requires i < j < |s| && s[i] == '[' && s[j] == ']' && DigitRun(s, i + 1) == j && j > i + 1
    ensures MarkersFrom(s, i) == [s[i + 1..j]] + MarkersFrom(s, j + 1)
  {
    MarkersFromNext(s, i);
  }

  /** Markers in order of appearance. */
  lemma MarkerExamples()
    ensures Markers("see [3] and [12].") == ["3", "12"]
  {
    BothMarkers("see [3] and [12].");
  }

  lemma BothMarkers(s: string)
    requires s == "see [3] and [12]."
    ensures MarkersFrom(s, 0) == ["3", "12"]
  {
    SecondMarker(s);
    assert DigitRun(s, 6) == 6;
    assert DigitRun(s, 5) == 6;
    ScanMatch(s, 4, 6);
    assert s[5..6] == "3";
    ScanPlain(s, 3);
    ScanPlain(s, 2);
    ScanPlain(s, 1);
    ScanPlain(s, 0);
  }

  lemma SecondMarker(s: string)
    requires s == "see [3] and [12]."
    ensures MarkersFrom(s, 7) == ["12"]
  {
    assert DigitRun(s, 15) == 15;
    assert DigitRun(s, 14) == 15;
    assert DigitRun(s, 13) == 15;
    ScanPlain(s, 16);
    ScanMatch(s, 12, 15);
    assert s[13..15] == "12";
    ScanPlain(s, 11);
    ScanPlain(s, 10);
    ScanPlain(s, 9);
    ScanPlain(s, 8);
    ScanPlain(s, 7);
  }

  /** Brackets around anything but digits, or around nothing, are not markers. */
  lemma NonMarkerExamples()
    ensures Markers("[a] [3, 4] []") == []
  {
    var t := "[a] [3, 4] []";
    assert DigitRun(t, 1) == 1;
    assert DigitRun(t, 6) == 6;
    assert DigitRun(t, 5) == 6;
    assert DigitRun(t, 12) == 12;
    ScanPlain(t, 12);
    ScanNoMatch(t, 11);
    ScanPlain(t, 10);
    ScanPlain(t, 9);
    ScanPlain(t, 8);
    ScanPlain(t, 7);
    ScanPlain(t, 6);
    ScanPlain(t, 5);
    ScanNoMatch(t, 4);
    ScanPlain(t, 3);
    ScanPlain(t, 2);
    ScanPlain(t, 1);
    ScanNoMatch(t, 0);
  }

  // ----- Writing a section -----

  const SectionModel := "gpt-4"
  const SectionMaxTokens := 2000

  const SectionSystem: string :=
    "You are an expert academic writer helping to write a research paper. "
    + "Use the provided references appropriately and maintain academic rigor. "
    + "When citing references, use the format [number] where number is the reference number."

  /** The completion request for one section. */
  function SectionRequest(data: PaperData, sectionName: string, previous: Dict): (c: Completion)
    ensures c.model == "gpt-4" && c.maxTokens == 2000
    ensures c.user == SectionMessage(sectionName, data, previous)
  {
    Completion(SectionModel, SectionSystem, SectionMessage(sectionName, data, previous), SectionMaxTokens)
  }

  /** A written section and the markers the record has seen so far. */
  datatype Section = Section(text: string, referencesUsed: set<string>)

  /** `generate_section`: the service's failure is raised again; otherwise the
      markers of the raw text join those already recorded, and the text is
      humanized, or returned raw when the humanizer fails. */
  function GenerateSection(llm: Llm, humanize: Humanizer, data: PaperData, sectionName: string,
                           previous: Dict, recorded: set<string>): (r: Result<Section>)
    ensures r.Err? <==> llm(SectionRequest(data, sectionName, previous)).Err?
    ensures r.Ok? ==>
      var raw := llm(SectionRequest(data, sectionName, previous)).value;
      && r.value.referencesUsed == recorded + MarkerSet(raw)
      && (humanize(raw).Err? ==> r.value.text == raw)
      && (humanize(raw).Ok? ==> r.value.text == humanize(raw).value)
  {
    var raw :- llm(SectionRequest(data, sectionName, previous));
    Ok(Section(Humanized(humanize, raw), recorded + MarkerSet(raw)))
  }

  /** The markers recorded after a section are exactly the earlier ones and
      the bracketed digit runs of what the service returned. */
  lemma SectionReferences(llm: Llm, humanize: Humanizer, data: PaperData, sectionName: string,
                          previous: Dict, recorded: set<string>, m: string)
    requires GenerateSection(llm, humanize, data, sectionName, previous, recorded).Ok?
    ensures
      var raw := llm(SectionRequest(data, sectionName, previous)).value;
      m in GenerateSection(llm, humanize, data, sectionName, previous, recorded).value.referencesUsed
      <==> m in recorded || (IsMarker(m) && Contains(raw, "[" + m + "]"))
  {
    MarkerSetExact(llm(SectionRequest(data, sectionName, previous)).value, m);
  }

  // ----- Titles -----

  const TitleModel := "gpt-4"
  const TitleMaxTokens := 500
  const TitleSystem: string :=
    "You are a research paper title generator. Generate professional, academic titles."

  /** The title request for a paper. */
  function TitleRequest(data: PaperData): (c: Completion)
    ensures c.model == "gpt-4" && c.maxTokens == 500
    ensures c.user == TitleMessage(data)
  {
    Completion(TitleModel, TitleSystem, TitleMessage(data), TitleMaxTokens)
  }

  /** `generate_paper_titles`: the service's failure is raised again;
      otherwise at most five cleaned titles, in the order of the reply. */
  function GeneratePaperTitles(llm: Llm, data: PaperData): (r: Result<seq<string>>)
    ensures r.Err? <==> llm(TitleRequest(data)).Err?
    ensures r.Ok? ==> |r.value| <= 5
    ensures r.Ok? ==> forall k :: 0 <= k < |r.value| ==> r.value[k] != "" && IsStripped(r.value[k])
    ensures r.Ok? ==> r.value == CleanTitles(llm(TitleRequest(data)).value)
  {
    var reply :- llm(TitleRequest(data));
    Ok(CleanTitles(reply))
  }
}

=== FILE: citations.dfy ===
/** The two citation formatters of `OpenAlexSearch`: `format_reference`
    (APA, MLA, and Chicago for every other style name) and `format_citation`
    (an IEEE-like numbered entry). */
module Citations {
  import opened Wrappers
  import opened Text
  import opened PyValues
  import opened Works

  /** The values `format_reference` reads from a record, after its defaults. */
  datatype ReferenceFields = ReferenceFields(
    authors: seq<string>,
    title: Option<string>,
    year: Scalar,
    doi: Option<string>,
    journal: string,
    volume: Option<string>,
    issue: Option<string>,
    pages: Option<string>)

  /** The author list, or "Anonymous" when there is none. */
  function AuthorText(authors: seq<string>): (r: string)
    ensures authors == [] ==> r == "Anonymous"
    ensures |authors| == 1 ==> r == authors[0]
    ensures authors != [] ==> r == Join(", ", authors)
  {
    if authors == [] then "Anonymous" else Join(", ", authors)
  }

  /** Every author is named in the author text. */
  lemma AuthorTextNames(authors: seq<string>, i: nat)
    requires i < |authors|
    ensures Contains(AuthorText(authors), authors[i])
  {
    JoinContainsPart(", ", authors, i);
  }

  /** The DOI with the resolver removed, but only when the DOI starts with it;
      then every occurrence is removed, as `str.replace` does. */
  function ReferenceDoi(doi: Option<string>): (r: Option<string>)
    ensures !(Truthy(doi) && StartsWith(doi.value, DoiResolver)) ==> r == doi
    ensures Truthy(doi) && StartsWith(doi.value, DoiResolver) ==> r == Some(RemoveAll(doi.value, DoiResolver))
  {
    if Truthy(doi) && StartsWith(doi.value, DoiResolver) then Some(RemoveAll(doi.value, DoiResolver))
    else doi
  }

  /** `work.get("biblio", {})` followed by the three `.get` calls; a `null`
      biblio raises. */
  function BiblioValues(f: Field<Biblio>): Result<(Option<string>, Option<string>, Option<string>)> {
    match f
    case Absent => Ok((Some(""), Some(""), Some("")))
    case Null => Err("AttributeError: 'NoneType' object has no attribute 'get'")
    case Present(b) => Ok((Get(b.volume, ""), Get(b.issue, ""), Get(b.firstPage, "")))
  }

  /** The fields of a record, or the exception reading them raises. */
  function ReadReferenceFields(w: Work, journal: string): Result<ReferenceFields> {
    match Names(w.authorships)
    case Err(e) => Err(e)
    case Ok(authors) =>
      match BiblioValues(w.biblio)
      case Err(e) => Err(e)
      case Ok(b) =>
        Ok(ReferenceFields(authors, Get(w.title, "No title"), GetScalar(w.publicationYear, TextValue("n.d.")),
                           ReferenceDoi(Get(w.doi, "")), journal, b.0, b.1, b.2))
  }

  /** Author (Year). Title. Journal, Volume(Issue), Pages. https://doi.org/DOI */
  function Apa(f: ReferenceFields): (r: string)
    ensures StartsWith(r, AuthorText(f.authors) + " (" + Str(f.year) + "). ")
    ensures StartsWith(r, AuthorText(f.authors) + " (" + Str(f.year) + "). " + Show(f.title) + ". " + f.journal)
    ensures Truthy(f.doi) ==> EndsWith(r, ". https://doi.org/" + f.doi.value)
    ensures !Truthy(f.doi) ==> EndsWith(r, ".")
  {
    var opening := AuthorText(f.authors) + " (" + Str(f.year) + "). " + Show(f.title) + ". " + f.journal;
    var tail := if Truthy(f.doi) then ". https://doi.org/" + f.doi.value else ".";
    var r := Framed(opening, ApaVolume(f) + ApaPages(f), tail);
    PrefixOfPrefix(r, AuthorText(f.authors) + " (" + Str(f.year) + "). ", Show(f.title) + ". " + f.journal);
    r
  }

  /** ", Volume(Issue)" when the volume is truthy; the issue only with it. */
  function ApaVolume(f: ReferenceFields): string {
    if Truthy(f.volume) then ", " + f.volume.value + (if Truthy(f.issue) then "(" + f.issue.value + ")" else "") else ""
  }

  function ApaPages(f: ReferenceFields): string {
    if Truthy(f.pages) then ", " + f.pages.value else ""
  }

  /** Author. "Title." Journal, vol. Volume, no. Issue, Year, pp. Pages. */
  function Mla(f: ReferenceFields): (r: string)
    ensures StartsWith(r, AuthorText(f.authors) + ". \"")
    ensures StartsWith(r, AuthorText(f.authors) + ". \"" + Show(f.title) + ".\" " + f.journal)
    ensures EndsWith(r, ".")
  {
    var opening := AuthorText(f.authors) + ". \"" + Show(f.title) + ".\" " + f.journal;
    var r := Framed(opening, MlaVolume(f) + MlaRest(f), ".");
    PrefixOfPrefix(r, AuthorText(f.authors) + ". \"", Show(f.title) + ".\" " + f.journal);
    r
  }

  function MlaVolume(f: ReferenceFields): string {
    if Truthy(f.volume) then ", vol. " + f.volume.value + (if Truthy(f.issue) then ", no. " + f.issue.value else "") else ""
  }

  /** ", Year" and then ", pp. Pages" when the pages are truthy. */
  function MlaRest(f: ReferenceFields): string {
    ", " + Str(f.year) + MlaPages(f)
  }

  function MlaPages(f: ReferenceFields): string {
    if Truthy(f.pages) then ", pp. " + f.pages.value else ""
  }

  /** Author. "Title." Journal Volume, no. Issue (Year): Pages. */
  function Chicago(f: ReferenceFields): (r: string)
    ensures StartsWith(r, AuthorText(f.authors) + ". \"")
    ensures StartsWith(r, AuthorText(f.authors) + ". \"" + Show(f.title) + ".\" " + f.journal)
    ensures EndsWith(r, ".")
  {
    var opening := AuthorText(f.authors) + ". \"" + Show(f.title) + ".\" " + f.journal;
    var r := Framed(opening, ChicagoVolume(f) + ChicagoRest(f), ".");
    PrefixOfPrefix(r, AuthorText(f.authors) + ". \"", Show(f.title) + ".\" " + f.journal);
    r
  }

  function ChicagoVolume(f: ReferenceFields): string {
    if Truthy(f.volume) then " " + f.volume.value + (if Truthy(f.issue) then ", no. " + f.issue.value else "") else ""
  }

  /** " (Year)" and then ": Pages" when the pages are truthy. */
  function ChicagoRest(f: ReferenceFields): string {
    " (" + Str(f.year) + ")" + ChicagoPages(f)
  }

  function ChicagoPages(f: ReferenceFields): string {
    if Truthy(f.pages) then ": " + f.pages.value else ""
  }

  /** What an APA reference names: every author, the year, the title, the
      journal, and the volume and pages when they are truthy. */
  lemma ApaNamesAll(f: ReferenceFields)
    ensures forall i :: 0 <= i < |f.authors| ==> Contains(Apa(f), f.authors[i])
    ensures Contains(Apa(f), Str(f.year)) && Contains(Apa(f), Show(f.title)) && Contains(Apa(f), f.journal)
    ensures Truthy(f.volume) ==> Contains(Apa(f), f.volume.value)
    ensures Truthy(f.pages) ==> Contains(Apa(f), f.pages.value)
  {
    var a, y, t, j := AuthorText(f.authors), Str(f.year), Show(f.title), f.journal;
    var opening := a + " (" + y + "). " + t + ". " + j;
    var middle := ApaVolume(f) + ApaPages(f);
    var tail := if Truthy(f.doi) then ". https://doi.org/" + f.doi.value else ".";
    var r := Apa(f);
    assert r == opening + middle + tail;
    forall i | 0 <= i < |f.authors|
      ensures Contains(r, f.authors[i])
    {
      AuthorTextNames(f.authors, i);
      ContainsExtend(a, f.authors[i], " (");
      ContainsExtend(a + " (", f.authors[i], y);
      ContainsExtend(a + " (" + y, f.authors[i], "). ");
      ContainsInPrefix(r, a + " (" + y + "). ", f.authors[i]);
    }
    ContainsMiddle(a + " (", y, "). ");
    ContainsInPrefix(r, a + " (" + y + "). ", y);
    ContainsMiddle(a + " (" + y + "). ", t, ". ");
    ContainsExtend(a + " (" + y + "). " + t + ". ", t, j);
    ContainsInPrefix(r, opening, t);
    ContainsLast(a + " (" + y + "). " + t + ". ", j);
    ContainsInPrefix(r, opening, j);
    if Truthy(f.volume) {
      ContainsMiddle(", ", f.volume.value, if Truthy(f.issue) then "(" + f.issue.value + ")" else "");
      ContainsExtend(ApaVolume(f), f.volume.value, ApaPages(f));
      ContainsInside(opening, middle, tail, f.volume.value);
    }
    if Truthy(f.pages) {
      ContainsLast(", ", f.pages.value);
      ContainsPrepend(ApaVolume(f), ApaPages(f), f.pages.value);
      ContainsInside(opening, middle, tail, f.pages.value);
    }
  }

  /** What an MLA reference names: every author, the title, the journal, the
      year, and the volume and pages when they are truthy. */
  lemma MlaNamesAll(f: ReferenceFields)
    ensures forall i :: 0 <= i < |f.authors| ==> Contains(Mla(f), f.authors[i])
    ensures Contains(Mla(f), Str(f.year)) && Contains(Mla(f), Show(f.title)) && Contains(Mla(f), f.journal)
    ensures Truthy(f.volume) ==> Contains(Mla(f), f.volume.value)
    ensures Truthy(f.pages) ==> Contains(Mla(f), f.pages.value)
  {
    var a, y, t, j := AuthorText(f.authors), Str(f.year), Show(f.title), f.journal;
    var opening := a + ". \"" + t + ".\" " + j;
    var middle := MlaVolume(f) + MlaRest(f);
    var r := Mla(f);
    assert r == opening + middle + ".";
    OpeningNames(r, f, opening, a, t, j, ". \"", ".\" ");
    ContainsMiddle(", ", y, MlaPages(f));
    ContainsPrepend(MlaVolume(f), MlaRest(f), y);
    ContainsInside(opening, middle, ".", y);
    if Truthy(f.volume) {
      ContainsMiddle(", vol. ", f.volume.value, if Truthy(f.issue) then ", no. " + f.issue.value else "");
      ContainsExtend(MlaVolume(f), f.volume.value, MlaRest(f));
      ContainsInside(opening, middle, ".", f.volume.value);
    }
    if Truthy(f.pages) {
      ContainsLast(", pp. ", f.pages.value);
      ContainsPrepend(", " + y, MlaPages(f), f.pages.value);
      ContainsPrepend(MlaVolume(f), MlaRest(f), f.pages.value);
      ContainsInside(opening, middle, ".", f.pages.value);
    }
  }

  /** What a Chicago reference names: every author, the title, the journal,
      the year, and the volume and pages when they are truthy. */
  lemma ChicagoNamesAll(f: ReferenceFields)
    ensures forall i :: 0 <= i < |f.authors| ==> Contains(Chicago(f), f.authors[i])
    ensures Contains(Chicago(f), Str(f.year)) && Contains(Chicago(f), Show(f.title)) && Contains(Chicago(f), f.journal)
    ensures Truthy(f.volume) ==> Contains(Chicago(f), f.volume.value)
    ensures Truthy(f.pages) ==> Contains(Chicago(f), f.pages.value)
  {
    var a, y, t, j := AuthorText(f.authors), Str(f.year), Show(f.title), f.journal;
    var opening := a + ". \"" + t + ".\" " + j;
    var middle := ChicagoVolume(f) + ChicagoRest(f);
    var r := Chicago(f);
    assert r == opening + middle + ".";
    OpeningNames(r, f, opening, a, t, j, ". \"", ".\" ");
    ContainsMiddle(" (", y, ")" + ChicagoPages(f));
    assert " (" + y + ")" + ChicagoPages(f) == " (" + y + (")" + ChicagoPages(f));
    ContainsPrepend(ChicagoVolume(f), ChicagoRest(f), y);
    ContainsInside(opening, middle, ".", y);
    if Truthy(f.volume) {
      ContainsMiddle(" ", f.volume.value, if Truthy(f.issue) then ", no. " + f.issue.value else "");
      ContainsExtend(ChicagoVolume(f), f.volume.value, ChicagoRest(f));
      ContainsInside(opening, middle, ".", f.volume.value);
    }
    if Truthy(f.pages) {
      ContainsLast(": ", f.pages.value);
      ContainsPrepend(" (" + y + ")", ChicagoPages(f), f.pages.value);
      ContainsPrepend(ChicagoVolume(f), ChicagoRest(f), f.pages.value);
      ContainsInside(opening, middle, ".", f.pages.value);
    }
  }

  /** A text opening with the authors, the title and the journal, each after
      its own separator, names all of them. */
  lemma OpeningNames(r: string, f: ReferenceFields, opening: string, a: string, t: string, j: string, s1: string, s2: string)
    requires a == AuthorText(f.authors) && t == Show(f.title) && j == f.journal
    requires opening == a + s1 + t + s2 + j && StartsWith(r, opening)
    ensures forall i :: 0 <= i < |f.authors| ==> Contains(r, f.authors[i])
    ensures Contains(r, t) && Contains(r, j)
  {
    forall i | 0 <= i < |f.authors|
      ensures Contains(r, f.authors[i])
    {
      AuthorTextNames(f.authors, i);
      ContainsExtend(a, f.authors[i], s1 + t + s2 + j);
      assert a + (s1 + t + s2 + j) == opening;
      ContainsInPrefix(r, opening, f.authors[i]);
    }
    ContainsMiddle(a + s1, t, s2 + j);
    assert a + s1 + t + (s2 + j) == opening;
    ContainsInPrefix(r, opening, t);
    ContainsLast(a + s1 + t + s2, j);
    ContainsInPrefix(r, opening, j);
  }

  /** What a reference names, in every style. */
  lemma RenderNamesAll(f: ReferenceFields, style: string)
    ensures forall i :: 0 <= i < |f.authors| ==> Contains(RenderReference(f, style), f.authors[i])
    ensures Contains(RenderReference(f, style), Str(f.year))
    ensures Contains(RenderReference(f, style), Show(f.title))
    ensures Contains(RenderReference(f, style), f.journal)
    ensures Truthy(f.volume) ==> Contains(RenderReference(f, style), f.volume.value)
    ensures Truthy(f.pages) ==> Contains(RenderReference(f, style), f.pages.value)
  {
    if style == "APA" { ApaNamesAll(f); }
    else if style == "MLA" { MlaNamesAll(f); }
    else { ChicagoNamesAll(f); }
  }

  function RenderReference(f: ReferenceFields, style: string): string {
    if style == "APA" then Apa(f) else if style == "MLA" then Mla(f) else Chicago(f)
  }

  /** `format_reference` with the journal text supplied by the caller (the
      helper that should produce it is missing from the class). It raises
      exactly when the author list or the biblio object is unreadable. */
  function FormatReference(w: Work, style: string, journal: string): (r: Result<string>)
    ensures r.Err? <==> w.authorships.Null? || (w.authorships.Present? && !AllNamed(w.authorships.value)) || w.biblio.Null?
  {
    match ReadReferenceFields(w, journal)
    case Err(e) => Err(e)
    case Ok(f) => Ok(RenderReference(f, style))
  }

  /** A formatted reference names every author, the year, the title and the
      journal, and the volume and first page when the biblio has them. */
  lemma ReferenceNamesAll(w: Work, style: string, journal: string)
    requires FormatReference(w, style, journal).Ok?
    ensures var r := FormatReference(w, style, journal).value;
      var f := ReadReferenceFields(w, journal).value;
      && (forall i :: 0 <= i < |Names(w.authorships).value| ==> Contains(r, Names(w.authorships).value[i]))
      && Contains(r, Str(GetScalar(w.publicationYear, TextValue("n.d."))))
      && Contains(r, Show(Get(w.title, "No title")))
      && Contains(r, journal)
      && (Truthy(f.volume) ==> Contains(r, f.volume.value))
      && (Truthy(f.pages) ==> Contains(r, f.pages.value))
  {
    RenderNamesAll(ReadReferenceFields(w, journal).value, style);
  }

  /** Every formatted reference ends in a full stop, except an APA reference
      with a DOI, which ends in the DOI's resolver URL. */
  lemma ReferenceEnding(w: Work, style: string, journal: string)
    requires FormatReference(w, style, journal).Ok?
    ensures var f := ReadReferenceFields(w, journal).value;
      var r := FormatReference(w, style, journal).value;
      if style == "APA" && Truthy(f.doi) then EndsWith(r, ". https://doi.org/" + f.doi.value)
      else EndsWith(r, ".")
  {
  }

  /** A record without authors is credited to "Anonymous", in every style. */
  lemma AnonymousWithoutAuthors(w: Work, style: string, journal: string)
    requires w.authorships.Absent? || w.authorships == Present([])
    requires FormatReference(w, style, journal).Ok?
    ensures StartsWith(FormatReference(w, style, journal).value, "Anonymous")
  {
    var f := ReadReferenceFields(w, journal).value;
    assert f.authors == [];
    AnonymousRendering(f, style);
  }

  /** Fields without authors render with "Anonymous" first, in every style. */
  lemma AnonymousRendering(f: ReferenceFields, style: string)
    requires f.authors == []
    ensures StartsWith(RenderReference(f, style), "Anonymous")
  {
    var r := RenderReference(f, style);
    if style == "APA" {
      PrefixOfPrefix(r, "Anonymous", " (" + Str(f.year) + "). ");
    } else {
      PrefixOfPrefix(r, "Anonymous", ". \"");
    }
  }

  /** `format_reference` as the class defines it: after reading the authors,
      title, year and DOI it calls `self.get_journal_info`, which the class
      does not define, so every call raises. */
  function FormatReferenceAsWritten(w: Work, style: string): (r: Result<string>)
    ensures r.Err?
  {
    match Names(w.authorships)
    case Err(e) => Err(e)
    case Ok(_) => Err("AttributeError: 'OpenAlexSearch' object has no attribute 'get_journal_info'")
  }

  /** Any style name other than "APA" and "MLA" gets the Chicago form. */
  lemma OtherStylesAreChicago(w: Work, style: string, journal: string)
    requires style != "APA" && style != "MLA"
    ensures FormatReference(w, style, journal) == FormatReference(w, "Chicago", journal)
  {
  }

  /** The issue number is printed only together with a volume: without a
      truthy volume, changing the issue changes nothing in any style. */
  lemma IssueNeedsVolume(f: ReferenceFields, issue: Option<string>, style: string)
    requires !Truthy(f.volume)
    ensures RenderReference(f.(issue := issue), style) == RenderReference(f, style)
  {
  }

  /** A DOI that does not start with the resolver is printed verbatim, even
      if the resolver appears later in it. */
  lemma ApaKeepsUnprefixedDoi(w: Work, journal: string, doi: string)
    requires w.doi == Present(doi) && doi != "" && !StartsWith(doi, DoiResolver)
    requires FormatReference(w, "APA", journal).Ok?
    ensures EndsWith(FormatReference(w, "APA", journal).value, ". https://doi.org/" + doi)
  {
  }

  /** A DOI written as a resolver URL is printed in APA behind the resolver
      once, not twice; an empty DOI behind the resolver leaves the full stop. */
  lemma ApaStripsResolverDoi(w: Work, journal: string, bare: string)
    requires w.doi == Present(DoiResolver + bare) && !Contains(bare, DoiResolver)
    requires FormatReference(w, "APA", journal).Ok?
    ensures bare != "" ==> EndsWith(FormatReference(w, "APA", journal).value, ". https://doi.org/" + bare)
    ensures bare == "" ==> EndsWith(FormatReference(w, "APA", journal).value, ".")
  {
    RemoveAllAbsent(bare, DoiResolver);
    assert (DoiResolver + bare)[..|DoiResolver|] == DoiResolver;
    assert (DoiResolver + bare)[|DoiResolver|..] == bare;
    assert ReadReferenceFields(w, journal).value.doi == Some(bare);
  }

  /** A record with no authors, no biblio and no keys at all formats in APA as
      an anonymous, undated, untitled reference: the corrected formatter
      produces text where the formatter as written raises. */
  lemma FormatReferenceMissingHelper()
    ensures var w := Work(Absent, Absent, Absent, Absent, Absent, Absent, Absent, Absent, Absent,
                          Absent, Absent, Absent, Absent, Absent, Absent, Absent);
      && FormatReferenceAsWritten(w, "APA").Err?
      && FormatReference(w, "APA", "J") == Ok("Anonymous (n.d.). No title. J.")
  {
    var w := Work(Absent, Absent, Absent, Absent, Absent, Absent, Absent, Absent, Absent,
                  Absent, Absent, Absent, Absent, Absent, Absent, Absent);
    var f := ReferenceFields([], Some("No title"), TextValue("n.d."), Some(""), "J", Some(""), Some(""), Some(""));
    EmptyRecordFields(w);
    EmptyRecordApa(f);
  }

  /** The fields `format_reference` reads from a record with no keys. */
  lemma EmptyRecordFields(w: Work)
    requires w == Work(Absent, Absent, Absent, Absent, Absent, Absent, Absent, Absent, Absent,
                       Absent, Absent, Absent, Absent, Absent, Absent, Absent)
    ensures ReadReferenceFields(w, "J")
      == Ok(ReferenceFields([], Some("No title"), TextValue("n.d."), Some(""), "J", Some(""), Some(""), Some("")))
  {
  }

  /** The APA text of those fields. */
  lemma EmptyRecordApa(f: ReferenceFields)
    requires f == ReferenceFields([], Some("No title"), TextValue("n.d."), Some(""), "J", Some(""), Some(""), Some(""))
    ensures Apa(f) == "Anonymous (n.d.). No title. J."
  {
    assert ApaVolume(f) + ApaPages(f) == "";
    assert Apa(f) == "Anonymous" + " (" + "n.d." + "). " + "No title" + ". " + "J" + "" + ".";
  }

  /** The journal name `format_citation` prints after "in", when the
      primary location's source has a truthy display name; a `null` location
      or source raises. */
  function CitationSource(w: Work): Result<Option<string>> {
    match w.primaryLocation
    case Null => Err("AttributeError: 'NoneType' object has no attribute 'get'")
    case Absent => Ok(None)
    case Present(loc) =>
      match loc.source
      case Null => Err("AttributeError: 'NoneType' object has no attribute 'get'")
      case Absent => Ok(None)
      case Present(src) =>
        var name := Get(src.displayName, "");
        Ok(if Truthy(name) then name else None)
  }

  /** `paper.get("doi", "").replace(resolver, "")`: a `null` DOI raises. */
  function CitationDoi(f: Field<string>): Result<string> {
    match f
    case Absent => Ok("")
    case Null => Err("AttributeError: 'NoneType' object has no attribute 'replace'")
    case Present(d) => Ok(RemoveAll(d, DoiResolver))
  }

  /** The title between the author list and the rest of a citation. */
  function QuotedTitle(title: string): string {
    ", \"" + title + ",\" "
  }

  /** Journal, volume, issue, pages and year, as `format_citation` writes them
      after the title; the journal is left out when there is none. */
  function CitationDetails(journal: Option<string>, w: Work): string {
    (if journal.Some? then "in " + journal.value + ", " else "")
    + "vol. " + Show(Get(w.volume, "n.d.")) + ", no. " + Show(Get(w.issue, "n.d.")) + ", "
    + "pp. " + Show(Get(w.firstPage, "n.d.")) + "-" + Show(Get(w.lastPage, "n.d.")) + ", "
    + Str(GetScalar(w.publicationYear, TextValue("n.d.")))
  }

  /** `format_citation`: "[n] Authors, "Title," in Journal, vol. V, no. I,
      pp. F-L, Year." followed by " doi: D" when there is a DOI. */
  function FormatCitation(w: Work, index: int): (r: Result<string>)
    ensures r.Err? <==> (w.authorships.Null? || (w.authorships.Present? && !AllNamed(w.authorships.value))
                         || w.doi.Null? || CitationSource(w).Err?)
    ensures r.Ok? ==> StartsWith(r.value, "[" + IntToString(index) + "] ")
    ensures r.Ok? && CitationDoi(w.doi).value != "" ==> EndsWith(r.value, ". doi: " + CitationDoi(w.doi).value)
    ensures r.Ok? && CitationDoi(w.doi).value == "" ==> EndsWith(r.value, ".")
  {
    match Names(w.authorships)
    case Err(e) => Err(e)
    case Ok(authors) =>
      match CitationDoi(w.doi)
      case Err(e) => Err(e)
      case Ok(doi) =>
        match CitationSource(w)
        case Err(e) => Err(e)
        case Ok(journal) =>
          var head := "[" + IntToString(index) + "] ";
          var middle := Join(", ", authors) + QuotedTitle(Show(Get(w.title, "No title"))) + CitationDetails(journal, w);
          Ok(Framed(head, middle, if doi != "" then ". doi: " + doi else "."))
  }

  /** A DOI given as a resolver URL and the bare DOI give the same citation. */
  lemma CitationResolverDoi(w: Work, bare: string, index: int)
    requires !Contains(bare, DoiResolver)
    ensures FormatCitation(w.(doi := Present(DoiResolver + bare)), index) == FormatCitation(w.(doi := Present(bare)), index)
  {
    ResolverStripped(bare);
    SameCitationDoi(w, Present(DoiResolver + bare), Present(bare), index);
  }

  /** Removing the resolver from a resolver URL leaves the bare DOI. */
  lemma ResolverStripped(bare: string)
    requires !Contains(bare, DoiResolver)
    ensures CitationDoi(Present(DoiResolver + bare)) == CitationDoi(Present(bare))
  {
    RemoveAllAbsent(bare, DoiResolver);
    assert (DoiResolver + bare)[..|DoiResolver|] == DoiResolver;
    assert (DoiResolver + bare)[|DoiResolver|..] == bare;
  }

  /** The DOI field matters to a citation only through the DOI it yields. */
  lemma SameCitationDoi(w: Work, d: Field<string>, e: Field<string>, index: int)
    requires CitationDoi(d) == CitationDoi(e)
    ensures FormatCitation(w.(doi := d), index) == FormatCitation(w.(doi := e), index)
  {
    var wd, we := w.(doi := d), w.(doi := e);
    assert wd.authorships == we.authorships && wd.title == we.title;
    assert CitationSource(wd) == CitationSource(we);
    forall j: Option<string>
      ensures CitationDetails(j, wd) == CitationDetails(j, we)
    {
    }
  }

  /** A citation names every author and quotes the title. */
  lemma CitationNamesAll(w: Work, index: int)
    requires FormatCitation(w, index).Ok?
    ensures Contains(FormatCitation(w, index).value, QuotedTitle(Show(Get(w.title, "No title"))))
    ensures forall i :: 0 <= i < |Names(w.authorships).value| ==>
      Contains(FormatCitation(w, index).value, Names(w.authorships).value[i])
  {
    var authors := Names(w.authorships).value;
    var doi := CitationDoi(w.doi).value;
    var journal := CitationSource(w).value;
    var head := "[" + IntToString(index) + "] ";
    var title := QuotedTitle(Show(Get(w.title, "No title")));
    var details := CitationDetails(journal, w);
    var tail := if doi != "" then ". doi: " + doi else ".";
    var r := FormatCitation(w, index).value;
    assert r == head + (Join(", ", authors) + title + details) + tail;
    ContainsMiddle(Join(", ", authors), title, details);
    ContainsInside(head, Join(", ", authors) + title + details, tail, title);
    forall i | 0 <= i < |authors|
      ensures Contains(r, authors[i])
    {
      JoinContainsPart(", ", authors, i);
      ContainsExtend(Join(", ", authors), authors[i], title);
      ContainsExtend(Join(", ", authors) + title, authors[i], details);
      ContainsInside(head, Join(", ", authors) + title + details, tail, authors[i]);
    }
  }
}

=== FILE: combinations.dfy ===
/** `itertools.combinations` and the keyword queries the search strategy
    builds from them: for each size from the number of keywords down to one,
    every combination of that size, each turned into an AND of quoted terms. */
module Combinations {
  import opened Text

  /** `c` can be obtained from `xs` by deleting elements, keeping the order. */
  predicate IsSubsequence<T(==)>(c: seq<T>, xs: seq<T>)
    decreases |xs|
  {
    if c == [] then true
    else if xs == [] then false
    else (c[0] == xs[0] && IsSubsequence(c[1..], xs[1..])) || IsSubsequence(c, xs[1..])
  }

  /** Puts `x` in front of every sequence of `cs`. */
  function PrependAll<T>(x: T, cs: seq<seq<T>>): (r: seq<seq<T>>)
    ensures |r| == |cs|
    ensures forall i :: 0 <= i < |cs| ==> r[i] == [x] + cs[i]
  {
    seq(|cs|, i requires 0 <= i < |cs| => [x] + cs[i])
  }

  /** `list(combinations(xs, r))`: the combinations that keep `xs[0]` come
      first, then those that skip it, which is the lexicographic order of
      the chosen positions. */
  function Comb<T>(xs: seq<T>, r: nat): (cs: seq<seq<T>>)
    ensures forall i :: 0 <= i < |cs| ==> |cs[i]| == r
    decreases |xs|
  {
    if r == 0 then [[]]
    else if |xs| < r then []
    else PrependAll(xs[0], Comb(xs[1..], r - 1)) + Comb(xs[1..], r)
  }

  /** The binomial coefficient, by Pascal's rule. */
  function Binomial(n: nat, k: nat): nat
    decreases n
  {
    if k == 0 then 1
    else if n < k then 0
    else Binomial(n - 1, k - 1) + Binomial(n - 1, k)
  }

  /** There are n-choose-r combinations. */
  lemma {:induction false} CombCount<T>(xs: seq<T>, r: nat)
    ensures |Comb(xs, r)| == Binomial(|xs|, r)
    decreases |xs|
  {
    if r != 0 && |xs| >= r {
      CombCount(xs[1..], r - 1);
      CombCount(xs[1..], r);
    }
  }

  /** Every combination is drawn from `xs` in order. */
  lemma {:induction false} CombSound<T>(xs: seq<T>, r: nat, c: seq<T>)
    requires c in Comb(xs, r)
    ensures IsSubsequence(c, xs) && |c| == r
    decreases |xs|
  {
    if r != 0 {
      var with := PrependAll(xs[0], Comb(xs[1..], r - 1));
      if c in with {
        var i :| 0 <= i < |with| && with[i] == c;
        var d := Comb(xs[1..], r - 1)[i];
        CombSound(xs[1..], r - 1, d);
        assert c[0] == xs[0] && c[1..] == d;
      } else {
        CombSound(xs[1..], r, c);
        assert c != [];
      }
    }
  }

  /** Every ordered selection of `r` elements of `xs` is one of the combinations. */
  lemma {:induction false} CombComplete<T>(xs: seq<T>, c: seq<T>)
    requires IsSubsequence(c, xs)
    ensures c in Comb(xs, |c|)
    decreases |xs|
  {
    if c != [] {
      SubsequenceLength(c, xs);
      if c[0] == xs[0] && IsSubsequence(c[1..], xs[1..]) {
        CombComplete(xs[1..], c[1..]);
        var rest := Comb(xs[1..], |c| - 1);
        var i :| 0 <= i < |rest| && rest[i] == c[1..];
        assert PrependAll(xs[0], rest)[i] == c;
      } else {
        CombComplete(xs[1..], c);
        assert c in Comb(xs[1..], |c|);
      }
    }
  }

  lemma {:induction false} SubsequenceLength<T>(c: seq<T>, xs: seq<T>)
    requires IsSubsequence(c, xs)
    ensures |c| <= |xs|
    decreases |xs|
  {
    if c != [] {
      if c[0] == xs[0] && IsSubsequence(c[1..], xs[1..]) {
        SubsequenceLength(c[1..], xs[1..]);
      } else {
        SubsequenceLength(c, xs[1..]);
      }
    }
  }

  /** `f'"{k}"'`. */
  function Quote(k: string): string {
    "\"" + k + "\""
  }

  /** Every keyword of a combination in double quotes. */
  function QuoteAll(combo: seq<string>): (r: seq<string>)
    ensures |r| == |combo|
    ensures forall i :: 0 <= i < |combo| ==> r[i] == Quote(combo[i])
  {
    seq(|combo|, i requires 0 <= i < |combo| => Quote(combo[i]))
  }

  /** `" AND ".join(f'"{k}"' for k in combo)`. */
  function Query(combo: seq<string>): (q: string)
    ensures |combo| == 1 ==> q == Quote(combo[0])
  {
    Join(" AND ", QuoteAll(combo))
  }

  /** The queries of a list of combinations, in order. */
  function Queries(combos: seq<seq<string>>): (qs: seq<string>)
    ensures |qs| == |combos|
    ensures forall i :: 0 <= i < |combos| ==> qs[i] == Query(combos[i])
  {
    seq(|combos|, i requires 0 <= i < |combos| => Query(combos[i]))
  }

  /** The keyword queries for sizes `size`, `size - 1`, ..., 1. */
  function LevelsFrom(keywords: seq<string>, size: nat): seq<string>
    decreases size
  {
    if size == 0 then [] else Queries(Comb(keywords, size)) + LevelsFrom(keywords, size - 1)
  }

  /** Every keyword query, largest combinations first. */
  function LevelQueries(keywords: seq<string>): seq<string> {
    LevelsFrom(keywords, |keywords|)
  }

  /** The queries for three keywords, in the order they are issued. */
  lemma ThreeKeywordQueries()
    ensures LevelQueries(["a", "b", "c"]) ==
      [ "\"a\" AND \"b\" AND \"c\"",
        "\"a\" AND \"b\"", "\"a\" AND \"c\"", "\"b\" AND \"c\"",
        "\"a\"", "\"b\"", "\"c\"" ]
  {
    var xs := ["a", "b", "c"];
    CombinationsOfThree();
    QueriesOfThree();
    assert LevelsFrom(xs, 0) == [];
  }

  /** The queries of each level of three keywords. */
  lemma QueriesOfThree()
    ensures Queries([["a", "b", "c"]]) == ["\"a\" AND \"b\" AND \"c\""]
    ensures Queries([["a", "b"], ["a", "c"], ["b", "c"]]) == ["\"a\" AND \"b\"", "\"a\" AND \"c\"", "\"b\" AND \"c\""]
    ensures Queries([["a"], ["b"], ["c"]]) == ["\"a\"", "\"b\"", "\"c\""]
  {
    QueryPair("a", "b");
    QueryPair("a", "c");
    QueryPair("b", "c");
    QueryTriple("a", "b", "c");
    assert Quote("a") == "\"a\"" && Quote("b") == "\"b\"" && Quote("c") == "\"c\"";
    assert Quote("a") + " AND " + Quote("b") == "\"a\" AND \"b\"";
    assert Quote("a") + " AND " + Quote("c") == "\"a\" AND \"c\"";
    assert Quote("b") + " AND " + Quote("c") == "\"b\" AND \"c\"";
    assert Quote("a") + " AND " + Quote("b") + " AND " + Quote("c") == "\"a\" AND \"b\" AND \"c\"";
  }

  /** The combinations of three elements, size by size, in itertools order. */
  lemma CombinationsOfThree()
    ensures Comb(["a", "b", "c"], 3) == [["a", "b", "c"]]
    ensures Comb(["a", "b", "c"], 2) == [["a", "b"], ["a", "c"], ["b", "c"]]
    ensures Comb(["a", "b", "c"], 1) == [["a"], ["b"], ["c"]]
  {
    var xs := ["a", "b", "c"];
    var bc := ["b", "c"];
    assert xs[1..] == bc && bc[1..] == ["c"] && ["c"][1..] == [];
    assert Comb(["c"], 1) == [["c"]] by {
      var p := PrependAll("c", [[]]); assert |p| == 1 && p[0] == ["c"];
    }
    assert Comb(bc, 1) == [["b"], ["c"]] by {
      var p := PrependAll("b", [[]]); assert |p| == 1 && p[0] == ["b"];
    }
    assert Comb(bc, 2) == [["b", "c"]] by {
      var p := PrependAll("b", [["c"]]); assert |p| == 1 && p[0] == ["b", "c"];
    }
    assert Comb(xs, 3) == [["a", "b", "c"]] by {
      var p := PrependAll("a", [["b", "c"]]); assert |p| == 1 && p[0] == ["a", "b", "c"];
    }
    assert Comb(xs, 2) == [["a", "b"], ["a", "c"], ["b", "c"]] by {
      var p := PrependAll("a", [["b"], ["c"]]); assert |p| == 2 && p[0] == ["a", "b"] && p[1] == ["a", "c"];
    }
    assert Comb(xs, 1) == [["a"], ["b"], ["c"]] by {
      var p := PrependAll("a", [[]]); assert |p| == 1 && p[0] == ["a"];
    }
  }

  lemma QueryPair(a: string, b: string)
    ensures Query([a, b]) == Quote(a) + " AND " + Quote(b)
  {
    var quoted := QuoteAll([a, b]);
    assert quoted == [Quote(a), Quote(b)];
    assert quoted[1..] == [Quote(b)];
    assert Join(" AND ", quoted[1..]) == Quote(b);
    assert Join(" AND ", quoted) == quoted[0] + " AND " + Join(" AND ", quoted[1..]);
  }

  lemma QueryTriple(a: string, b: string, c: string)
    ensures Query([a, b, c]) == Quote(a) + " AND " + Quote(b) + " AND " + Quote(c)
  {
    var quoted := QuoteAll([a, b, c]);
    assert quoted == [Quote(a), Quote(b), Quote(c)];
    assert quoted[1..] == [Quote(b), Quote(c)];
    assert quoted[1..][1..] == [Quote(c)];
    assert Join(" AND ", quoted[1..][1..]) == Quote(c);
    assert Join(" AND ", quoted[1..]) == Quote(b) + " AND " + Quote(c);
    assert Join(" AND ", quoted) == quoted[0] + " AND " + Join(" AND ", quoted[1..]);
  }
}

=== FILE: edits.dfy ===
/** The edit endpoints: the editor rewrites a section or the abstract
    following the user's instructions, and every edit is logged in the
    paper's history. */
module Edits {
  import opened Wrappers
  import opened Seqs
  import opened Text
  import opened OrderedMap
  import opened Services
  import opened Prompts
  import opened PaperState

  /** The JSON rendering of the history shown to the editor; the
      serialisation itself is not modelled. */
  type Renderer = seq<EditItem> -> string

  /** The history as the prompts show it: a note when there is none. */
  function HistoryText(history: seq<EditItem>, render: Renderer): (r: string)
    ensures history == [] ==> r == "No previous edits"
    ensures history != [] ==> r == render(history)
  {
    if history == [] then "No previous edits" else render(history)
  }

  const EditModel := "gpt-4"
  const EditMaxTokens := 1000

  /** The completion request of a section edit. */
  function SectionEditRequest(p: Paper, sectionName: string, current: string, instructions: string, render: Renderer): (c: Completion)
    ensures c.model == "gpt-4" && c.maxTokens == 1000
    ensures c.user.SectionEditMessage?
  {
    Completion(EditModel, "You are an academic editor helping to improve research paper " + sectionName + " sections.",
               SectionEditMessage(sectionName, current, instructions, HistoryText(p.history, render), p.referenceStyle, p.targetAudience),
               EditMaxTokens)
  }

  /** The edit-section endpoint: the edited text replaces the section (or is
      added as a new one), and the edit is appended to the history. Nothing
      else changes. */
  function EditSection(p: Paper, sectionName: string, current: string, instructions: string,
                       llm: Llm, render: Renderer, now: string): (r: Result<Paper>)
    ensures r.Err? <==> llm(SectionEditRequest(p, sectionName, current, instructions, render)).Err?
    ensures r.Ok? ==>
      var edited := llm(SectionEditRequest(p, sectionName, current, instructions, render)).value;
      && r.value.content.entries == p.content.entries[sectionName := edited]
      && (p.content.Valid() ==> r.value.content.Valid())
      && r.value.history == p.history + [EditItem(now, instructions, current, edited)]
      && r.value.status == p.status && r.value.currentSection == p.currentSection
      && r.value.confirmed == p.confirmed
    ensures r.Ok? ==> r.value.(content := p.content, history := p.history) == p
  {
    var edited :- llm(SectionEditRequest(p, sectionName, current, instructions, render));
    Ok(p.(content := Put(p.content, sectionName, edited),
          history := p.history + [EditItem(now, instructions, current, edited)]))
  }

  // ----- The abstract -----

  const AbstractEditSystem: string := "You are an academic editor helping to improve research paper abstracts."

  /** The completion request of an abstract edit. */
  function AbstractEditRequest(p: Paper, abstractText: string, instructions: string, render: Renderer): (c: Completion)
    ensures c.model == "gpt-4" && c.maxTokens == 1000
    ensures c.user.AbstractEditMessage?
  {
    Completion(EditModel, AbstractEditSystem,
               AbstractEditMessage(abstractText, instructions, HistoryText(p.history, render), p.referenceStyle, p.targetAudience),
               EditMaxTokens)
  }

  /** The edit-abstract endpoint: the section content becomes the edited
      abstract alone, and the edit is appended to the history. */
  function EditAbstract(p: Paper, abstractText: string, instructions: string,
                        llm: Llm, render: Renderer, now: string): (r: Result<Paper>)
    ensures r.Err? <==> llm(AbstractEditRequest(p, abstractText, instructions, render)).Err?
    ensures r.Ok? ==>
      var edited := llm(AbstractEditRequest(p, abstractText, instructions, render)).value;
      && r.value.content.entries == map["abstract" := edited]
      && r.value.content.Valid()
      && r.value.history == p.history + [EditItem(now, instructions, abstractText, edited)]
      && r.value.status == p.status && r.value.currentSection == p.currentSection
      && r.value.confirmed == p.confirmed
    ensures r.Ok? ==> r.value.(content := p.content, history := p.history) == p
  {
    var edited :- llm(AbstractEditRequest(p, abstractText, instructions, render));
    Ok(p.(content := Singleton("abstract", edited),
          history := p.history + [EditItem(now, instructions, abstractText, edited)]))
  }

  /** Editing the abstract discards every other section, the references
      block included. */
  lemma EditAbstractDropsSections(p: Paper, abstractText: string, instructions: string,
                                  llm: Llm, render: Renderer, now: string, k: string)
    requires EditAbstract(p, abstractText, instructions, llm, render, now).Ok?
    requires k != "abstract"
    ensures k !in EditAbstract(p, abstractText, instructions, llm, render, now).value.content.entries
  {
  }

  // ----- Properties of the history -----

  /** Each successful edit adds exactly one entry at the end, so earlier
      entries are never rewritten. */
  lemma EditKeepsHistory(p: Paper, sectionName: string, current: string, instructions: string,
                         llm: Llm, render: Renderer, now: string)
    requires EditSection(p, sectionName, current, instructions, llm, render, now).Ok?
    ensures var h := EditSection(p, sectionName, current, instructions, llm, render, now).value.history;
      && |h| == |p.history| + 1
      && IsPrefix(p.history, h)
      && h[|p.history|].previousContent == current
      && h[|p.history|].instructions == instructions
  {
    var h := EditSection(p, sectionName, current, instructions, llm, render, now).value.history;
    assert h[..|p.history|] == p.history;
  }

  // ----- What the editor is shown -----

  /** The section editor is shown the text to edit first, and the history,
      or a note that there is none. */
  lemma SectionEditorSees(p: Paper, sectionName: string, current: string, instructions: string, render: Renderer)
    ensures var text := SectionEditText(SectionEditRequest(p, sectionName, current, instructions, render).user);
      && StartsWith(text, SectionEditOpening(sectionName) + current)
      && Contains(text, "Previous edit history:\n" + HistoryText(p.history, render))
  {
    var history := HistoryText(p.history, render);
    var text := SectionEditPrompt(sectionName, current, instructions, history, p.referenceStyle, p.targetAudience);
    EditHeadShows(text, SectionEditOpening(sectionName), current, instructions, history);
  }

  /** The abstract editor is shown the abstract first, and the history. */
  lemma AbstractEditorSees(p: Paper, abstractText: string, instructions: string, render: Renderer)
    ensures var text := AbstractEditText(AbstractEditRequest(p, abstractText, instructions, render).user);
      && StartsWith(text, AbstractEditOpening + abstractText)
      && Contains(text, "Previous edit history:\n" + HistoryText(p.history, render))
  {
    var history := HistoryText(p.history, render);
    var text := AbstractEditPrompt(abstractText, instructions, history, p.referenceStyle, p.targetAudience);
    EditHeadShows(text, AbstractEditOpening, abstractText, instructions, history);
  }
}

=== FILE: gather.dfy ===
/** The reference-gathering strategy of `OpenAlexSearch`
    (`get_reference_papers_content`): one query for the paper title, then
    keyword queries from the largest combinations down, accepting each new
    record once, until 40 papers are found; then an analysis of the papers
    by the completion service. */
module Gather {
  import opened Wrappers
  import opened Seqs
  import opened Text
  import opened PyValues
  import opened Works
  import opened Combinations
  import opened Services

  const TargetPaperCount: nat := 40
  const PerPage: nat := 25

  datatype SearchRequest = SearchRequest(keyword: string, perPage: nat, page: nat)

  /** The search service: the response's `results` key, or the exception
      the request raised. */
  type Search = SearchRequest -> Result<Field<seq<Work>>>

  /** Every query of the strategy asks for the first page of 25 results. */
  function Request(query: string): SearchRequest {
    SearchRequest(query, PerPage, 1)
  }

  /** Iterating `response.get("results", [])`: a `null` list raises. */
  function Hits(f: Field<seq<Work>>): (r: Result<seq<Work>>)
    ensures r.Err? <==> f.Null?
    ensures f.Absent? ==> r == Ok([])
  {
    match f
    case Absent => Ok([])
    case Null => Err("TypeError: 'NoneType' object is not iterable")
    case Present(ws) => Ok(ws)
  }

  /** An accepted record: the id it was deduplicated on and its details. */
  datatype Found = Found(id: string, details: PaperDetails)

  /** The accepted papers, in acceptance order. */
  function Papers(found: seq<Found>): (r: seq<PaperDetails>)
    ensures |r| == |found|
    ensures forall i :: 0 <= i < |found| ==> r[i] == found[i].details
  {
    seq(|found|, i requires 0 <= i < |found| => found[i].details)
  }

  /** The ids of the accepted papers, in acceptance order. */
  function Ids(found: seq<Found>): (r: seq<string>)
    ensures |r| == |found|
    ensures forall i :: 0 <= i < |found| ==> r[i] == found[i].id
  {
    seq(|found|, i requires 0 <= i < |found| => found[i].id)
  }

  /** What the strategy maintains: at most 40 papers, each accepted under a
      non-empty id that no other accepted paper has. */
  predicate Good(found: seq<Found>) {
    && |found| <= TargetPaperCount
    && Distinct(Ids(found))
    && forall i :: 0 <= i < |found| ==> found[i].id != ""
  }

  predicate Full(found: seq<Found>) {
    |found| >= TargetPaperCount
  }

  /** One record of a result list: accepted when there is still room, its id
      is truthy and unseen, and its details can be read. A record whose
      details raise is skipped without remembering its id. */
  function Consider(found: seq<Found>, w: Work): (r: seq<Found>)
    ensures Good(found) ==> Good(r)
    ensures IsPrefix(found, r) && |r| <= |found| + 1
  {
    if Full(found) then found
    else match PaperKey(w)
      case None => found
      case Some(k) =>
        if k in Ids(found) then found
        else match GetPaperDetails(w)
          case Err(_) => found
          case Ok(d) =>
            var r := found + [Found(k, d)];
            assert Ids(r) == Ids(found) + [k];
            r
  }

  /** One result list, record by record. Once 40 papers are in, the rest of
      the list changes nothing. */
  function Absorb(found: seq<Found>, ws: seq<Work>): (r: seq<Found>)
    ensures Good(found) ==> Good(r)
    ensures IsPrefix(found, r)
    decreases |ws|
  {
    if ws == [] then found else Absorb(Consider(found, ws[0]), ws[1..])
  }

  /** Issues the queries in order, absorbing each result list. No query is
      issued once 40 papers are in; the first failing query fails the run. */
  function RunQueries(search: Search, found: seq<Found>, queries: seq<string>): (r: Result<seq<Found>>)
    ensures r.Ok? && Good(found) ==> Good(r.value)
    ensures r.Ok? ==> IsPrefix(found, r.value)
    decreases |queries|
  {
    if queries == [] || Full(found) then Ok(found)
    else match search(Request(queries[0]))
      case Err(e) => Err(e)
      case Ok(response) =>
        match Hits(response)
        case Err(e) => Err(e)
        case Ok(ws) => RunQueries(search, Absorb(found, ws), queries[1..])
  }

  /** The full run: the title query, then every keyword query. */
  function Run(search: Search, keywords: seq<string>, title: string): Result<seq<Found>> {
    RunQueries(search, [], [title] + LevelQueries(keywords))
  }

  /** The result of `get_reference_papers_content`. */
  datatype References = References(papers: seq<PaperDetails>, analysis: Option<string>)

  const AnalysisModel: string := "gpt-3.5-turbo"
  const AnalysisSystem: string :=
    "You are a research paper assistant helping to analyze academic papers and provide insights for writing a research paper. " +
    "Be selective in choosing references and focus only on papers that are directly relevant to the research topic."
  const AnalysisMaxTokens: nat := 2000
  const AnalysisError: string := "Error getting analysis from ChatGPT"

  /** The analysis request for the papers found. */
  function AnalysisRequest(papers: seq<PaperDetails>, title: string, section: string): (c: Completion)
    ensures c.model == "gpt-3.5-turbo" && c.maxTokens == 2000
    ensures c.user.AnalysisMessage? && c.user.papers == papers
  {
    Completion(AnalysisModel, AnalysisSystem, AnalysisMessage(papers, title, section), AnalysisMaxTokens)
  }

  /** `get_chatgpt_analysis`: the humanized completion, the raw completion when
      the humanizer fails, and a fixed apology when the completion fails. */
  function Analysis(llm: Llm, humanize: Humanizer, papers: seq<PaperDetails>, title: string, section: string): (r: string)
    ensures llm(AnalysisRequest(papers, title, section)).Err? ==> r == AnalysisError
    ensures llm(AnalysisRequest(papers, title, section)).Ok? ==>
      r == Humanized(humanize, llm(AnalysisRequest(papers, title, section)).value)
  {
    var request := AnalysisRequest(papers, title, section);
    match llm(request)
    case Err(_) => AnalysisError
    case Ok(text) => Humanized(humanize, text)
  }

  /** `get_reference_papers_content`: any exception escaping the run, a failed
      search included, gives no papers and no analysis. */
  function Gather(search: Search, llm: Llm, humanize: Humanizer, keywords: seq<string>, title: string, section: string): (r: References)
    ensures |r.papers| <= TargetPaperCount
    ensures r.analysis.None? <==> Run(search, keywords, title).Err?
    ensures r.analysis.None? ==> r.papers == []
  {
    match Run(search, keywords, title)
    case Err(_) => References([], None)
    case Ok(found) =>
      var papers := Papers(found);
      References(papers, Some(Analysis(llm, humanize, papers, title, section)))
  }

  // Properties of the strategy

  /** Once 40 papers are in, a result list changes nothing. */
  lemma {:induction false} AbsorbFull(found: seq<Found>, ws: seq<Work>)
    requires Full(found)
    ensures Absorb(found, ws) == found
    decreases |ws|
  {
    if ws != [] {
      AbsorbFull(found, ws[1..]);
    }
  }

  /** Once 40 papers are in, no further query is issued, so not even a
      failing search can change the outcome. */
  lemma FullStops(search: Search, found: seq<Found>, queries: seq<string>)
    requires Full(found)
    ensures RunQueries(search, found, queries) == Ok(found)
  {
  }

  /** Running two query lists one after the other is running their
      concatenation; a failure in the first list ends the run. */
  lemma {:induction false} RunQueriesAppend(search: Search, found: seq<Found>, a: seq<string>, b: seq<string>)
    ensures RunQueries(search, found, a + b) ==
      match RunQueries(search, found, a)
      case Err(e) => Err(e)
      case Ok(middle) => RunQueries(search, middle, b)
    decreases |a|
  {
    if a != [] && !Full(found) {
      assert (a + b)[0] == a[0] && (a + b)[1..] == a[1..] + b;
      match search(Request(a[0]))
      case Err(_) =>
      case Ok(response) =>
        match Hits(response)
        case Err(_) =>
        case Ok(ws) => RunQueriesAppend(search, Absorb(found, ws), a[1..], b);
    } else if a == [] {
      assert a + b == b;
    }
  }

  /** The record `w` is in the result list the search service returns for `q`. */
  ghost predicate Served(search: Search, q: string, w: Work) {
    && search(Request(q)).Ok?
    && Hits(search(Request(q)).value).Ok?
    && w in Hits(search(Request(q)).value).value
  }

  /** An accepted paper is the details of a record with that id that one of
      the queries returned. */
  ghost predicate Sourced(search: Search, queries: seq<string>, f: Found) {
    exists q, w :: q in queries && Served(search, q, w) && PaperKey(w) == Some(f.id) && GetPaperDetails(w) == Ok(f.details)
  }

  /** Every paper a result list adds comes from a record of that list. */
  lemma {:induction false} AbsorbProvenance(found: seq<Found>, ws: seq<Work>)
    ensures forall i :: |found| <= i < |Absorb(found, ws)| ==>
      exists w :: w in ws && PaperKey(w) == Some(Absorb(found, ws)[i].id) && GetPaperDetails(w) == Ok(Absorb(found, ws)[i].details)
    decreases |ws|
  {
    if ws != [] {
      var next := Consider(found, ws[0]);
      AbsorbProvenance(next, ws[1..]);
      var r := Absorb(found, ws);
      assert r == Absorb(next, ws[1..]);
      assert IsPrefix(next, r);
      forall i | |found| <= i < |r|
        ensures exists w :: w in ws && PaperKey(w) == Some(r[i].id) && GetPaperDetails(w) == Ok(r[i].details)
      {
        if i < |next| {
          var k := PaperKey(ws[0]).value;
          var d := GetPaperDetails(ws[0]).value;
          assert next == found + [Found(k, d)];
          assert r[i] == next[i] == Found(k, d);
          assert ws[0] in ws;
        } else {
          var later := Absorb(next, ws[1..]);
          assert |next| <= i < |later|;
          var w :| w in ws[1..] && PaperKey(w) == Some(later[i].id) && GetPaperDetails(w) == Ok(later[i].details);
          assert w in ws;
        }
      }
    } else {
      assert Absorb(found, ws) == found;
    }
  }

  /** Every paper a run adds was returned by one of its queries. */
  lemma {:induction false} RunProvenance(search: Search, found: seq<Found>, queries: seq<string>)
    requires RunQueries(search, found, queries).Ok?
    ensures var r := RunQueries(search, found, queries).value;
      forall i :: |found| <= i < |r| ==> Sourced(search, queries, r[i])
    decreases |queries|
  {
    var r := RunQueries(search, found, queries).value;
    if queries != [] && !Full(found) {
      var q := queries[0];
      var ws := Hits(search(Request(q)).value).value;
      var middle := Absorb(found, ws);
      RunProvenance(search, middle, queries[1..]);
      AbsorbProvenance(found, ws);
      forall i | |found| <= i < |r|
        ensures Sourced(search, queries, r[i])
      {
        if i < |middle| {
          assert r[i] == middle[i];
          var w :| w in ws && PaperKey(w) == Some(middle[i].id) && GetPaperDetails(w) == Ok(middle[i].details);
          assert q in queries && Served(search, q, w);
        } else {
          var q', w :| q' in queries[1..] && Served(search, q', w) && PaperKey(w) == Some(r[i].id) && GetPaperDetails(w) == Ok(r[i].details);
          assert q' in queries;
        }
      }
    }
  }

  /** What a successful gather returns: at most 40 papers with distinct,
      truthy ids, each the details of a record one of the issued queries
      returned; a failed gather returns nothing. */
  lemma GatherResult(search: Search, llm: Llm, humanize: Humanizer, keywords: seq<string>, title: string, section: string)
    ensures var run := Run(search, keywords, title);
      var r := Gather(search, llm, humanize, keywords, title, section);
      && (run.Err? ==> r == References([], None))
      && (run.Ok? ==> Good(run.value) && r.papers == Papers(run.value)
                      && forall i :: 0 <= i < |run.value| ==> Sourced(search, [title] + LevelQueries(keywords), run.value[i]))
  {
    if Run(search, keywords, title).Ok? {
      RunProvenance(search, [], [title] + LevelQueries(keywords));
    }
  }

  /** The papers found by the title query come first, in the order of its
      result list. */
  lemma TitleHitsFirst(search: Search, keywords: seq<string>, title: string)
    requires Run(search, keywords, title).Ok?
    ensures search(Request(title)).Ok? && Hits(search(Request(title)).value).Ok?
    ensures IsPrefix(Absorb([], Hits(search(Request(title)).value).value), Run(search, keywords, title).value)
  {
    RunQueriesAppend(search, [], [title], LevelQueries(keywords));
  }

  /** A record whose details cannot be read leaves its id unseen: a later
      record with the same id is still accepted. */
  lemma RetryAfterFailedDetails(found: seq<Found>, bad: Work, good: Work)
    requires Good(found) && !Full(found)
    requires PaperKey(bad).Some? && PaperKey(bad) == PaperKey(good) && PaperKey(bad).value !in Ids(found)
    requires GetPaperDetails(bad).Err? && GetPaperDetails(good).Ok?
    ensures Consider(Consider(found, bad), good) == found + [Found(PaperKey(good).value, GetPaperDetails(good).value)]
  {
  }

  /** A record whose id was already accepted is skipped, even if its details
      differ. */
  lemma SeenIdSkipped(found: seq<Found>, w: Work)
    requires PaperKey(w).Some? && PaperKey(w).value in Ids(found)
    ensures Consider(found, w) == found
  {
  }

  /** A failing keyword search discards the papers the title query already
      found: the title query returns one readable record and the only
      keyword query fails, and the gather returns no papers and no analysis. */
  lemma FailureDiscardsEarlierFinds(llm: Llm, humanize: Humanizer)
    ensures var w := Work(Present("W1"), Absent, Absent, Absent, Absent, Absent, Absent, Absent,
                          Absent, Absent, Absent, Absent, Absent, Absent, Absent, Absent);
      var search: Search := (req: SearchRequest) => if req.keyword == "T" then Ok(Present([w])) else Err("ConnectionError");
      && |Absorb([], [w])| == 1
      && Gather(search, llm, humanize, ["k"], "T", "introduction") == References([], None)
  {
    var w := Work(Present("W1"), Absent, Absent, Absent, Absent, Absent, Absent, Absent,
                  Absent, Absent, Absent, Absent, Absent, Absent, Absent, Absent);
    var search: Search := (req: SearchRequest) => if req.keyword == "T" then Ok(Present([w])) else Err("ConnectionError");
    TitleThenFailure(search, w);
    GatherResult(search, llm, humanize, ["k"], "T", "introduction");
  }

  /** A run whose title query finds a readable record and whose only
      keyword query fails, fails. */
  lemma TitleThenFailure(search: Search, w: Work)
    requires PaperKey(w).Some? && GetPaperDetails(w).Ok?
    requires search(Request("T")) == Ok(Present([w]))
    requires search(Request("\"k\"")).Err?
    ensures Run(search, ["k"], "T").Err?
  {
    var found := [Found(PaperKey(w).value, GetPaperDetails(w).value)];
    TitleQueryFinds(search, w);
    QueryFails(search, found, "\"k\"", []);
    assert ["\"k\""] + [] == ["\"k\""];
    OneKeywordQueries("k");
    assert Quote("k") == "\"k\"";
    RunQueriesAppend(search, [], ["T"], ["\"k\""]);
  }

  /** The title query finding one readable record yields that record. */
  lemma TitleQueryFinds(search: Search, w: Work)
    requires PaperKey(w).Some? && GetPaperDetails(w).Ok?
    requires search(Request("T")) == Ok(Present([w]))
    ensures RunQueries(search, [], ["T"]) == Ok([Found(PaperKey(w).value, GetPaperDetails(w).value)])
  {
    AbsorbOne(w);
    assert ["T"][1..] == [];
  }

  /** A result list of one readable record adds that record. */
  lemma AbsorbOne(w: Work)
    requires PaperKey(w).Some? && GetPaperDetails(w).Ok?
    ensures Absorb([], [w]) == [Found(PaperKey(w).value, GetPaperDetails(w).value)]
  {
    assert [w][1..] == [];
    assert Absorb(Consider([], w), []) == Consider([], w);
  }

  /** A single keyword gives a single keyword query. */
  lemma OneKeywordQueries(k: string)
    ensures LevelQueries([k]) == [Quote(k)]
  {
    assert Comb([k], 1) == [[k]] by {
      var p := PrependAll(k, [[]]);
      assert |p| == 1 && p[0] == [k];
      assert [k][1..] == [];
    }
    assert Query([k]) == Quote(k);
    assert LevelsFrom([k], 0) == [];
  }

  // The loop as the method writes it

  /** The method's own state mirrors the accepted papers: the list of
      details and the set of seen ids. */
  ghost predicate Mirrors(processed: seq<PaperDetails>, seen: set<string>, found: seq<Found>) {
    processed == Papers(found) && seen == Elements(Ids(found))
  }

  /** One step of the inner loop, spelled out. */
  lemma ConsiderStep(found: seq<Found>, w: Work)
    ensures Consider(found, w) ==
      if !Full(found) && PaperKey(w).Some? && PaperKey(w).value !in Ids(found) && GetPaperDetails(w).Ok?
      then found + [Found(PaperKey(w).value, GetPaperDetails(w).value)]
      else found
  {
  }

  lemma MirrorsAppend(processed: seq<PaperDetails>, seen: set<string>, found: seq<Found>, f: Found)
    requires Mirrors(processed, seen, found)
    ensures Mirrors(processed + [f.details], seen + {f.id}, found + [f])
  {
    assert Papers(found + [f]) == Papers(found) + [f.details];
    assert Ids(found + [f]) == Ids(found) + [f.id];
  }

  /** The inner loop over one result list, with its early exit once 40
      papers are in. */
  method AbsorbHits(processed0: seq<PaperDetails>, seen0: set<string>, ghost found0: seq<Found>, ws: seq<Work>)
    returns (processed: seq<PaperDetails>, seen: set<string>, ghost found: seq<Found>)
    requires Mirrors(processed0, seen0, found0)
    ensures found == Absorb(found0, ws)
    ensures processed == Papers(Absorb(found0, ws)) && seen == Elements(Ids(Absorb(found0, ws)))
  {
    processed, seen, found := processed0, seen0, found0;
    var i := 0;
    while i < |ws|
      invariant 0 <= i <= |ws|
      invariant Mirrors(processed, seen, found)
      invariant Absorb(found0, ws) == Absorb(found, ws[i..])
    {
      assert ws[i..][0] == ws[i] && ws[i..][1..] == ws[i + 1..];
      if |processed| >= TargetPaperCount {
        AbsorbFull(found, ws[i..]);
        break;
      }
      ghost var next := Consider(found, ws[i]);
      ConsiderStep(found, ws[i]);
      assert Absorb(found, ws[i..]) == Absorb(next, ws[i + 1..]);
      var paperId := PaperKey(ws[i]);
      if paperId.Some? && paperId.value !in seen {
        var details := GetPaperDetails(ws[i]);
        if details.Ok? {
          MirrorsAppend(processed, seen, found, Found(paperId.value, details.value));
          processed := processed + [details.value];
          seen := seen + {paperId.value};
          found := found + [Found(paperId.value, details.value)];
        }
      }
      assert found == next;
      i := i + 1;
    }
    if i == |ws| {
      assert ws[i..] == [];
    }
  }

  /** A query issued before the budget is reached whose results can be read
      hands its results on to the rest of the run. */
  lemma QueryStep(search: Search, found: seq<Found>, q: string, rest: seq<string>, ws: seq<Work>)
    requires !Full(found)
    requires search(Request(q)).Ok? && Hits(search(Request(q)).value) == Ok(ws)
    ensures RunQueries(search, found, [q] + rest) == RunQueries(search, Absorb(found, ws), rest)
  {
    assert ([q] + rest)[0] == q && ([q] + rest)[1..] == rest;
  }

  /** A query issued before the budget is reached that fails fails the run. */
  lemma QueryFails(search: Search, found: seq<Found>, q: string, rest: seq<string>)
    requires !Full(found)
    requires search(Request(q)).Err? || Hits(search(Request(q)).value).Err?
    ensures RunQueries(search, found, [q] + rest).Err?
  {
    assert ([q] + rest)[0] == q;
  }

  lemma QueriesCons(combos: seq<seq<string>>, j: nat)
    requires j < |combos|
    ensures Queries(combos[j..]) == [Query(combos[j])] + Queries(combos[j + 1..])
  {
  }

  /** A successful run gives its papers and their analysis. */
  lemma GatherOk(search: Search, llm: Llm, humanize: Humanizer, keywords: seq<string>, title: string, section: string,
                 found: seq<Found>)
    requires Run(search, keywords, title) == Ok(found)
    ensures Gather(search, llm, humanize, keywords, title, section) ==
      References(Papers(found), Some(Analysis(llm, humanize, Papers(found), title, section)))
  {
  }

  /** The queries of one combination size, each followed by its inner loop,
      stopping early once 40 papers are in. `failed` reports a search that
      raised; otherwise the run continues with `tail` from the new state. */
  method SearchCombinations(search: Search, processed0: seq<PaperDetails>, seen0: set<string>, ghost found0: seq<Found>,
                            combos: seq<seq<string>>, ghost tail: seq<string>)
    returns (processed: seq<PaperDetails>, seen: set<string>, ghost found: seq<Found>, failed: bool)
    requires Mirrors(processed0, seen0, found0) && Good(found0)
    ensures Mirrors(processed, seen, found) && Good(found)
    ensures failed ==> RunQueries(search, found0, Queries(combos) + tail).Err?
    ensures !failed ==> RunQueries(search, found0, Queries(combos) + tail) == RunQueries(search, found, tail)
  {
    processed, seen, found := processed0, seen0, found0;
    ghost var goal := RunQueries(search, found0, Queries(combos) + tail);
    assert combos[0..] == combos;
    var j := 0;
    while j < |combos|
      invariant 0 <= j <= |combos|
      invariant Mirrors(processed, seen, found) && Good(found)
      invariant goal == RunQueries(search, found, Queries(combos[j..]) + tail)
    {
      if |processed| >= TargetPaperCount {
        FullStops(search, found, Queries(combos[j..]) + tail);
        FullStops(search, found, tail);
        return processed, seen, found, false;
      }
      var query := Query(combos[j]);
      ghost var rest := Queries(combos[j + 1..]) + tail;
      QueriesCons(combos, j);
      assert Queries(combos[j..]) + tail == [query] + rest;
      var response := search(Request(query));
      if response.Err? || Hits(response.value).Err? {
        QueryFails(search, found, query, rest);
        return processed, seen, found, true;
      }
      var hits := Hits(response.value).value;
      QueryStep(search, found, query, rest, hits);
      processed, seen, found := AbsorbHits(processed, seen, found, hits);
      j := j + 1;
    }
    assert combos[j..] == [] && Queries([]) + tail == tail;
    failed := false;
  }

  /** One size of the keyword phase: every combination of `size` keywords. */
  method SearchLevel(search: Search, processed0: seq<PaperDetails>, seen0: set<string>, ghost found0: seq<Found>,
                     keywords: seq<string>, size: nat)
    returns (processed: seq<PaperDetails>, seen: set<string>, ghost found: seq<Found>, failed: bool)
    requires Mirrors(processed0, seen0, found0) && Good(found0)
    requires size > 0
    ensures Mirrors(processed, seen, found) && Good(found)
    ensures failed ==> RunQueries(search, found0, LevelsFrom(keywords, size)).Err?
    ensures !failed ==> RunQueries(search, found0, LevelsFrom(keywords, size)) == RunQueries(search, found, LevelsFrom(keywords, size - 1))
  {
    var combos := Comb(keywords, size);
    ghost var lower := LevelsFrom(keywords, size - 1);
    assert LevelsFrom(keywords, size) == Queries(combos) + lower;
    processed, seen, found, failed := SearchCombinations(search, processed0, seen0, found0, combos, lower);
  }

  /** The keyword phase: sizes from the number of keywords down to one,
      stopping once 40 papers are in. */
  method SearchLevels(search: Search, processed0: seq<PaperDetails>, seen0: set<string>, ghost found0: seq<Found>,
                      keywords: seq<string>)
    returns (processed: seq<PaperDetails>, seen: set<string>, ghost found: seq<Found>, failed: bool)
    requires Mirrors(processed0, seen0, found0) && Good(found0)
    ensures Mirrors(processed, seen, found) && Good(found)
    ensures failed ==> RunQueries(search, found0, LevelQueries(keywords)).Err?
    ensures !failed ==> RunQueries(search, found0, LevelQueries(keywords)) == Ok(found)
  {
    processed, seen, found := processed0, seen0, found0;
    ghost var goal := RunQueries(search, found0, LevelQueries(keywords));
    var size: nat := |keywords|;
    while size > 0
      invariant Mirrors(processed, seen, found) && Good(found)
      invariant goal == RunQueries(search, found, LevelsFrom(keywords, size))
    {
      if |processed| >= TargetPaperCount {
        break;
      }
      processed, seen, found, failed := SearchLevel(search, processed, seen, found, keywords, size);
      if failed {
        return;
      }
      size := size - 1;
    }
    if size > 0 {
      FullStops(search, found, LevelsFrom(keywords, size));
    }
    failed := false;
  }

  /** `get_reference_papers_content` as written: the title query, then for
      each size from the number of keywords down to one, each combination of
      that size, with the same early exits; any search failure ends it with
      no papers and no analysis. */
  method GetReferencePapersContent(search: Search, llm: Llm, humanize: Humanizer,
                                   keywords: seq<string>, title: string, section: string)
    returns (r: References)
    ensures r == Gather(search, llm, humanize, keywords, title, section)
    ensures |r.papers| <= TargetPaperCount
  {
    var processed: seq<PaperDetails> := [];
    var seen: set<string> := {};
    ghost var found: seq<Found> := [];

    var response := search(Request(title));
    if response.Err? || Hits(response.value).Err? {
      QueryFails(search, [], title, LevelQueries(keywords));
      return References([], None);
    }
    var titleHits := Hits(response.value).value;
    QueryStep(search, [], title, LevelQueries(keywords), titleHits);
    processed, seen, found := AbsorbHits(processed, seen, found, titleHits);

    var failed;
    processed, seen, found, failed := SearchLevels(search, processed, seen, found, keywords);
    if failed {
      return References([], None);
    }
    GatherOk(search, llm, humanize, keywords, title, section, found);
    var analysis := Analysis(llm, humanize, processed, title, section);
    return References(processed, Some(analysis));
  }
}

=== FILE: orderedmap.dfy ===
/** The section-content record of a paper: a JSON object from section name to
    text. Python dicts remember insertion order, and the order is visible (the
    section prompt lists the keys), so the map carries its key order. */
module OrderedMap {
  import opened Seqs

  datatype Dict = Dict(order: seq<string>, entries: map<string, string>) {

    /** The key order lists each key of the map exactly once. */
    ghost predicate Valid() {
      && Distinct(order)
      && (forall k :: k in entries <==> k in order)
    }
  }

  const Empty: Dict := Dict([], map[])

  /** `{key: value}`. */
  function Singleton(key: string, value: string): (r: Dict)
    ensures r.Valid()
    ensures r.entries.Keys == {key} && r.entries[key] == value
  {
    Dict([key], map[key := value])
  }

  /** `d[key] = value`: an existing key keeps its place, a new key goes last,
      and every other entry is untouched. */
  function Put(d: Dict, key: string, value: string): (r: Dict)
    ensures r.entries == d.entries[key := value]
    ensures key in d.order ==> r.order == d.order
    ensures key !in d.order ==> r.order == d.order + [key]
    ensures d.Valid() ==> r.Valid()
  {
    if key in d.order then Dict(d.order, d.entries[key := value])
    else Dict(d.order + [key], d.entries[key := value])
  }
}

=== FILE: paper.dfy ===
/** The stored state of one paper and the endpoints that move it along:
    starting a paper, generating the next section in order, confirming a
    section or the abstract, and requesting candidate titles. */
module PaperState {
  import opened Wrappers
  import opened Seqs
  import opened Text
  import opened PyValues
  import opened OrderedMap
  import opened Services
  import opened Prompts
  import opened Chat
  import opened Titles

  /** The generation status column. */
  datatype Status = NotStarted | InProgress | Completed | AbstractConfirmed

  /** The text the status column holds. */
  function StatusName(s: Status): string {
    match s
    case NotStarted => "not_started"
    case InProgress => "in_progress"
    case Completed => "completed"
    case AbstractConfirmed => "abstract_confirmed"
  }

  /** One entry of the edit history. */
  datatype EditItem = EditItem(timestamp: string, instructions: string, previousContent: string, newContent: string)

  /** A stored paper. The keywords are kept as one comma-joined string; only
      the length, the guidelines and the current section may be null. A null
      edit history or confirmation list reads as an empty one everywhere, so
      both are lists here. */
  datatype Paper = Paper(
    topic: string,
    keywords: string,
    length: Option<string>,
    academicField: string,
    paperType: string,
    referenceStyle: string,
    targetAudience: string,
    required: seq<string>,
    custom: seq<string>,
    additionalGuidelines: Option<string>,
    selectedTitle: string,
    currentSection: Option<string>,
    content: Dict,
    status: Status,
    history: seq<EditItem>,
    confirmed: seq<string>)

  // ----- Keywords -----

  /** `paper.keywords.split(",")`, as generate-next reads them. */
  function SplitKeywords(stored: string): (r: seq<string>)
    ensures |r| >= 1
  {
    Split(stored, ',')
  }

  /** `paper.keywords.split(",") if paper.keywords else []`, as
      generate-section reads them. */
  function GuardedKeywords(stored: string): (r: seq<string>)
    ensures stored == "" <==> r == []
  {
    if stored == "" then [] else Split(stored, ',')
  }

  /** Keywords without commas survive being stored and read back. */
  lemma KeywordsRoundTrip(keywords: seq<string>)
    requires keywords != []
    requires forall i :: 0 <= i < |keywords| ==> ',' !in keywords[i]
    ensures SplitKeywords(Join(",", keywords)) == keywords
    ensures keywords != [""] ==> GuardedKeywords(Join(",", keywords)) == keywords
  {
    assert [','] == ",";
    SplitJoin(keywords, ',');
    if Join(",", keywords) == "" {
      assert ',' !in "";
    }
  }

  /** A paper started without keywords stores the empty string, which the two
      readers disagree on: generate-next searches for one empty keyword. */
  lemma EmptyKeywords()
    ensures Join(",", []) == ""
    ensures SplitKeywords("") == [""]
    ensures GuardedKeywords("") == []
  {
    assert ',' !in "";
  }

  /** The record the prompts read, built from the stored paper: every key is
      written, so a null length renders as `None`. */
  function DataFor(p: Paper, keywords: seq<string>, references: Field<string>): (d: PaperData)
    ensures d.topic == p.topic && d.keywords == keywords && d.referencePapers == references
    ensures Get(d.length, "Medium") == p.length
    ensures ReferenceStyle(d) == p.referenceStyle
    ensures d.academicField == Present(p.academicField) && d.paperType == Present(p.paperType)
    ensures d.targetAudience == Present(p.targetAudience)
  {
    PaperData(p.topic, keywords, FieldOf(p.length), Present(p.academicField), Present(p.paperType),
              Present(p.referenceStyle), Present(p.targetAudience), references)
  }

  // ----- Start -----

  /** The keywords of a start request: a list, or a text sent as it is. */
  datatype KeywordInput = KeywordList(items: seq<string>) | KeywordText(text: string)

  /** The keyword column a start request leaves: a list is comma-joined and a
      text is stored unchanged. */
  function StoredKeywords(k: KeywordInput): (r: string)
    ensures k.KeywordText? ==> r == k.text
    ensures k.KeywordList? ==> r == Join(",", k.items)
  {
    match k
    case KeywordList(items) => Join(",", items)
    case KeywordText(text) => text
  }

  /** A list of keywords and the text that joins it with commas are stored
      alike. */
  lemma ListAndTextStoredAlike(items: seq<string>)
    ensures StoredKeywords(KeywordList(items)) == StoredKeywords(KeywordText(Join(",", items)))
  {
  }

  /** A non-empty list of keywords without commas, once stored, reads back as
      the same list in generate-next. */
  lemma StoredListReadsBack(items: seq<string>)
    requires items != []
    requires forall i :: 0 <= i < |items| ==> ',' !in items[i]
    ensures SplitKeywords(StoredKeywords(KeywordList(items))) == items
  {
    KeywordsRoundTrip(items);
  }

  /** The body of a start request. */
  datatype StartRequest = StartRequest(
    topic: string,
    keywords: KeywordInput,
    length: Option<string>,
    academicField: string,
    paperType: string,
    referenceStyle: string,
    targetAudience: string,
    required: seq<string>,
    custom: seq<string>,
    additionalGuidelines: Option<string>,
    selectedTitle: string)

  /** The abstract writer the start endpoint calls when the abstract comes
      first; its prompt is not part of this model. */
  type AbstractWriter = StartRequest -> Result<string>

  /** The first required section, or the first custom one when no section is
      required. */
  function FirstSection(req: StartRequest): (r: Option<string>)
    ensures r.None? <==> req.required == [] && req.custom == []
    ensures req.required != [] ==> r == Some(req.required[0])
    ensures req.required == [] && req.custom != [] ==> r == Some(req.custom[0])
  {
    if req.required != [] then Some(req.required[0])
    else if req.custom != [] then Some(req.custom[0])
    else None
  }

  const NoSectionError := "At least one section (required or custom) must be selected"

  /** The start endpoint: a new paper in progress at its first section, with
      the abstract already written when the abstract comes first. */
  function Start(req: StartRequest, writeAbstract: AbstractWriter): (r: Result<Paper>)
    ensures r.Err? <==>
      FirstSection(req).None? || (FirstSection(req) == Some("abstract") && writeAbstract(req).Err?)
    ensures r.Ok? ==>
      && r.value.status == InProgress
      && r.value.currentSection == FirstSection(req)
      && (req.keywords.KeywordList? ==> r.value.keywords == Join(",", req.keywords.items))
      && (req.keywords.KeywordText? ==> r.value.keywords == req.keywords.text)
      && r.value.history == [] && r.value.confirmed == []
      && r.value.content.Valid()
    ensures r.Ok? ==>
      && r.value.topic == req.topic && r.value.length == req.length
      && r.value.academicField == req.academicField && r.value.paperType == req.paperType
      && r.value.referenceStyle == req.referenceStyle && r.value.targetAudience == req.targetAudience
      && r.value.required == req.required && r.value.custom == req.custom
      && r.value.additionalGuidelines == req.additionalGuidelines && r.value.selectedTitle == req.selectedTitle
    ensures r.Ok? && FirstSection(req) == Some("abstract") ==>
      r.value.content.entries == map["abstract" := writeAbstract(req).value]
    ensures r.Ok? && FirstSection(req) != Some("abstract") ==> r.value.content.entries == map[]
  {
    match FirstSection(req)
    case None => Err(NoSectionError)
    case Some(first) =>
      var paper := Paper(req.topic, StoredKeywords(req.keywords), req.length, req.academicField, req.paperType,
                         req.referenceStyle, req.targetAudience, req.required, req.custom,
                         req.additionalGuidelines, req.selectedTitle, Some(first), Empty, InProgress, [], []);
      if first == "abstract" then
        var text :- writeAbstract(req);
        Ok(paper.(content := Singleton("abstract", text)))
      else Ok(paper)
  }

  // ----- Generate next -----

  /** The sections in generation order. */
  function AllSections(p: Paper): seq<string> {
    p.required + p.custom
  }

  /** The position of the current section among all sections, or -1 when it
      is null or not among them. */
  function CurrentIndex(all: seq<string>, current: Option<string>): (i: int)
    ensures -1 <= i < |all|
    ensures i == -1 <==> current.None? || current.value !in all
    ensures i >= 0 ==> all[i] == current.value && current.value !in all[..i]
  {
    if current.Some? && current.value in all then Position(all, current.value) else -1
  }

  /** The section after the current one, if there is one. */
  function NextAfter(all: seq<string>, current: Option<string>): (r: Option<string>)
    ensures r.Some? ==> r.value in all
    ensures r.None? <==> CurrentIndex(all, current) + 1 == |all|
  {
    var i := CurrentIndex(all, current);
    if i + 1 < |all| then Some(all[i + 1]) else None
  }

  /** What generate-next did: marked the paper completed, or wrote a section
      and named the one after it. */
  datatype NextOutcome =
    | AllGenerated(paper: Paper)
    | Generated(paper: Paper, section: string, text: string, following: Option<string>)

  /** The prompt record generate-next uses: no reference papers, and the
      keywords split without a guard. */
  function NextData(p: Paper): PaperData {
    DataFor(p, SplitKeywords(p.keywords), Absent)
  }

  /** The generate-next endpoint. A missing or empty next section completes
      the paper and changes nothing else; otherwise the next section is
      written, stored and made current. */
  function GenerateNext(p: Paper, llm: Llm, humanize: Humanizer): (r: Result<NextOutcome>)
    ensures var next := NextAfter(AllSections(p), p.currentSection);
      && (r.Ok? && r.value.AllGenerated? <==> next.None? || next == Some(""))
      && (r.Ok? && r.value.AllGenerated? ==> r.value.paper == p.(status := Completed))
      && (r.Err? <==> next.Some? && next != Some("")
                      && llm(SectionRequest(NextData(p), next.value, p.content)).Err?)
      && (r.Ok? && r.value.Generated? ==>
            && r.value.section == next.value
            && r.value.paper.currentSection == Some(next.value)
            && r.value.paper.content.entries == p.content.entries[next.value := r.value.text]
            && r.value.paper.status == p.status
            && r.value.paper.confirmed == p.confirmed
            && r.value.paper.history == p.history
            && r.value.paper == p.(content := Put(p.content, next.value, r.value.text), currentSection := next)
            && r.value.following
               == var i := CurrentIndex(AllSections(p), p.currentSection);
                  if i + 2 < |AllSections(p)| then Some(AllSections(p)[i + 2]) else None)
  {
    var all := AllSections(p);
    var i := CurrentIndex(all, p.currentSection);
    if i + 1 >= |all| || all[i + 1] == "" then Ok(AllGenerated(p.(status := Completed)))
    else
      var next := all[i + 1];
      var written :- GenerateSection(llm, humanize, NextData(p), next, p.content, {});
      var following := if i + 2 < |all| then Some(all[i + 2]) else None;
      Ok(Generated(p.(content := Put(p.content, next, written.text), currentSection := Some(next)),
                   next, written.text, following))
  }

  /** With distinct section names, generate-next walks the sections in order:
      the section after position `i` is the one at `i + 1`, and a paper
      whose current section is unknown starts at the first. */
  lemma NextWalksInOrder(all: seq<string>, i: nat)
    requires Distinct(all)
    requires i + 1 < |all|
    ensures NextAfter(all, Some(all[i])) == Some(all[i + 1])
  {
  }

  /** With distinct section names, the section generate-next reports as
      coming after the one it wrote is the one the following call writes. */
  lemma PreviewIsNext(p: Paper, llm: Llm, humanize: Humanizer)
    requires Distinct(AllSections(p))
    requires GenerateNext(p, llm, humanize).Ok? && GenerateNext(p, llm, humanize).value.Generated?
    ensures var g := GenerateNext(p, llm, humanize).value;
      g.following == NextAfter(AllSections(g.paper), g.paper.currentSection)
  {
    var all := AllSections(p);
    var j := CurrentIndex(all, p.currentSection) + 1;
    if j + 1 < |all| {
      NextWalksInOrder(all, j);
    } else {
      assert CurrentIndex(all, Some(all[j])) == j;
    }
  }

  lemma NextStartsAtFirst(all: seq<string>, current: Option<string>)
    requires all != []
    requires current.None? || current.value !in all
    ensures NextAfter(all, current) == Some(all[0])
  {
  }

  /** A name that is both required and custom sends generate-next back to its
      first occurrence: here "c" is never reached. */
  lemma RepeatedSectionCycles(all: seq<string>)
    requires all == ["a", "b", "a", "c"]
    ensures NextAfter(all, Some("a")) == Some("b")
    ensures NextAfter(all, Some("b")) == Some("a")
  {
    assert all[0] == "a" && all[1] == "b";
    assert "a" !in all[..0];
    assert Position(all, "a") == 0;
    assert "b" !in all[..1];
    assert Position(all, "b") == 1;
  }

  // ----- Confirmations -----

  /** The first required section that is not confirmed. */
  function FirstMissing(required: seq<string>, confirmed: seq<string>): (r: Option<string>)
    ensures r.None? <==> forall s :: s in required ==> s in confirmed
    ensures r.Some? ==> r.value in required && r.value !in confirmed
    ensures r.Some? ==> exists i :: 0 <= i < |required| && required[i] == r.value
                          && forall j :: 0 <= j < i ==> required[j] in confirmed
  {
    if required == [] then None
    else if required[0] !in confirmed then Some(required[0])
    else
      var r := FirstMissing(required[1..], confirmed);
      assert forall s :: s in required ==> s == required[0] || s in required[1..];
      if r.Some? then
        var i :| 0 <= i < |required[1..]| && required[1..][i] == r.value
                 && forall j :: 0 <= j < i ==> required[1..][j] in confirmed;
        assert required[i + 1] == r.value;
        assert forall j :: 0 <= j < i + 1 ==> required[j] in confirmed by {
          forall j | 0 <= j < i + 1 ensures required[j] in confirmed {
            if j > 0 { assert required[j] == required[1..][j - 1]; }
          }
        }
        r
      else r
  }

  /** The result of confirming a section: the paper and the next section to
      work on. */
  datatype Confirmation = Confirmation(paper: Paper, next: Option<string>)

  /** The confirm-section endpoint. The section joins the confirmed list once;
      the paper is completed exactly when the confirmed sections are, as a
      set, the required ones. */
  function ConfirmSection(p: Paper, section: string): (r: Confirmation)
    ensures section in r.paper.confirmed
    ensures IsPrefix(p.confirmed, r.paper.confirmed)
    ensures Elements(r.paper.confirmed) == Elements(p.confirmed) + {section}
    ensures Distinct(p.confirmed) ==> Distinct(r.paper.confirmed)
    ensures r.paper.status == Completed <==> Elements(r.paper.confirmed) == Elements(p.required)
    ensures r.paper.status != Completed ==> r.paper.status == InProgress
    ensures r.next == FirstMissing(p.required, r.paper.confirmed)
    ensures r.paper.content == p.content && r.paper.currentSection == p.currentSection
    ensures r.paper.(confirmed := p.confirmed, status := p.status) == p
  {
    var confirmed := if section in p.confirmed then p.confirmed else p.confirmed + [section];
    var status := if Elements(confirmed) == Elements(p.required) then Completed else InProgress;
    Confirmation(p.(confirmed := confirmed, status := status), FirstMissing(p.required, confirmed))
  }

  /** Once a section that is not required has been confirmed, no later
      confirmation completes the paper. */
  lemma ExtraConfirmationBlocksCompletion(p: Paper, section: string, extra: string)
    requires extra in p.confirmed && extra !in p.required
    ensures ConfirmSection(p, section).paper.status == InProgress
    ensures extra in ConfirmSection(p, section).paper.confirmed
  {
    var r := ConfirmSection(p, section);
    assert extra in Elements(r.paper.confirmed);
    assert extra !in Elements(p.required);
  }

  /** When only required sections have been confirmed, the paper is completed
      exactly when no required section is left, and then there is no next
      section. */
  lemma CompletionWhenRequiredOnly(p: Paper, section: string)
    requires forall s :: s in p.confirmed ==> s in p.required
    requires section in p.required
    ensures ConfirmSection(p, section).paper.status == Completed
      <==> ConfirmSection(p, section).next.None?
  {
    var r := ConfirmSection(p, section);
    assert forall s :: s in r.paper.confirmed ==> s in p.required;
    if r.next.None? {
      assert forall s :: s in p.required ==> s in r.paper.confirmed;
      assert Elements(r.paper.confirmed) == Elements(p.required);
    }
    if r.paper.status == Completed {
      assert forall s :: s in p.required ==> s in Elements(r.paper.confirmed);
    }
  }

  /** The confirm-abstract endpoint: only the status changes. */
  function ConfirmAbstract(p: Paper): (r: Paper)
    ensures r.status == AbstractConfirmed
    ensures r.content == p.content && r.confirmed == p.confirmed && r.history == p.history
    ensures r.currentSection == p.currentSection
    ensures r.(status := p.status) == p
  {
    p.(status := AbstractConfirmed)
  }

  // ----- Titles -----

  /** The body of a title request; every field but the topic and keywords is
      optional. */
  datatype TitleRequestBody = TitleRequestBody(
    topic: string,
    keywords: seq<string>,
    length: Option<string>,
    academicField: Option<string>,
    paperType: Option<string>,
    referenceStyle: Option<string>,
    targetAudience: Option<string>)

  /** `value or default` for an optional string. */
  function Or(o: Option<string>, default: string): (r: string)
    ensures Truthy(o) ==> r == o.value
    ensures !Truthy(o) ==> r == default
  {
    if Truthy(o) then o.value else default
  }

  /** The record the title endpoint hands to the title generator: the topic
      and keywords as sent, every setting present, with a lower-case default
      where the request left it missing or empty. */
  function TitleData(req: TitleRequestBody): (d: PaperData)
    ensures d.topic == req.topic && d.keywords == req.keywords && d.referencePapers == Absent
    ensures d.length.Present? && d.academicField.Present? && d.paperType.Present?
    ensures d.referenceStyle.Present? && d.targetAudience.Present?
    ensures Truthy(req.academicField) ==> d.academicField.value == req.academicField.value
    ensures !Truthy(req.academicField) ==> d.academicField.value == "general"
    ensures Truthy(req.paperType) ==> d.paperType.value == req.paperType.value
    ensures !Truthy(req.paperType) ==> d.paperType.value == "research"
    ensures Truthy(req.targetAudience) ==> d.targetAudience.value == req.targetAudience.value
    ensures !Truthy(req.targetAudience) ==> d.targetAudience.value == "academic"
  {
    PaperData(req.topic, req.keywords,
              Present(Or(req.length, "medium")), Present(Or(req.academicField, "general")),
              Present(Or(req.paperType, "research")), Present(Or(req.referenceStyle, "APA")),
              Present(Or(req.targetAudience, "academic")), Absent)
  }

  /** The title endpoint: the topic and the keywords must be non-empty;
      missing or empty settings get lower-case defaults before the title
      service is asked. */
  function GenerateTitles(req: TitleRequestBody, llm: Llm): (r: Result<seq<string>>)
    ensures req.topic == "" ==> r == Err("Topic is required")
    ensures req.topic != "" && req.keywords == [] ==> r == Err("Keywords are required")
    ensures r.Ok? ==> |r.value| <= 5
    ensures req.topic != "" && req.keywords != [] ==> r == GeneratePaperTitles(llm, TitleData(req))
  {
    if req.topic == "" then Err("Topic is required")
    else if req.keywords == [] then Err("Keywords are required")
    else GeneratePaperTitles(llm, TitleData(req))
  }

  /** A valid title request fails exactly when the title service fails, and
      otherwise gives the cleaned lines of the service's reply. */
  lemma TitlesOfValidRequest(req: TitleRequestBody, llm: Llm)
    requires req.topic != "" && req.keywords != []
    ensures GenerateTitles(req, llm).Err? <==> llm(TitleRequest(TitleData(req))).Err?
    ensures GenerateTitles(req, llm).Ok? ==>
      GenerateTitles(req, llm).value == CleanTitles(llm(TitleRequest(TitleData(req))).value)
  {
  }
}

=== FILE: prompts.dfy ===
/** The prompt text the backend sends to the language model: the common
    details of a section request, the per-section rubric (chosen by the
    lower-cased section name), the user message with the optional reference
    block, the whole-paper prompt, the title prompt, the request to analyse
    the papers found, and the editor's requests. */
module Prompts {
  import opened Wrappers
  import opened Text
  import opened PyValues
  import opened OrderedMap
  import opened Works

  /** The paper record the prompts read. `topic` and `keywords` are indexed
      directly; every other key is read with a default. */
  datatype PaperData = PaperData(
    topic: string,
    keywords: seq<string>,
    length: Field<string>,
    academicField: Field<string>,
    paperType: Field<string>,
    referenceStyle: Field<string>,
    targetAudience: Field<string>,
    referencePapers: Field<string>)

  /** The reference style as the prompts render it, `APA` when unset. */
  function ReferenceStyle(data: PaperData): (r: string)
    ensures data.referenceStyle.Absent? ==> r == "APA"
    ensures data.referenceStyle.Null? ==> r == "None"
    ensures data.referenceStyle.Present? ==> r == data.referenceStyle.value
  {
    Show(Get(data.referenceStyle, "APA"))
  }

  /** The names of the sections written so far, or `None` when there are none. */
  function PreviousSectionsText(previous: Dict): (r: string)
    ensures previous.order == [] ==> r == "None"
    ensures previous.order != [] ==> r == Join(", ", previous.order)
  {
    if previous.order == [] then "None" else Join(", ", previous.order)
  }

  /** The opening line of a section request, up to the topic. */
  function SectionHeader(sectionName: string, data: PaperData): string {
    "Generate the " + sectionName + " section for a research paper with the following details:\nTopic: " + data.topic + "\n"
  }

  /** The details every section request starts with: the header, the paper's
      settings, the sections written so far, and the checklist. */
  function BaseInfo(sectionName: string, data: PaperData, previous: Dict): (r: string)
    ensures StartsWith(r, SectionHeader(sectionName, data))
    ensures EndsWith(r, "Previous sections: " + PreviousSectionsText(previous) + SectionChecklist)
  {
    var settings := "Keywords: " + Join(", ", data.keywords) + "\nLength: " + Show(Get(data.length, "Medium")) + "\nAcademic Field: " + Show(Get(data.academicField, "General")) + "\nPaper Type: " + Show(Get(data.paperType, "Research")) + "\nReference Style: " + ReferenceStyle(data) + "\nTarget Audience: " + Show(Get(data.targetAudience, "Academic")) + "\n\n";
    Framed(SectionHeader(sectionName, data), settings, "Previous sections: " + PreviousSectionsText(previous) + SectionChecklist)
  }

  /** The section kinds that have their own instructions; every other name
      gets the generic ones. */
  datatype Rubric =
    | AbstractKind | IntroductionKind | LiteratureReviewKind | MethodologyKind
    | ResultsKind | DiscussionKind | ConclusionKind | GenericKind

  /** The rubric keys, as the lookup table spells them. */
  const RubricKeys: seq<string> :=
    ["abstract", "introduction", "literature_review", "methodology", "results", "discussion", "conclusion"]

  /** The kind a lower-cased name selects. */
  function KindOf(key: string): (k: Rubric)
    ensures k.GenericKind? <==> key !in RubricKeys
  {
    match key
    case "abstract" => AbstractKind
    case "introduction" => IntroductionKind
    case "literature_review" => LiteratureReviewKind
    case "methodology" => MethodologyKind
    case "results" => ResultsKind
    case "discussion" => DiscussionKind
    case "conclusion" => ConclusionKind
    case _ => GenericKind
  }

  /** The table lookup is by the lower-cased section name. */
  function RubricFor(sectionName: string): (k: Rubric)
    ensures k.GenericKind? <==> Lower(sectionName) !in RubricKeys
  {
    KindOf(Lower(sectionName))
  }

  /** The instructions of a rubric; the reference style and, for the generic
      rubric, the section name as the caller spelled it are filled in. */
  function RubricText(kind: Rubric, sectionName: string, style: string): string {
    match kind
    case AbstractKind => AbstractRubric + style + " style guidelines"
    case IntroductionKind => IntroductionRubric + style + " style\n8. Focus on recent trends and importance of the topic"
    case LiteratureReviewKind => LiteratureReviewRubric + style + LiteratureReviewRubricEnd
    case MethodologyKind => MethodologyRubric
    case ResultsKind => ResultsRubric
    case DiscussionKind => DiscussionRubric
    case ConclusionKind => ConclusionRubric
    case GenericKind => "Generate the " + sectionName + GenericRubric + style + " style\n7. Maintains professional tone"
  }

  /** `get_section_prompt`: the common details, a newline, then the rubric. */
  function SectionPrompt(sectionName: string, data: PaperData, previous: Dict): string {
    Framed(BaseInfo(sectionName, data, previous), "", "\n" + RubricText(RubricFor(sectionName), sectionName, ReferenceStyle(data)))
  }

  /** A section prompt opens with the section name and topic and closes with
      the rubric the lower-cased name selects. */
  lemma SectionPromptShape(sectionName: string, data: PaperData, previous: Dict)
    ensures StartsWith(SectionPrompt(sectionName, data, previous), SectionHeader(sectionName, data))
    ensures EndsWith(SectionPrompt(sectionName, data, previous),
                     "\n" + RubricText(RubricFor(sectionName), sectionName, ReferenceStyle(data)))
  {
    var base := BaseInfo(sectionName, data, previous);
    StartsWithTrans(SectionPrompt(sectionName, data, previous), base, SectionHeader(sectionName, data));
  }

  /** A prompt followed by the record's reference block, when the record
      carries a non-empty one. */
  function WithReferenceBlock(prompt: string, references: Field<string>): (r: string)
    ensures StartsWith(r, prompt)
    ensures (references.Present? && references.value != "") <==> |r| > |prompt|
    ensures references.Present? ==> EndsWith(r, references.value)
    ensures !references.Present? ==> r == prompt
  {
    Framed(prompt, "", if references.Present? then references.value else "")
  }

  /** The user message of a section request. */
  function UserPrompt(sectionName: string, data: PaperData, previous: Dict): string {
    WithReferenceBlock(SectionPrompt(sectionName, data, previous), data.referencePapers)
  }

  /** The record `create_research_paper_prompt` reads. Every key may be
      missing or `null`. */
  datatype PaperSpec = PaperSpec(
    topic: Field<string>,
    keywords: Field<seq<string>>,
    length: Field<string>,
    academicField: Field<string>,
    paperType: Field<string>,
    referenceStyle: Field<string>,
    targetAudience: Field<string>,
    sections: Field<seq<string>>,
    guidelines: Field<string>)

  const ResearchPaperHeader: string :=
    "Generate a comprehensive research paper with the following specifications:\n\nTopic: "

  /** `d[key]` inside an f-string: a missing key raises `KeyError`, a stored
      `null` renders as `None`. */
  function Required(f: Field<string>, key: string): (r: Result<string>)
    ensures r.Err? <==> f.Absent?
    ensures f.Null? ==> r == Ok("None")
    ensures f.Present? ==> r == Ok(f.value)
  {
    match f
    case Absent => Err("KeyError: '" + key + "'")
    case Null => Ok("None")
    case Present(v) => Ok(v)
  }

  /** `', '.join(d[key])`: a missing key raises `KeyError`, and a `null`
      list raises `TypeError`. */
  function JoinedList(f: Field<seq<string>>, key: string): (r: Result<string>)
    ensures r.Err? <==> !f.Present?
    ensures f.Present? ==> r == Ok(Join(", ", f.value))
  {
    match f
    case Absent => Err("KeyError: '" + key + "'")
    case Null => Err("TypeError: can only join an iterable")
    case Present(v) => Ok(Join(", ", v))
  }

  /** The lines of the research paper prompt from the length to the heading
      of the section list. */
  function SpecSettings(length: string, academicField: string, paperType: string, referenceStyle: string,
                        audience: string): string {
    "\nLength: " + length + "\nAcademic Field: " + academicField + "\nPaper Type: " + paperType
    + ("\nReference Style: " + referenceStyle + "\n")
    + ("Target Audience: " + audience + "\n\nRequired Sections:\n")
  }

  /** The lines of the research paper prompt between the topic and the
      closing requirements. */
  function SpecDetails(keywords: string, settings: string, sections: string, guidelines: string): string {
    ("Keywords: " + keywords + settings) + sections + ("\n\nAdditional Guidelines:\n" + guidelines)
  }

  /** `create_research_paper_prompt`. The keys are read in the order the
      prompt shows them; the first one that cannot be read raises. */
  function ResearchPaperPrompt(spec: PaperSpec): (r: Result<string>)
    ensures r.Err? <==>
      (spec.topic.Absent? || !spec.keywords.Present? || spec.length.Absent? || spec.academicField.Absent?
       || spec.paperType.Absent? || spec.referenceStyle.Absent? || !spec.sections.Present?)
    ensures r.Ok? ==> StartsWith(r.value, ResearchPaperHeader + Required(spec.topic, "topic").value + "\n")
    ensures r.Ok? ==> EndsWith(r.value, ResearchPaperRequirements)
  {
    var topic :- Required(spec.topic, "topic");
    var keywords :- JoinedList(spec.keywords, "keywords");
    var length :- Required(spec.length, "length");
    var academicField :- Required(spec.academicField, "academic_field");
    var paperType :- Required(spec.paperType, "paper_type");
    var referenceStyle :- Required(spec.referenceStyle, "reference_style");
    var audience := Show(Get(spec.targetAudience, "Academic researchers"));
    var sections :- JoinedList(spec.sections, "sections");
    var settings := SpecSettings(length, academicField, paperType, referenceStyle, audience);
    var details := SpecDetails(keywords, settings, sections, Show(Get(spec.guidelines, "None provided")));
    Ok(Framed(ResearchPaperHeader + topic + "\n", details, ResearchPaperRequirements))
  }

  /** The pieces a successful research paper prompt is made of. */
  lemma ResearchPaperPromptParts(spec: PaperSpec)
    requires ResearchPaperPrompt(spec).Ok?
    ensures ResearchPaperPrompt(spec).value ==
      ResearchPaperHeader + Required(spec.topic, "topic").value + "\n"
      + SpecDetails(Join(", ", spec.keywords.value),
                    SpecSettings(Required(spec.length, "length").value, Required(spec.academicField, "academic_field").value,
                                 Required(spec.paperType, "paper_type").value,
                                 Required(spec.referenceStyle, "reference_style").value,
                                 Show(Get(spec.targetAudience, "Academic researchers"))),
                    Join(", ", spec.sections.value), Show(Get(spec.guidelines, "None provided")))
      + ResearchPaperRequirements
  {
  }

  lemma DetailsNameKeyword(keywords: seq<string>, settings: string, sections: string, guidelines: string, i: nat)
    requires i < |keywords|
    ensures Contains(SpecDetails(Join(", ", keywords), settings, sections, guidelines), keywords[i])
  {
    var head := "Keywords: " + Join(", ", keywords) + settings;
    JoinContainsPart(", ", keywords, i);
    ContainsInside("Keywords: ", Join(", ", keywords), settings, keywords[i]);
    ContainsExtend(head, keywords[i], sections);
    ContainsExtend(head + sections, keywords[i], "\n\nAdditional Guidelines:\n" + guidelines);
  }

  lemma DetailsNameSection(keywords: string, settings: string, sections: seq<string>, guidelines: string, i: nat)
    requires i < |sections|
    ensures Contains(SpecDetails(keywords, settings, Join(", ", sections), guidelines), sections[i])
  {
    JoinContainsPart(", ", sections, i);
    ContainsInside("Keywords: " + keywords + settings, Join(", ", sections), "\n\nAdditional Guidelines:\n" + guidelines, sections[i]);
  }

  lemma DetailsNameStyle(keywords: string, length: string, academicField: string, paperType: string, style: string,
                         audience: string, sections: string, guidelines: string)
    ensures Contains(SpecDetails(keywords, SpecSettings(length, academicField, paperType, style, audience), sections, guidelines),
                     "\nReference Style: " + style + "\n")
  {
    var line := "\nReference Style: " + style + "\n";
    var settings := SpecSettings(length, academicField, paperType, style, audience);
    var head := "Keywords: " + keywords + settings;
    ContainsMiddle("\nLength: " + length + "\nAcademic Field: " + academicField + "\nPaper Type: " + paperType,
                   line, "Target Audience: " + audience + "\n\nRequired Sections:\n");
    ContainsPrepend("Keywords: " + keywords, settings, line);
    ContainsExtend(head, line, sections);
    ContainsExtend(head + sections, line, "\n\nAdditional Guidelines:\n" + guidelines);
  }

  /** The research paper prompt names every keyword, every section and the
      reference style. */
  lemma ResearchPaperPromptNamesAll(spec: PaperSpec)
    requires ResearchPaperPrompt(spec).Ok?
    ensures forall i :: 0 <= i < |spec.keywords.value| ==> Contains(ResearchPaperPrompt(spec).value, spec.keywords.value[i])
    ensures forall i :: 0 <= i < |spec.sections.value| ==> Contains(ResearchPaperPrompt(spec).value, spec.sections.value[i])
    ensures Contains(ResearchPaperPrompt(spec).value, "\nReference Style: " + Required(spec.referenceStyle, "reference_style").value + "\n")
  {
    var head := ResearchPaperHeader + Required(spec.topic, "topic").value + "\n";
    var style := Required(spec.referenceStyle, "reference_style").value;
    var length := Required(spec.length, "length").value;
    var academicField := Required(spec.academicField, "academic_field").value;
    var paperType := Required(spec.paperType, "paper_type").value;
    var audience := Show(Get(spec.targetAudience, "Academic researchers"));
    var guidelines := Show(Get(spec.guidelines, "None provided"));
    var settings := SpecSettings(length, academicField, paperType, style, audience);
    var keywords := Join(", ", spec.keywords.value);
    var sections := Join(", ", spec.sections.value);
    var details := SpecDetails(keywords, settings, sections, guidelines);
    ResearchPaperPromptParts(spec);
    var r := ResearchPaperPrompt(spec).value;
    assert r == head + details + ResearchPaperRequirements;
    forall i | 0 <= i < |spec.keywords.value|
      ensures Contains(r, spec.keywords.value[i])
    {
      DetailsNameKeyword(spec.keywords.value, settings, sections, guidelines, i);
      ContainsInside(head, details, ResearchPaperRequirements, spec.keywords.value[i]);
    }
    forall i | 0 <= i < |spec.sections.value|
      ensures Contains(r, spec.sections.value[i])
    {
      DetailsNameSection(keywords, settings, spec.sections.value, guidelines, i);
      ContainsInside(head, details, ResearchPaperRequirements, spec.sections.value[i]);
    }
    DetailsNameStyle(keywords, length, academicField, paperType, style, audience, sections, guidelines);
    ContainsInside(head, details, ResearchPaperRequirements, "\nReference Style: " + style + "\n");
  }

  /** The user message of the title request. */
  function TitlePrompt(data: PaperData): string {
    TitleRequestHead + data.topic + "\n        Keywords: " + Join(", ", data.keywords) + "\n        Academic Field: " + Show(Get(data.academicField, "General")) + "\n        Paper Type: " + Show(Get(data.paperType, "Research")) + "\n        Target Audience: " + Show(Get(data.targetAudience, "Academic")) + TitleRequestTail
  }

  /** The prompt names every section already written, followed directly by
      the checklist. */
  lemma SectionPromptListsPrevious(sectionName: string, data: PaperData, previous: Dict)
    ensures Contains(SectionPrompt(sectionName, data, previous), "Previous sections: " + PreviousSectionsText(previous) + SectionChecklist)
  {
    var base := BaseInfo(sectionName, data, previous);
    var r := SectionPrompt(sectionName, data, previous);
    ContainsEndOfPrefix(r, base, "Previous sections: " + PreviousSectionsText(previous) + SectionChecklist);
  }

  lemma LowerLower(s: string)
    ensures Lower(Lower(s)) == Lower(s)
  {
    assert forall i :: 0 <= i < |s| ==> LowerChar(LowerChar(s[i])) == LowerChar(s[i]);
  }

  /** The rubric does not depend on the capitalisation of the section name. */
  lemma RubricIgnoresCase(sectionName: string)
    ensures RubricFor(Lower(sectionName)) == RubricFor(sectionName)
  {
    LowerLower(sectionName);
  }

  /** Any capitalisation of a rubric key gets the specific rubric. */
  lemma RubricExamples()
    ensures RubricFor("Literature_Review") == LiteratureReviewKind
    ensures RubricFor("INTRODUCTION") == IntroductionKind
  {
    assert Lower("Literature_Review") == "literature_review";
    assert Lower("INTRODUCTION") == "introduction";
  }

  /** A name with a space instead of the underscore, like a name with no
      rubric of its own, gets the generic rubric. */
  lemma GenericRubricExamples()
    ensures RubricFor("Literature Review") == GenericKind
    ensures RubricFor("Future Work") == GenericKind
  {
    assert Lower("Literature Review") == "literature review";
    assert Lower("Future Work") == "future work";
  }

  /** The generic rubric repeats the section name as the caller spelled it. */
  lemma GenericRubricNamesSection(sectionName: string, style: string)
    ensures StartsWith(RubricText(GenericKind, sectionName, style), "Generate the " + sectionName + " section that:")
  {
    var r := RubricText(GenericKind, sectionName, style);
    assert GenericRubric[..14] == " section that:";
    assert r[..|"Generate the " + sectionName + " section that:"|] == "Generate the " + sectionName + " section that:";
  }

  // ----- The analysis of the papers found -----

  /** The block describing one paper in the analysis prompt. */
  function PaperText(p: PaperDetails): string {
    "Title: " + Show(p.title) + "\n" +
    "Authors: " + Join(", ", p.authors) + "\n" +
    "Year: " + Str(p.publicationYear) + "\n" +
    "Abstract: " + Show(p.abstractText) + "\n" +
    "Keywords: " + Join(", ", p.keywords) + "\n" +
    "Citations: " + Str(p.citations) + "\n" +
    "DOI: " + Show(p.doi)
  }

  /** The paper blocks, separated by blank lines. */
  function PapersText(papers: seq<PaperDetails>): (r: string)
    ensures forall i :: 0 <= i < |papers| ==> Contains(r, PaperText(papers[i]))
  {
    var blocks := seq(|papers|, i requires 0 <= i < |papers| => PaperText(papers[i]));
    var r := Join("\n\n", blocks);
    assert forall i :: 0 <= i < |papers| ==> Contains(r, PaperText(papers[i])) by {
      forall i | 0 <= i < |papers|
        ensures Contains(r, PaperText(papers[i]))
      {
        JoinContainsPart("\n\n", blocks, i);
      }
    }
    r
  }

  /** The user message of the analysis request. */
  function AnalysisPrompt(papers: seq<PaperDetails>, title: string, section: string): string {
    "\n            I am writing a research paper with the title: \"" + title + "\"\n" +
    "            \n            I need help with the " + section + " section. Here are some relevant papers I found:\n" +
    "            \n            " + PapersText(papers) + AnalysisTasks + section + AnalysisGuidance
  }

  /** The fixed requests of the analysis prompt that follow the paper list,
      up to the section name. */
  const AnalysisTasks: string :=
    "\n" +
    "            \n" +
    "            Please analyze these papers and provide:\n" +
    "            1. A summary of the key findings and trends, focusing only on papers that are directly relevant to my research topic\n" +
    "            2. How these relevant papers relate to my research topic, being selective and only discussing papers that provide meaningful insights\n" +
    "            3. Any gaps in the literature that my research could address, based on the most relevant papers\n" +
    "            4. Key citations and references I should include in my "

  /** The fixed guidance that closes the analysis prompt. */
  const AnalysisGuidance: string :=
    "\n" +
    "            \n" +
    "            Please:\n" +
    "            - Only use references that are directly relevant to my research topic\n" +
    "            - Focus on recent papers (last 5-10 years) unless older papers are seminal works\n" +
    "            - Prioritize papers that match multiple keywords from my research\n" +
    "            - Exclude papers that are only tangentially related\n" +
    "            - Be selective in choosing references to maintain focus and relevance\n" +
    "            \n" +
    "            Please format your response in a clear, academic style suitable for a research paper.\n" +
    "            "

  // ----- The editor -----

  /** The part of an edit prompt up to the history: what to edit, the
      instructions, and the history. */
  function EditHead(opening: string, current: string, instructions: string, history: string): (r: string)
    ensures StartsWith(r, opening + current + "\n\nEdit instructions:\n" + instructions + "\n")
    ensures EndsWith(r, "Previous edit history:\n" + history)
  {
    Framed(opening + current + "\n\nEdit instructions:\n" + instructions + "\n", "\n", "Previous edit history:\n" + history)
  }

  function SectionEditOpening(sectionName: string): string {
    "Please edit the following " + sectionName + " section based on these instructions:\n\nSection to edit:\n"
  }

  /** The editor's request for a section, with the history as shown to the
      editor and the paper's reference style and audience. */
  function SectionEditPrompt(sectionName: string, current: string, instructions: string, history: string,
                             style: string, audience: string): (r: string)
    ensures StartsWith(r, EditHead(SectionEditOpening(sectionName), current, instructions, history))
    ensures EndsWith(r, SectionEditChecklistEnd)
  {
    var head := EditHead(SectionEditOpening(sectionName), current, instructions, history);
    Framed(head, SectionEditChecklist + style + ")\n3. Is appropriate for the target audience (" + audience, SectionEditChecklistEnd)
  }

  const AbstractEditOpening: string :=
    "Please edit the following abstract based on these instructions:\n\nAbstract to edit:\n"

  /** The editor's request for the abstract. */
  function AbstractEditPrompt(abstractText: string, instructions: string, history: string,
                              style: string, audience: string): (r: string)
    ensures StartsWith(r, EditHead(AbstractEditOpening, abstractText, instructions, history))
    ensures EndsWith(r, AbstractEditChecklistEnd)
  {
    var head := EditHead(AbstractEditOpening, abstractText, instructions, history);
    Framed(head, AbstractEditChecklist + style + ")\n3. Is appropriate for the target audience (" + audience, AbstractEditChecklistEnd)
  }

  /** A text that opens with an edit head opens with the text to edit and
      contains the history. */
  lemma EditHeadShows(s: string, opening: string, current: string, instructions: string, history: string)
    requires StartsWith(s, EditHead(opening, current, instructions, history))
    ensures StartsWith(s, opening + current)
    ensures Contains(s, "Previous edit history:\n" + history)
  {
    var head := EditHead(opening, current, instructions, history);
    var rest := "\n\nEdit instructions:\n" + instructions + "\n";
    StartsWithTrans(s, head, opening + current + rest);
    PrefixOfPrefix(s, opening + current, rest);
    ContainsEndOfPrefix(s, head, "Previous edit history:\n" + history);
  }

  /** The checklist that closes the common part of every section prompt. */
  const SectionChecklist: string :=
    "\n" +
    "\n" +
    "Please ensure the section:\n" +
    "1. Maintains consistency with previous sections\n" +
    "2. Uses proper academic language\n" +
    "3. Follows the specified reference style\n" +
    "4. Is appropriate for the target audience\n" +
    "5. Aligns with the paper's objectives\n" +
    "6. Maintains professional tone\n"
  /** The instructions for the "abstract" section. */
  const AbstractRubric: string :=
    "Generate an abstract that:\n" +
    "1. Provides a concise overview of the research topic\n" +
    "2. States the research problem and objectives\n" +
    "3. Briefly describes the methodology\n" +
    "4. Summarizes key findings\n" +
    "5. Concludes with the significance of the research\n" +
    "6. Should be between 150-250 words\n" +
    "7. Follow "
  /** The instructions for the "introduction" section. */
  const IntroductionRubric: string :=
    "Generate an introduction section that:\n" +
    "1. Provides background information on the research topic\n" +
    "2. Clearly states the research problem and its significance\n" +
    "3. Reviews relevant literature and identifies gaps\n" +
    "4. States the research objectives and questions\n" +
    "5. Outlines the structure of the paper\n" +
    "6. Maintains a logical flow from general to specific\n" +
    "7. Includes proper citations in "
  /** The instructions for the "literature_review" section. */
  const LiteratureReviewRubric: string :=
    "Generate a literature review section that:\n" +
    "1. Critically analyzes existing research on the topic\n" +
    "2. Organizes literature thematically or chronologically\n" +
    "3. Identifies gaps in current research\n" +
    "4. Shows how this research builds on previous work\n" +
    "5. Synthesizes findings from multiple sources\n" +
    "6. Includes proper citations in "
  const LiteratureReviewRubricEnd: string :=
    " style\n" +
    "7. Maintains academic tone and objectivity\n" +
    "8. Focus on existing methods and previous studies"
  /** The instructions for the "methodology" section. */
  const MethodologyRubric: string :=
    "Generate a methodology section that:\n" +
    "1. Clearly describes the research design\n" +
    "2. Details data collection methods\n" +
    "3. Explains sampling techniques\n" +
    "4. Describes data analysis procedures\n" +
    "5. Addresses ethical considerations\n" +
    "6. Justifies methodological choices\n" +
    "7. Includes proper citations for methods used\n" +
    "8. Focus on techniques, approaches, and frameworks"
  /** The instructions for the "results" section. */
  const ResultsRubric: string :=
    "Generate a results section that:\n" +
    "1. Presents findings clearly and objectively\n" +
    "2. Uses appropriate tables and figures\n" +
    "3. Organizes results logically\n" +
    "4. Includes statistical analysis if applicable\n" +
    "5. Highlights key findings\n" +
    "6. Maintains consistency with methodology\n" +
    "7. Avoids interpretation or discussion\n" +
    "8. Focus on evaluation metrics and performance"
  /** The instructions for the "discussion" section. */
  const DiscussionRubric: string :=
    "Generate a discussion section that:\n" +
    "1. Interprets the results\n" +
    "2. Compares findings with previous research\n" +
    "3. Explains unexpected results\n" +
    "4. Addresses limitations\n" +
    "5. Suggests implications for practice\n" +
    "6. Proposes future research directions\n" +
    "7. Maintains academic tone and objectivity\n" +
    "8. Focus on implications and impact"
  /** The instructions for the "conclusion" section. */
  const ConclusionRubric: string :=
    "Generate a conclusion section that:\n" +
    "1. Summarizes key findings\n" +
    "2. Restates research significance\n" +
    "3. Addresses research objectives\n" +
    "4. Highlights contributions to the field\n" +
    "5. Suggests practical applications\n" +
    "6. Maintains consistency with previous sections\n" +
    "7. Provides a strong closing statement\n" +
    "8. Focus on future work and limitations"
  /** The middle of the instructions for any other section. */
  const GenericRubric: string :=
    " section that:\n" +
    "1. Follows academic writing standards\n" +
    "2. Maintains consistency with previous sections\n" +
    "3. Includes proper citations if needed\n" +
    "4. Is appropriate for the target audience\n" +
    "5. Aligns with the paper's objectives\n" +
    "6. Uses "
  /** The numbered requirements that close the research paper prompt. */
  const ResearchPaperRequirements: string :=
    "\n" +
    "\n" +
    "Please generate a well-structured research paper that:\n" +
    "1. Follows academic writing standards\n" +
    "2. Includes proper citations in the specified reference style\n" +
    "3. Maintains a logical flow between sections\n" +
    "4. Incorporates the provided keywords naturally\n" +
    "5. Is appropriate for the target audience\n" +
    "6. Adheres to the specified length requirements\n" +
    "\n" +
    "Format the output with clear section headers and proper academic formatting."
  /** The opening line of the title prompt. */
  const TitleRequestHead: string :=
    "Generate 5 potential research paper titles based on the following specifications:\n" +
    "        \n" +
    "        Topic: "
  /** The closing request of the title prompt. */
  const TitleRequestTail: string :=
    "\n" +
    "        \n" +
    "        Please provide 5 distinct, professional, and engaging titles that reflect the research focus.\n" +
    "        Format the response as a list of titles, one per line."

  /** The checklist of the abstract edit prompt, up to the reference style. */
  const AbstractEditChecklist: string :=
    "\n" +
    "\n" +
    "Please provide the edited abstract that:\n" +
    "1. Maintains academic writing standards\n" +
    "2. Follows the specified reference style ("

  /** The rest of the abstract edit prompt, after the target audience. */
  const AbstractEditChecklistEnd: string :=
    ")\n" +
    "4. Incorporates the requested changes\n" +
    "5. Maintains proper formatting and structure\n" +
    "6. Takes into account previous edits and feedback\n" +
    "\n" +
    "Return only the edited abstract text."

  /** The checklist of the section edit prompt, up to the reference style. */
  const SectionEditChecklist: string :=
    "\n" +
    "\n" +
    "Please provide the edited section that:\n" +
    "1. Maintains academic writing standards\n" +
    "2. Follows the specified reference style ("

  /** The rest of the section edit prompt, after the target audience. */
  const SectionEditChecklistEnd: string :=
    ")\n" +
    "4. Incorporates the requested changes\n" +
    "5. Maintains proper formatting and structure\n" +
    "6. Takes into account previous edits and feedback\n" +
    "7. Maintains consistency with other sections of the paper\n" +
    "\n" +
    "Return only the edited section text."
}

=== FILE: pyvalues.dfy ===
/** How the backend reads loosely-typed JSON records: a key may be missing,
    present with `null`, or present with a value, and `dict.get(key, default)`
    treats the first two differently. */
module PyValues {
  import opened Wrappers
  import opened Text

  /** One key of a JSON object. */
  datatype Field<+T> = Absent | Null | Present(value: T)

  /** `d.get(key, default)`: the default only when the key is missing; a
      stored `null` comes back as `None`. */
  function Get<T>(f: Field<T>, default: T): (r: Option<T>)
    ensures f.Absent? ==> r == Some(default)
    ensures f.Null? ==> r.None?
    ensures f.Present? ==> r == Some(f.value)
  {
    match f
    case Absent => Some(default)
    case Null => None
    case Present(v) => Some(v)
  }

  /** A key that is always written, holding a value or `null`. */
  function FieldOf<T(!new)>(o: Option<T>): (f: Field<T>)
    ensures !f.Absent?
    ensures forall default: T :: Get(f, default) == o
  {
    match o
    case Some(v) => Present(v)
    case None => Null
  }

  /** A JSON scalar as the backend renders it into text: an integer read from
      the record, a string default standing in for a missing one, or `None`. */
  datatype Scalar = IntValue(i: int) | TextValue(s: string) | NoneValue

  /** `d.get(key, default)` for an integer-valued key with a default of any type. */
  function GetScalar(f: Field<int>, default: Scalar): Scalar {
    match f
    case Absent => default
    case Null => NoneValue
    case Present(n) => IntValue(n)
  }

  /** `str(v)`, as an f-string renders it. */
  function Str(v: Scalar): string {
    match v
    case IntValue(n) => IntToString(n)
    case TextValue(s) => s
    case NoneValue => "None"
  }

  /** An f-string rendering of a value that is a string or `None`. */
  function Show(o: Option<string>): string {
    match o
    case Some(s) => s
    case None => "None"
  }

  /** Python truthiness of a value that is a string or `None`. */
  predicate Truthy(o: Option<string>) {
    o.Some? && o.value != ""
  }
}

=== FILE: references.dfy ===
/** The generate-section endpoint: reference papers are gathered for the
    section, described to the writer, and cited once each in the paper's
    references block. */
module SectionWriting {
  import opened Wrappers
  import opened Text
  import opened PyValues
  import opened OrderedMap
  import opened Works
  import opened Services
  import opened Prompts
  import opened Chat
  import opened Gather
  import opened PaperState

  // ----- The reference text given to the writer -----

  const ReferenceIntro: string := "\n\nHere are some relevant reference papers for this section:\n"
  const ReferenceOutro: string := "\nPlease use these references in your response and cite them appropriately."

  /** One paper as the writer sees it. */
  function PaperEntry(d: PaperDetails): string {
    "\nTitle: " + Show(d.title) + "\nAuthors: " + Join(", ", d.authors) + "\nAbstract: " + Show(d.abstractText) + "\n"
  }

  /** The entries of all papers, in order; each paper's entry is in it. */
  function Entries(papers: seq<PaperDetails>): (r: string)
    ensures forall i :: 0 <= i < |papers| ==> Contains(r, PaperEntry(papers[i]))
    decreases |papers|
  {
    if papers == [] then ""
    else
      var first := PaperEntry(papers[0]);
      var rest := Entries(papers[1..]);
      var r := first + rest;
      assert OccursAt(r, first, 0) by { assert r[0..|first|] == first; }
      assert forall i :: 1 <= i < |papers| ==> Contains(r, PaperEntry(papers[i])) by {
        forall i | 1 <= i < |papers|
          ensures Contains(r, PaperEntry(papers[i]))
        {
          assert papers[i] == papers[1..][i - 1];
          ContainsPrepend(first, rest, PaperEntry(papers[i]));
        }
      }
      r
  }

  /** The reference text of the section prompt: empty without papers,
      otherwise an introduction, every paper, and a request to cite them. */
  function ReferenceContent(papers: seq<PaperDetails>): (r: string)
    ensures papers == [] <==> r == ""
    ensures papers != [] ==> StartsWith(r, ReferenceIntro) && EndsWith(r, ReferenceOutro)
  {
    if papers == [] then "" else Framed(ReferenceIntro, Entries(papers), ReferenceOutro)
  }

  /** Every gathered paper is described to the writer. */
  lemma ReferenceContentDescribesAll(papers: seq<PaperDetails>, i: nat)
    requires i < |papers|
    ensures Contains(ReferenceContent(papers), PaperEntry(papers[i]))
  {
    ContainsPrepend(ReferenceIntro, Entries(papers), PaperEntry(papers[i]));
    ContainsExtend(ReferenceIntro + Entries(papers), PaperEntry(papers[i]), ReferenceOutro);
  }

  // ----- The references block -----

  const ReferencesHeader: string := "\n\n## References\n\n"

  /** The citation line of a paper: authors, year and title, then the DOI
      when there is one. */
  function Citation(d: PaperDetails): (r: string)
    ensures StartsWith(r, Join(", ", d.authors) + " (" + Str(d.publicationYear) + "). ")
    ensures Truthy(d.doi) ==> EndsWith(r, "DOI: " + d.doi.value)
    ensures !Truthy(d.doi) ==> EndsWith(r, Show(d.title) + ". ")
    ensures Truthy(d.doi) ==> StartsWith(r, Join(", ", d.authors) + " (" + Str(d.publicationYear) + "). " + Show(d.title) + ". ")
  {
    var head := Join(", ", d.authors) + " (" + Str(d.publicationYear) + "). ";
    if Truthy(d.doi) then
      var r := Framed(head + Show(d.title) + ". ", "", "DOI: " + d.doi.value);
      PrefixOfPrefix(r, head, Show(d.title) + ". ");
      r
    else Framed(head, "", Show(d.title) + ". ")
  }

  /** The block after one paper: unchanged when the citation is already in
      it, otherwise with the citation and a blank line appended. */
  function CiteOnce(block: string, d: PaperDetails): (r: string)
    ensures StartsWith(r, block)
    ensures Contains(r, Citation(d))
    ensures Contains(block, Citation(d)) ==> r == block
  {
    var c := Citation(d);
    if Contains(block, c) then
      assert StartsWith(block, block) by { assert block[..|block|] == block; }
      block
    else
      ContainsMiddle(block, c, "\n\n");
      Framed(block, c, "\n\n")
  }

  /** The block after all papers, in order: it extends the original block
      and cites every paper. */
  function AppendCitations(block: string, papers: seq<PaperDetails>): (r: string)
    ensures StartsWith(r, block)
    ensures forall i :: 0 <= i < |papers| ==> Contains(r, Citation(papers[i]))
    decreases |papers|
  {
    if papers == [] then
      assert block[..|block|] == block;
      block
    else
      var next := CiteOnce(block, papers[0]);
      var rest := papers[1..];
      var r := AppendCitations(next, rest);
      StartsWithTrans(r, next, block);
      ContainsInPrefix(r, next, Citation(papers[0]));
      assert forall i :: 1 <= i < |papers| ==> papers[i] == rest[i - 1];
      r
  }

  /** A block that already cites every paper is left as it is. */
  lemma {:induction false} AlreadyCited(block: string, papers: seq<PaperDetails>)
    requires forall i :: 0 <= i < |papers| ==> Contains(block, Citation(papers[i]))
    ensures AppendCitations(block, papers) == block
    decreases |papers|
  {
    if papers != [] {
      assert Contains(block, Citation(papers[0]));
      assert forall i :: 0 <= i < |papers[1..]| ==> papers[1..][i] == papers[i + 1];
      AlreadyCited(block, papers[1..]);
    }
  }

  /** Citing the same papers twice changes nothing the second time. */
  lemma CitingTwice(block: string, papers: seq<PaperDetails>)
    ensures AppendCitations(AppendCitations(block, papers), papers) == AppendCitations(block, papers)
  {
    AlreadyCited(AppendCitations(block, papers), papers);
  }

  /** The section content after the references are brought up to date: the
      references block is created when missing, and with papers every one of
      them is cited in it. No other entry changes. */
  function WithReferences(content: Dict, papers: seq<PaperDetails>): (r: Dict)
    ensures "references" in r.entries
    ensures content.Valid() ==> r.Valid()
    ensures forall k :: k != "references" ==>
      (k in r.entries <==> k in content.entries) && (k in content.entries ==> r.entries[k] == content.entries[k])
    ensures "references" in content.entries ==> StartsWith(r.entries["references"], content.entries["references"])
    ensures "references" !in content.entries ==> StartsWith(r.entries["references"], ReferencesHeader)
    ensures papers == [] && "references" in content.entries ==> r == content
    ensures forall i :: 0 <= i < |papers| ==> Contains(r.entries["references"], Citation(papers[i]))
  {
    var started := if "references" in content.entries then content else Put(content, "references", ReferencesHeader);
    if papers == [] then started
    else Put(started, "references", AppendCitations(started.entries["references"], papers))
  }

  // ----- The endpoint -----

  /** The papers gathered for a section of a stored paper. */
  function GatheredFor(p: Paper, section: string, search: Search, llm: Llm, humanize: Humanizer): References {
    Gather.Gather(search, llm, humanize, GuardedKeywords(p.keywords), p.selectedTitle, section)
  }

  /** The prompt record generate-section uses: the guarded keywords and the
      reference text of the gathered papers. */
  function SectionData(p: Paper, section: string, search: Search, llm: Llm, humanize: Humanizer): (d: PaperData)
    ensures d.referencePapers == Present(ReferenceContent(GatheredFor(p, section, search, llm, humanize).papers))
  {
    DataFor(p, GuardedKeywords(p.keywords), Present(ReferenceContent(GatheredFor(p, section, search, llm, humanize).papers)))
  }

  /** The section content once a section is written: the text under the
      section, then the references brought up to date. Every other entry is
      untouched and the references block only grows. */
  function StoreSection(content: Dict, section: string, text: string, papers: seq<PaperDetails>): (r: Dict)
    ensures "references" in r.entries
    ensures content.Valid() ==> r.Valid()
    ensures section != "references" ==> section in r.entries && r.entries[section] == text
    ensures forall k :: k != section && k != "references" && k in content.entries ==>
      k in r.entries && r.entries[k] == content.entries[k]
    ensures section != "references" && "references" in content.entries ==>
      StartsWith(r.entries["references"], content.entries["references"])
    ensures forall i :: 0 <= i < |papers| ==> Contains(r.entries["references"], Citation(papers[i]))
  {
    WithReferences(Put(content, section, text), papers)
  }

  /** A written section and the paper that now holds it. */
  datatype Written = Written(paper: Paper, text: string)

  /** The generate-section endpoint: the section is written with the gathered
      papers in its prompt, stored, and made current; the status, the history
      and the confirmations are untouched. */
  function GenerateNamedSection(p: Paper, section: string, search: Search, llm: Llm, humanize: Humanizer): (r: Result<Written>)
    ensures r.Err? <==> llm(SectionRequest(SectionData(p, section, search, llm, humanize), section, p.content)).Err?
    ensures r.Ok? ==>
      && r.value.paper.currentSection == Some(section)
      && r.value.paper.status == p.status
      && r.value.paper.history == p.history
      && r.value.paper.confirmed == p.confirmed
      && r.value.paper.content
         == StoreSection(p.content, section, r.value.text, GatheredFor(p, section, search, llm, humanize).papers)
    ensures r.Ok? ==> r.value.paper.(content := p.content, currentSection := p.currentSection) == p
  {
    var data := SectionData(p, section, search, llm, humanize);
    var written :- GenerateSection(llm, humanize, data, section, p.content, {});
    var content := StoreSection(p.content, section, written.text, GatheredFor(p, section, search, llm, humanize).papers);
    Ok(Written(p.(content := content, currentSection := Some(section)), written.text))
  }
}

=== FILE: seqs.dfy ===
/** Small facts about sequences that several components share. */
module Seqs {

  /** No element occurs twice. */
  predicate Distinct<T(==)>(s: seq<T>) {
    forall i, j :: 0 <= i < j < |s| ==> s[i] != s[j]
  }

  /** The set of elements of `s` (Python's `set(s)`). */
  function Elements<T(==)>(s: seq<T>): set<T> {
    set x | x in s
  }

  predicate IsPrefix<T(==)>(p: seq<T>, s: seq<T>) {
    |p| <= |s| && s[..|p|] == p
  }

  /** Python's `s[:n]`. */
  function Take<T>(s: seq<T>, n: nat): (r: seq<T>)
    ensures |r| == if |s| <= n then |s| else n
    ensures r == s[..|r|]
  {
    if |s| <= n then s else s[..n]
  }

  /** Python's `s.index(x)`: the first position of `x`. */
  function Position<T(==)>(s: seq<T>, x: T): (i: nat)
    requires x in s
    ensures i < |s| && s[i] == x
    ensures x !in s[..i]
  {
    if s[0] == x then 0
    else
      var j := Position(s[1..], x);
      assert s[..j + 1] == [s[0]] + s[1..][..j];
      1 + j
  }

  /** Appending a fresh element keeps a sequence free of duplicates. */
  lemma DistinctAppend<T>(s: seq<T>, x: T)
    requires Distinct(s)
    requires x !in s
    ensures Distinct(s + [x])
  {
  }
}

=== FILE: services.dfy ===
/** The two remote services the backend calls, as values the model is given:
    the chat-completion service and the text humanizer. Either may fail; a
    failure is an `Err` carrying the exception text. */
module Services {
  import opened Wrappers
  import opened OrderedMap
  import opened Works
  import opened Prompts

  /** The user message of a request: which prompt it is and the values the
      prompt is built from. The text of each kind of message is given by the
      function named after it below. */
  datatype Message =
    | AnalysisMessage(papers: seq<PaperDetails>, title: string, section: string)
    | SectionMessage(sectionName: string, data: PaperData, previous: Dict)
    | TitleMessage(data: PaperData)
    | SectionEditMessage(sectionName: string, current: string, instructions: string, history: string,
                         style: string, audience: string)
    | AbstractEditMessage(abstractText: string, instructions: string, history: string,
                          style: string, audience: string)

  function AnalysisText(m: Message): string
    requires m.AnalysisMessage?
  {
    AnalysisPrompt(m.papers, m.title, m.section)
  }

  function SectionText(m: Message): string
    requires m.SectionMessage?
  {
    UserPrompt(m.sectionName, m.data, m.previous)
  }

  function TitleText(m: Message): string
    requires m.TitleMessage?
  {
    TitlePrompt(m.data)
  }

  function SectionEditText(m: Message): string
    requires m.SectionEditMessage?
  {
    SectionEditPrompt(m.sectionName, m.current, m.instructions, m.history, m.style, m.audience)
  }

  function AbstractEditText(m: Message): string
    requires m.AbstractEditMessage?
  {
    AbstractEditPrompt(m.abstractText, m.instructions, m.history, m.style, m.audience)
  }

  /** One chat-completion request: the model name, the system message, the
      user message and the token budget. The sampling temperature is always
      0.7 and is not part of the request here. The service is given the
      message by kind and values; a property proved here for every service
      holds in particular for a service that reads only the message's text. */
  datatype Completion = Completion(model: string, system: string, user: Message, maxTokens: nat)

  /** The completion service: the text of the first choice, or the exception. */
  type Llm = Completion -> Result<string>

  /** The humanizer service: the rewritten text, or the exception. */
  type Humanizer = string -> Result<string>

  /** Humanizes `text`, falling back to `text` itself when the humanizer fails. */
  function Humanized(humanize: Humanizer, text: string): (r: string)
    ensures humanize(text).Err? ==> r == text
    ensures humanize(text).Ok? ==> r == humanize(text).value
  {
    match humanize(text)
    case Ok(h) => h
    case Err(_) => text
  }
}

=== FILE: text.dfy ===
/** Python string operations the backend relies on, over `seq<char>`:
    `sep.join`, `str.split` with a one-character separator, the `in`
    substring test, `startswith`/`endswith`, `str.replace(pat, "")`,
    `str.strip`, `str.lower` and `str(int)`. */
module Text {

  /** `sep.join(parts)`. */
  function Join(sep: string, parts: seq<string>): string
    decreases |parts|
  {
    if |parts| == 0 then ""
    else if |parts| == 1 then parts[0]
    else parts[0] + sep + Join(sep, parts[1..])
  }

  /** The first position of `c` in `s`. */
  function IndexOf(s: string, c: char): (i: nat)
    requires c in s
    ensures i < |s| && s[i] == c
    ensures c !in s[..i]
  {
    if s[0] == c then 0
    else
      var j := IndexOf(s[1..], c);
      assert s[..j + 1] == [s[0]] + s[1..][..j];
      1 + j
  }

  /** `s.split(c)`: the pieces between occurrences of `c`, always at least one. */
  function Split(s: string, c: char): (parts: seq<string>)
    ensures |parts| >= 1
    ensures forall i :: 0 <= i < |parts| ==> c !in parts[i]
    decreases |s|
  {
    if c !in s then [s]
    else
      var i := IndexOf(s, c);
      [s[..i]] + Split(s[i + 1..], c)
  }

  lemma IndexOfIsFirst(s: string, c: char, k: nat)
    requires k < |s| && s[k] == c && c !in s[..k]
    ensures IndexOf(s, c) == k
  {
    var i := IndexOf(s, c);
    assert forall j :: 0 <= j < k ==> s[j] == s[..k][j];
    assert forall j :: 0 <= j < i ==> s[j] == s[..i][j];
  }

  /** Splitting at the first separator. */
  lemma SplitAt(s: string, c: char, k: nat)
    requires k < |s| && s[k] == c && c !in s[..k]
    ensures Split(s, c) == [s[..k]] + Split(s[k + 1..], c)
  {
    IndexOfIsFirst(s, c, k);
  }

  /** Joining the pieces of a split with the same separator gives the text back. */
  lemma {:induction false} JoinSplit(s: string, c: char)
    ensures Join([c], Split(s, c)) == s
    decreases |s|
  {
    if c in s {
      var i := IndexOf(s, c);
      var rest := Split(s[i + 1..], c);
      JoinSplit(s[i + 1..], c);
      assert Split(s, c) == [s[..i]] + rest;
      assert ([s[..i]] + rest)[1..] == rest;
      calc {
        Join([c], Split(s, c));
        s[..i] + [c] + Join([c], rest);
        s[..i] + [c] + s[i + 1..];
        s;
      }
    }
  }

  /** Splitting a join gives the pieces back, provided no piece holds the separator. */
  lemma {:induction false} SplitJoin(parts: seq<string>, c: char)
    requires |parts| >= 1
    requires forall i :: 0 <= i < |parts| ==> c !in parts[i]
    ensures Split(Join([c], parts), c) == parts
    decreases |parts|
  {
    if |parts| > 1 {
      var p0 := parts[0];
      var rest := parts[1..];
      var tail := Join([c], rest);
      var s := p0 + [c] + tail;
      assert Join([c], parts) == s;
      assert c !in p0;
      assert s[..|p0|] == p0;
      IndexOfIsFirst(s, c, |p0|);
      assert s[|p0| + 1..] == tail;
      assert forall i :: 0 <= i < |rest| ==> c !in rest[i];
      SplitJoin(rest, c);
      assert Split(s, c) == [p0] + Split(tail, c);
      assert parts == [p0] + rest;
    }
  }

  predicate StartsWith(s: string, prefix: string) {
    |prefix| <= |s| && s[..|prefix|] == prefix
  }

  predicate EndsWith(s: string, suffix: string) {
    |suffix| <= |s| && s[|s| - |suffix|..] == suffix
  }

  predicate OccursAt(hay: string, needle: string, i: int) {
    0 <= i && i + |needle| <= |hay| && hay[i..i + |needle|] == needle
  }

  /** `head + middle + tail`, which starts with `head` and ends with `tail`. */
  function Framed(head: string, middle: string, tail: string): (r: string)
    ensures StartsWith(r, head) && EndsWith(r, tail)
    ensures r == head + middle + tail
  {
    var r := head + middle + tail;
    assert r[..|head|] == head;
    assert r[|r| - |tail|..] == tail;
    r
  }

  /** A prefix of a prefix is a prefix. */
  lemma PrefixOfPrefix(s: string, a: string, b: string)
    requires StartsWith(s, a + b)
    ensures StartsWith(s, a)
  {
    assert s[..|a|] == (a + b)[..|a|];
  }

  lemma StartsWithTrans(s: string, t: string, p: string)
    requires StartsWith(s, t) && StartsWith(t, p)
    ensures StartsWith(s, p)
  {
    assert s[..|p|] == s[..|t|][..|p|];
  }

  /** Python's `needle in hay` for strings. */
  predicate Contains(hay: string, needle: string) {
    exists i | 0 <= i <= |hay| - |needle| :: OccursAt(hay, needle, i)
  }

  /** What occurs in a prefix occurs in the whole. */
  lemma ContainsInPrefix(s: string, p: string, needle: string)
    requires StartsWith(s, p) && Contains(p, needle)
    ensures Contains(s, needle)
  {
    var i :| 0 <= i <= |p| - |needle| && OccursAt(p, needle, i);
    assert s[i..i + |needle|] == p[i..i + |needle|];
    assert OccursAt(s, needle, i);
  }

  /** What a prefix ends with occurs in the whole. */
  lemma ContainsEndOfPrefix(s: string, p: string, t: string)
    requires StartsWith(s, p) && EndsWith(p, t)
    ensures Contains(s, t)
  {
    var i := |p| - |t|;
    assert s[i..i + |t|] == p[i..];
    assert OccursAt(s, t, i);
  }

  /** A piece of a concatenation is contained in it. */
  lemma ContainsMiddle(x: string, a: string, y: string)
    ensures Contains(x + a + y, a)
  {
    assert OccursAt(x + a + y, a, |x|) by {
      assert (x + a + y)[|x|..|x| + |a|] == a;
    }
  }

  /** Extending a text keeps what it already contains. */
  lemma ContainsExtend(hay: string, needle: string, more: string)
    requires Contains(hay, needle)
    ensures Contains(hay + more, needle)
  {
    var i :| 0 <= i <= |hay| - |needle| && OccursAt(hay, needle, i);
    assert (hay + more)[i..i + |needle|] == hay[i..i + |needle|];
    assert OccursAt(hay + more, needle, i);
  }

  /** Each part of a join is contained in the joined text. */
  lemma {:induction false} JoinContainsPart(sep: string, parts: seq<string>, i: nat)
    requires i < |parts|
    ensures Contains(Join(sep, parts), parts[i])
    decreases |parts|
  {
    if |parts| == 1 {
      assert OccursAt(parts[0], parts[0], 0);
    } else {
      var rest := parts[1..];
      var tail := Join(sep, rest);
      assert Join(sep, parts) == parts[0] + sep + tail;
      if i == 0 {
        assert OccursAt(parts[0] + sep + tail, parts[0], 0) by {
          assert (parts[0] + sep + tail)[0..|parts[0]|] == parts[0];
        }
      } else {
        assert parts[i] == rest[i - 1];
        JoinContainsPart(sep, rest, i - 1);
        ContainsPrepend(parts[0] + sep, tail, parts[i]);
      }
    }
  }

  /** Text in front keeps what a text contains. */
  lemma ContainsPrepend(more: string, hay: string, needle: string)
    requires Contains(hay, needle)
    ensures Contains(more + hay, needle)
  {
    var i :| 0 <= i <= |hay| - |needle| && OccursAt(hay, needle, i);
    assert (more + hay)[|more| + i..|more| + i + |needle|] == hay[i..i + |needle|];
    assert OccursAt(more + hay, needle, |more| + i);
  }

  /** A text contains its own last piece. */
  lemma ContainsLast(x: string, a: string)
    ensures Contains(x + a, a)
  {
    assert (x + a)[|x|..|x| + |a|] == a;
    assert OccursAt(x + a, a, |x|);
  }

  /** What a piece contains, a text built around that piece contains. */
  lemma ContainsInside(x: string, a: string, y: string, needle: string)
    requires Contains(a, needle)
    ensures Contains(x + a + y, needle)
  {
    ContainsPrepend(x, a, needle);
    ContainsExtend(x + a, needle, y);
  }

  /** `s.replace(pat, "")`: every occurrence found by a left-to-right scan is
      deleted (the scan resumes after each deleted occurrence). */
  function RemoveAll(s: string, pat: string): (r: string)
    requires pat != ""
    ensures |r| <= |s|
    decreases |s|
  {
    if |s| < |pat| then s
    else if s[..|pat|] == pat then RemoveAll(s[|pat|..], pat)
    else [s[0]] + RemoveAll(s[1..], pat)
  }

  /** A text holding no occurrence of the pattern is left as it is. */
  lemma {:induction false} RemoveAllAbsent(s: string, pat: string)
    requires pat != ""
    requires !Contains(s, pat)
    ensures RemoveAll(s, pat) == s
    decreases |s|
  {
    if |s| >= |pat| {
      assert !OccursAt(s, pat, 0);
      if !Contains(s[1..], pat) {
        RemoveAllAbsent(s[1..], pat);
        assert s == [s[0]] + s[1..];
      } else {
        var i :| 0 <= i <= |s[1..]| - |pat| && OccursAt(s[1..], pat, i);
        assert s[i + 1..i + 1 + |pat|] == s[1..][i..i + |pat|];
        assert OccursAt(s, pat, i + 1);
      }
    }
  }

  /** A text holding an occurrence of the pattern gets strictly shorter. */
  lemma {:induction false} RemoveAllShrinks(s: string, pat: string)
    requires pat != ""
    requires Contains(s, pat)
    ensures |RemoveAll(s, pat)| < |s|
    decreases |s|
  {
    var i :| 0 <= i <= |s| - |pat| && OccursAt(s, pat, i);
    if s[..|pat|] != pat {
      assert i > 0;
      assert s[1..][i - 1..i - 1 + |pat|] == s[i..i + |pat|];
      assert OccursAt(s[1..], pat, i - 1);
      RemoveAllShrinks(s[1..], pat);
    }
  }

  /** The removal changes nothing exactly when there is nothing to remove. */
  lemma RemoveAllFixedPoint(s: string, pat: string)
    requires pat != ""
    ensures RemoveAll(s, pat) == s <==> !Contains(s, pat)
  {
    if Contains(s, pat) {
      RemoveAllShrinks(s, pat);
    } else {
      RemoveAllAbsent(s, pat);
    }
  }

  /** `str.isspace()` for one character: exactly the characters Python treats
      as whitespace. */
  predicate IsSpace(c: char) {
    || ('\t' <= c <= '\r') || ('\U{1C}' <= c <= '\U{1F}') || c == ' '
    || c == '\U{85}' || c == '\U{A0}' || c == '\U{1680}'
    || ('\U{2000}' <= c <= '\U{200A}') || c == '\U{2028}' || c == '\U{2029}'
    || c == '\U{202F}' || c == '\U{205F}' || c == '\U{3000}'
  }

  function TrimLeft(s: string): (r: string)
    ensures r == "" || !IsSpace(r[0])
    ensures EndsWith(s, r)
    decreases |s|
  {
    if |s| > 0 && IsSpace(s[0]) then TrimLeft(s[1..]) else s
  }

  function TrimRight(s: string): (r: string)
    ensures r == "" || !IsSpace(r[|r| - 1])
    ensures StartsWith(s, r)
    decreases |s|
  {
    if |s| > 0 && IsSpace(s[|s| - 1]) then TrimRight(s[..|s| - 1]) else s
  }

  /** A text with no whitespace at either end. */
  predicate IsStripped(s: string) {
    s == "" || (!IsSpace(s[0]) && !IsSpace(s[|s| - 1]))
  }

  /** `s.strip()`: whitespace removed from both ends, nothing else touched. */
  function Strip(s: string): (r: string)
    ensures IsStripped(r)
    ensures exists i, j :: 0 <= i <= j <= |s| && r == s[i..j]
  {
    var l := TrimLeft(s);
    var r := TrimRight(l);
    assert r == s[|s| - |l|..|s| - |l| + |r|];
    r
  }

  /** Stripping a text that is already stripped leaves it unchanged. */
  lemma StripStripped(s: string)
    requires IsStripped(s)
    ensures Strip(s) == s
  {
  }

  predicate IsDigit(c: char) {
    '0' <= c <= '9'
  }

  predicate AllDigits(s: string) {
    forall i :: 0 <= i < |s| ==> IsDigit(s[i])
  }

  function DigitChar(d: nat): (c: char)
    requires d < 10
    ensures IsDigit(c)
  {
    "0123456789"[d]
  }

  /** `str(n)` for a natural number: its decimal digits, most significant first. */
  function NatToString(n: nat): (r: string)
    ensures |r| >= 1 && AllDigits(r)
  {
    if n < 10 then [DigitChar(n)] else NatToString(n / 10) + [DigitChar(n % 10)]
  }

  /** `str(i)` for any integer. */
  function IntToString(i: int): string {
    if i < 0 then "-" + NatToString(-i) else NatToString(i)
  }

  /** The value of a string of decimal digits. */
  function DigitsValue(s: string): nat
    requires AllDigits(s)
  {
    if s == [] then 0 else DigitsValue(s[..|s| - 1]) * 10 + (s[|s| - 1] as int - '0' as int)
  }

  /** Printing a number and reading the digits back gives the number. */
  lemma {:induction false} NatToStringValue(n: nat)
    ensures DigitsValue(NatToString(n)) == n
  {
    if n >= 10 {
      NatToStringValue(n / 10);
      var s := NatToString(n);
      assert s[..|s| - 1] == NatToString(n / 10);
    }
  }

  /** `str.lower()` for one character, as far as it can matter to a lookup
      against a lower-case ASCII key: A-Z fold to a-z, and the Kelvin sign
      U+212A, the one non-ASCII character whose lower case is an ASCII
      letter, folds to 'k'. Every other character is left alone. */
  function LowerChar(c: char): char {
    if 'A' <= c <= 'Z' then (c as int + 32) as char
    else if c == '\U{212A}' then 'k'
    else c
  }

  function Lower(s: string): (r: string)
    ensures |r| == |s|
    ensures forall i :: 0 <= i < |s| ==> r[i] == LowerChar(s[i])
  {
    seq(|s|, i requires 0 <= i < |s| => LowerChar(s[i]))
  }
}

=== FILE: titles.dfy ===
/** Turning the title service's reply into the list of titles: the stripped
    non-blank lines, at most five, in the order of the reply. */
module Titles {
  import opened Seqs
  import opened Text

  /** The stripped lines that are not blank, in order. */
  function NonBlankLines(lines: seq<string>): (r: seq<string>)
    ensures forall k :: 0 <= k < |r| ==> r[k] != "" && IsStripped(r[k])
    ensures |r| <= |lines|
  {
    if lines == [] then []
    else
      var rest := NonBlankLines(lines[1..]);
      if Strip(lines[0]) != "" then [Strip(lines[0])] + rest else rest
  }

  /** One line gives its stripped form when that is not blank, and nothing
      otherwise. */
  lemma NonBlankLine(l: string)
    ensures NonBlankLines([l]) == if Strip(l) != "" then [Strip(l)] else []
  {
    assert [l][1..] == [];
  }

  /** The lines of two pieces are kept piece by piece, so the kept lines stay
      in the order of the reply. */
  lemma {:induction false} NonBlankLinesAppend(a: seq<string>, b: seq<string>)
    ensures NonBlankLines(a + b) == NonBlankLines(a) + NonBlankLines(b)
  {
    if a != [] {
      assert (a + b)[0] == a[0];
      assert (a + b)[1..] == a[1..] + b;
      NonBlankLinesAppend(a[1..], b);
    } else {
      assert a + b == b;
    }
  }

  /** Every non-blank line is kept, stripped, and nothing else is. */
  lemma {:induction false} NonBlankLinesExact(lines: seq<string>, t: string)
    ensures t in NonBlankLines(lines) <==> t != "" && exists l :: l in lines && Strip(l) == t
  {
    if lines != [] {
      NonBlankLinesExact(lines[1..], t);
      assert forall l :: l in lines <==> l == lines[0] || l in lines[1..];
    }
  }

  /** The first five stripped non-blank lines of the reply. */
  function CleanTitles(reply: string): (r: seq<string>)
    ensures |r| <= 5
    ensures forall k :: 0 <= k < |r| ==> r[k] != "" && IsStripped(r[k])
    ensures IsPrefix(r, NonBlankLines(Split(reply, '\n')))
    ensures |r| == if |NonBlankLines(Split(reply, '\n'))| <= 5 then |NonBlankLines(Split(reply, '\n'))| else 5
  {
    Take(NonBlankLines(Split(reply, '\n')), 5)
  }

  /** Every title is a stripped line of the reply; when the reply has at most
      five non-blank lines, every one of them is a title. */
  lemma TitlesFromReply(reply: string, t: string)
    ensures t in CleanTitles(reply) ==> t != "" && exists l :: l in Split(reply, '\n') && Strip(l) == t
    ensures |NonBlankLines(Split(reply, '\n'))| <= 5 ==>
      (t in CleanTitles(reply) <==> t != "" && exists l :: l in Split(reply, '\n') && Strip(l) == t)
  {
    var all := NonBlankLines(Split(reply, '\n'));
    NonBlankLinesExact(Split(reply, '\n'), t);
    if t in CleanTitles(reply) {
      var k :| 0 <= k < |CleanTitles(reply)| && CleanTitles(reply)[k] == t;
      assert all[k] == t;
    }
  }
}

=== FILE: works.dfy ===
/** Search-result records of the scholarly index and the pure helpers of
    `OpenAlexSearch` that read them: record normalisation, download-link
    collection, section keyword expansion and the download file name. */
module Works {
  import opened Wrappers
  import opened Seqs
  import opened Text
  import opened PyValues

  /** One element of `authorships` or `concepts`: either its display name is
      reachable, or reading it raises (a missing key or a `null` object). */
  datatype Entry = Named(name: string) | Malformed

  datatype Source = Source(displayName: Field<string>)

  datatype Location = Location(
    landingPageUrl: Field<string>,
    pdfUrl: Field<string>,
    source: Field<Source>)

  datatype OpenAccess = OpenAccess(isOa: Field<bool>, oaUrl: Field<string>)

  datatype Biblio = Biblio(volume: Field<string>, issue: Field<string>, firstPage: Field<string>)

  /** A raw work record as returned by the search service. `locations`
      elements may themselves be `null`. The four top-level bibliographic keys
      are read by the IEEE formatter only. */
  datatype Work = Work(
    id: Field<string>,
    title: Field<string>,
    abstractText: Field<string>,
    doi: Field<string>,
    publicationYear: Field<int>,
    authorships: Field<seq<Entry>>,
    concepts: Field<seq<Entry>>,
    citedByCount: Field<int>,
    primaryLocation: Field<Location>,
    locations: Field<seq<Option<Location>>>,
    openAccess: Field<OpenAccess>,
    biblio: Field<Biblio>,
    volume: Field<string>,
    issue: Field<string>,
    firstPage: Field<string>,
    lastPage: Field<string>)

  /** A normalised reference paper. `None` stands for a JSON `null` that was
      passed through. */
  datatype PaperDetails = PaperDetails(
    title: Option<string>,
    abstractText: Option<string>,
    doi: Option<string>,
    publicationYear: Scalar,
    authors: seq<string>,
    keywords: seq<string>,
    citations: Scalar,
    url: Option<string>)

  const DoiResolver: string := "https://doi.org/"

  /** The identifier the search strategy deduplicates on, when it is truthy. */
  function PaperKey(w: Work): (k: Option<string>)
    ensures k.Some? <==> w.id.Present? && w.id.value != ""
    ensures k.Some? ==> k.value == w.id.value
  {
    if w.id.Present? && w.id.value != "" then Some(w.id.value) else None
  }

  predicate AllNamed(es: seq<Entry>) {
    forall i :: 0 <= i < |es| ==> es[i].Named?
  }

  /** The display names of a list of entries, in list order; raises at the
      first malformed entry. */
  function NamesOf(es: seq<Entry>): (r: Result<seq<string>>)
    ensures r.Ok? <==> AllNamed(es)
    ensures r.Ok? ==> |r.value| == |es| && forall i :: 0 <= i < |es| ==> r.value[i] == es[i].name
  {
    if es == [] then Ok([])
    else if es[0].Malformed? then Err("KeyError: display_name")
    else
      match NamesOf(es[1..])
      case Err(e) => Err(e)
      case Ok(rest) => Ok([es[0].name] + rest)
  }

  /** `[e["author"]["display_name"] for e in work.get(key, [])]`: a missing
      key reads as the empty list, a `null` list raises. */
  function Names(f: Field<seq<Entry>>): (r: Result<seq<string>>)
    ensures r.Ok? <==> f.Absent? || (f.Present? && AllNamed(f.value))
    ensures f.Absent? ==> r == Ok([])
    ensures f.Present? && r.Ok? ==>
      |r.value| == |f.value| && forall i :: 0 <= i < |f.value| ==> r.value[i] == f.value[i].name
  {
    match f
    case Absent => Ok([])
    case Null => Err("TypeError: 'NoneType' object is not iterable")
    case Present(es) => NamesOf(es)
  }

  /** Whether normalising the record raises. */
  predicate DetailsRaise(w: Work) {
    || w.authorships.Null? || (w.authorships.Present? && !AllNamed(w.authorships.value))
    || w.concepts.Null? || (w.concepts.Present? && !AllNamed(w.concepts.value))
    || w.primaryLocation.Null?
  }

  /** The DOI as normalisation stores it: a non-empty string has every
      resolver prefix occurrence deleted; an empty string and `null` pass through. */
  function DetailsDoi(f: Field<string>): Option<string> {
    match Get(f, "")
    case None => None
    case Some(d) => if d != "" then Some(RemoveAll(d, DoiResolver)) else Some(d)
  }

  /** `get_paper_details`: a uniform record, with documented defaults for
      missing keys, or the exception a malformed record raises. */
  function GetPaperDetails(w: Work): (r: Result<PaperDetails>)
    ensures r.Err? <==> DetailsRaise(w)
    ensures r.Ok? ==> r.value.title == Get(w.title, "No title")
    ensures r.Ok? ==> r.value.abstractText == Get(w.abstractText, "")
    ensures r.Ok? ==> r.value.citations == GetScalar(w.citedByCount, IntValue(0))
    ensures r.Ok? && w.authorships.Present? ==>
      |r.value.authors| == |w.authorships.value|
      && forall i :: 0 <= i < |w.authorships.value| ==> r.value.authors[i] == w.authorships.value[i].name
    ensures r.Ok? && w.authorships.Absent? ==> r.value.authors == []
    ensures r.Ok? && w.doi.Present? ==> r.value.doi == Some(RemoveAll(w.doi.value, DoiResolver))
    ensures r.Ok? && !w.doi.Present? ==> r.value.doi == Get(w.doi, "")
    ensures r.Ok? ==> r.value.publicationYear == GetScalar(w.publicationYear, TextValue(""))
    ensures r.Ok? && w.concepts.Present? ==>
      |r.value.keywords| == |w.concepts.value|
      && forall i :: 0 <= i < |w.concepts.value| ==> r.value.keywords[i] == w.concepts.value[i].name
    ensures r.Ok? && w.concepts.Absent? ==> r.value.keywords == []
    ensures r.Ok? && w.primaryLocation.Present? ==> r.value.url == Get(w.primaryLocation.value.landingPageUrl, "")
    ensures r.Ok? && w.primaryLocation.Absent? ==> r.value.url == Some("")
  {
    var doi := DetailsDoi(w.doi);
    match Names(w.authorships)
    case Err(e) => Err(e)
    case Ok(authors) =>
      match Names(w.concepts)
      case Err(e) => Err(e)
      case Ok(keywords) =>
        match w.primaryLocation
        case Null => Err("AttributeError: 'NoneType' object has no attribute 'get'")
        case Absent =>
          Ok(PaperDetails(Get(w.title, "No title"), Get(w.abstractText, ""), doi,
                          GetScalar(w.publicationYear, TextValue("")), authors, keywords,
                          GetScalar(w.citedByCount, IntValue(0)), Some("")))
        case Present(loc) =>
          Ok(PaperDetails(Get(w.title, "No title"), Get(w.abstractText, ""), doi,
                          GetScalar(w.publicationYear, TextValue("")), authors, keywords,
                          GetScalar(w.citedByCount, IntValue(0)), Get(loc.landingPageUrl, "")))
  }

  /** A DOI written as a resolver URL is stored without the resolver, and a
      bare DOI is stored as it is. */
  lemma DetailsDoiStripsResolver(w: Work, bare: string)
    requires !Contains(bare, DoiResolver)
    requires w.doi == Present(DoiResolver + bare) || w.doi == Present(bare)
    requires GetPaperDetails(w).Ok?
    ensures GetPaperDetails(w).value.doi == Some(bare)
  {
    RemoveAllAbsent(bare, DoiResolver);
    assert (DoiResolver + bare)[..|DoiResolver|] == DoiResolver;
    assert (DoiResolver + bare)[|DoiResolver|..] == bare;
  }

  /** One entry of the download-link list. */
  datatype Link = Link(kind: string, url: string, isPdf: bool)

  /** The landing-page and PDF links of one location, in that order. */
  function LocationLinks(loc: Location, landingKind: string, pdfKind: string): (r: seq<Link>)
    ensures |r| <= 2
  {
    var landing := Get(loc.landingPageUrl, "");
    var pdf := Get(loc.pdfUrl, "");
    (if Truthy(landing) then [Link(landingKind, landing.value, false)] else [])
    + (if Truthy(pdf) then [Link(pdfKind, pdf.value, true)] else [])
  }

  /** The source name a location's links are labelled with. */
  function SourceName(f: Field<Source>): string {
    match f
    case Present(src) => Show(Get(src.displayName, "Unknown Source"))
    case _ => "Unknown Source"
  }

  function PrimaryLinks(f: Field<Location>): seq<Link> {
    match f
    case Present(loc) => LocationLinks(loc, "Primary Location", "Primary Location PDF")
    case _ => []
  }

  /** The links of the `locations` list; `null` elements are skipped. */
  function OtherLinks(locs: seq<Option<Location>>): seq<Link>
    decreases |locs|
  {
    if locs == [] then []
    else
      (match locs[0]
       case None => []
       case Some(loc) =>
         var name := SourceName(loc.source);
         LocationLinks(loc, name + " Landing Page", name + " PDF"))
      + OtherLinks(locs[1..])
  }

  /** Whether the record advertises an open-access copy. */
  predicate HasOpenAccessUrl(w: Work) {
    && w.openAccess.Present?
    && w.openAccess.value.isOa == Present(true)
    && Truthy(Get(w.openAccess.value.oaUrl, ""))
  }

  const OpenAccessKind: string := "Open Access URL"

  /** `get_download_links`: primary-location links, then the links of every
      location, then the open-access link; raises when `locations` or
      `open_access` is `null`. */
  function GetDownloadLinks(w: Work): (r: Result<seq<Link>>)
    ensures r.Err? <==> w.locations.Null? || w.openAccess.Null?
  {
    if w.locations.Null? then Err("TypeError: 'NoneType' object is not iterable")
    else if w.openAccess.Null? then Err("AttributeError: 'NoneType' object has no attribute 'get'")
    else Ok(PrimaryLinks(w.primaryLocation) + OtherLinks(LocationList(w.locations)) + OpenAccessLinks(w))
  }

  function LocationList(f: Field<seq<Option<Location>>>): seq<Option<Location>> {
    if f.Present? then f.value else []
  }

  function OpenAccessLinks(w: Work): seq<Link> {
    if HasOpenAccessUrl(w) then [Link(OpenAccessKind, w.openAccess.value.oaUrl.value, false)] else []
  }

  /** The links marked as PDFs are exactly the truthy `pdf_url` values of the
      primary location and of the non-null locations, in that order. */
  lemma DownloadLinksPdfExactly(w: Work)
    requires GetDownloadLinks(w).Ok?
    ensures PdfUrls(GetDownloadLinks(w).value) == PdfUrlsOf(w)
  {
    var p := PrimaryLinks(w.primaryLocation);
    var o := OtherLinks(LocationList(w.locations));
    var oa := OpenAccessLinks(w);
    PdfUrlsConcat(p, o);
    PdfUrlsConcat(p + o, oa);
    OtherPdfUrlsAgree(LocationList(w.locations));
    if w.primaryLocation.Present? {
      LocationPdfUrls(w.primaryLocation.value, "Primary Location", "Primary Location PDF");
    }
  }

  /** An open-access link is emitted exactly when `is_oa` and `oa_url` are both
      truthy, and then it comes last. */
  lemma DownloadLinksOpenAccess(w: Work)
    requires GetDownloadLinks(w).Ok?
    ensures var links := GetDownloadLinks(w).value;
      (exists i :: 0 <= i < |links| && links[i].kind == OpenAccessKind) <==> HasOpenAccessUrl(w)
    ensures var links := GetDownloadLinks(w).value;
      HasOpenAccessUrl(w) ==> links[|links| - 1] == Link(OpenAccessKind, w.openAccess.value.oaUrl.value, false)
  {
    var p: seq<Link> := PrimaryLinks(w.primaryLocation);
    var o: seq<Link> := OtherLinks(LocationList(w.locations));
    var oa: seq<Link> := OpenAccessLinks(w);
    var links := p + o + oa;
    assert GetDownloadLinks(w).value == links;
    OtherLinksNoOpenAccess(LocationList(w.locations));
    PrimaryLinksNoOpenAccess(w.primaryLocation);
    var po: seq<Link> := p + o;
    forall i: int | 0 <= i < |po|
      ensures po[i].kind != OpenAccessKind
    {
      if i < |p| {
        assert po[i] == p[i];
      } else {
        assert po[i] == o[i - |p|];
      }
    }
    if HasOpenAccessUrl(w) {
      assert links[|links| - 1].kind == OpenAccessKind;
    } else {
      assert links == p + o;
    }
  }

  /** The links that are not PDFs are exactly the truthy `landing_page_url`
      values of the primary location ("Primary Location") and of the non-null
      locations ("<source> Landing Page"), in that order, followed by the
      open-access link. */
  lemma DownloadLinksLandingExactly(w: Work)
    requires GetDownloadLinks(w).Ok?
    ensures NonPdfLinks(GetDownloadLinks(w).value) == LandingLinksOf(w) + OpenAccessLinks(w)
  {
    var p := PrimaryLinks(w.primaryLocation);
    var o := OtherLinks(LocationList(w.locations));
    var oa := OpenAccessLinks(w);
    NonPdfConcat(p, o);
    NonPdfConcat(p + o, oa);
    OtherNonPdfAgree(LocationList(w.locations));
    if w.primaryLocation.Present? {
      LocationNonPdf(w.primaryLocation.value, "Primary Location", "Primary Location PDF");
    }
    if HasOpenAccessUrl(w) {
      assert NonPdfLinks(oa) == oa by { assert oa[1..] == []; }
    }
  }

  /** The links not marked as PDFs, in list order. */
  function NonPdfLinks(links: seq<Link>): seq<Link>
    decreases |links|
  {
    if links == [] then []
    else (if links[0].isPdf then [] else [links[0]]) + NonPdfLinks(links[1..])
  }

  /** The landing-page links of a record: the reference the non-PDF links are
      checked against. */
  function LandingLinksOf(w: Work): seq<Link> {
    (if w.primaryLocation.Present? then LandingLinkOf(w.primaryLocation.value, "Primary Location") else [])
    + (if w.locations.Present? then OtherLandingLinks(w.locations.value) else [])
  }

  function LandingLinkOf(loc: Location, kind: string): seq<Link> {
    var landing := Get(loc.landingPageUrl, "");
    if Truthy(landing) then [Link(kind, landing.value, false)] else []
  }

  function OtherLandingLinks(locs: seq<Option<Location>>): seq<Link>
    decreases |locs|
  {
    if locs == [] then []
    else (if locs[0].Some? then LandingLinkOf(locs[0].value, SourceName(locs[0].value.source) + " Landing Page") else [])
         + OtherLandingLinks(locs[1..])
  }

  lemma {:induction false} NonPdfConcat(a: seq<Link>, b: seq<Link>)
    ensures NonPdfLinks(a + b) == NonPdfLinks(a) + NonPdfLinks(b)
    decreases |a|
  {
    if a == [] {
      assert a + b == b;
    } else {
      var h := if a[0].isPdf then [] else [a[0]];
      assert (a + b)[0] == a[0];
      assert (a + b)[1..] == a[1..] + b;
      NonPdfConcat(a[1..], b);
      assert NonPdfLinks(a + b) == h + NonPdfLinks(a[1..] + b);
      assert NonPdfLinks(a) == h + NonPdfLinks(a[1..]);
    }
  }

  lemma LocationNonPdf(loc: Location, landingKind: string, pdfKind: string)
    ensures NonPdfLinks(LocationLinks(loc, landingKind, pdfKind)) == LandingLinkOf(loc, landingKind)
  {
    var landing := Get(loc.landingPageUrl, "");
    var pdf := Get(loc.pdfUrl, "");
    var l := if Truthy(landing) then [Link(landingKind, landing.value, false)] else [];
    var p := if Truthy(pdf) then [Link(pdfKind, pdf.value, true)] else [];
    NonPdfConcat(l, p);
    if l != [] { assert l[1..] == []; }
    if p != [] { assert p[1..] == []; }
  }

  lemma {:induction false} OtherNonPdfAgree(locs: seq<Option<Location>>)
    ensures NonPdfLinks(OtherLinks(locs)) == OtherLandingLinks(locs)
    decreases |locs|
  {
    if locs != [] {
      var head := match locs[0]
        case None => []
        case Some(loc) =>
          var name := SourceName(loc.source);
          LocationLinks(loc, name + " Landing Page", name + " PDF");
      assert OtherLinks(locs) == head + OtherLinks(locs[1..]);
      NonPdfConcat(head, OtherLinks(locs[1..]));
      if locs[0].Some? {
        var name := SourceName(locs[0].value.source);
        LocationNonPdf(locs[0].value, name + " Landing Page", name + " PDF");
      }
      OtherNonPdfAgree(locs[1..]);
    }
  }

  /** The URLs of the PDF links, in list order (what `process_results`
      filters with `link["is_pdf"]`). */
  function PdfUrls(links: seq<Link>): seq<string>
    decreases |links|
  {
    if links == [] then []
    else (if links[0].isPdf then [links[0].url] else []) + PdfUrls(links[1..])
  }

  /** The truthy `pdf_url` values of a record: the primary location's, then
      those of the non-null locations in order. The reference the link list
      is checked against. */
  function PdfUrlsOf(w: Work): seq<string> {
    (if w.primaryLocation.Present? then PdfUrlOf(w.primaryLocation.value) else [])
    + (if w.locations.Present? then OtherPdfUrls(w.locations.value) else [])
  }

  function PdfUrlOf(loc: Location): seq<string> {
    var pdf := Get(loc.pdfUrl, "");
    if Truthy(pdf) then [pdf.value] else []
  }

  function OtherPdfUrls(locs: seq<Option<Location>>): seq<string>
    decreases |locs|
  {
    if locs == [] then []
    else (if locs[0].Some? then PdfUrlOf(locs[0].value) else []) + OtherPdfUrls(locs[1..])
  }

  lemma {:induction false} PdfUrlsConcat(a: seq<Link>, b: seq<Link>)
    ensures PdfUrls(a + b) == PdfUrls(a) + PdfUrls(b)
    decreases |a|
  {
    if a == [] {
      assert a + b == b;
    } else {
      var h := if a[0].isPdf then [a[0].url] else [];
      assert (a + b)[0] == a[0];
      assert (a + b)[1..] == a[1..] + b;
      PdfUrlsConcat(a[1..], b);
      assert PdfUrls(a + b) == h + PdfUrls(a[1..] + b);
      assert PdfUrls(a) == h + PdfUrls(a[1..]);
    }
  }

  lemma LocationPdfUrls(loc: Location, landingKind: string, pdfKind: string)
    ensures PdfUrls(LocationLinks(loc, landingKind, pdfKind)) == PdfUrlOf(loc)
  {
    var landing := Get(loc.landingPageUrl, "");
    var pdf := Get(loc.pdfUrl, "");
    var l := if Truthy(landing) then [Link(landingKind, landing.value, false)] else [];
    var p := if Truthy(pdf) then [Link(pdfKind, pdf.value, true)] else [];
    PdfUrlsConcat(l, p);
  }

  lemma {:induction false} OtherPdfUrlsAgree(locs: seq<Option<Location>>)
    ensures PdfUrls(OtherLinks(locs)) == OtherPdfUrls(locs)
    decreases |locs|
  {
    if locs != [] {
      var head := match locs[0]
        case None => []
        case Some(loc) =>
          var name := SourceName(loc.source);
          LocationLinks(loc, name + " Landing Page", name + " PDF");
      assert OtherLinks(locs) == head + OtherLinks(locs[1..]);
      PdfUrlsConcat(head, OtherLinks(locs[1..]));
      if locs[0].Some? {
        var name := SourceName(locs[0].value.source);
        LocationPdfUrls(locs[0].value, name + " Landing Page", name + " PDF");
      }
      OtherPdfUrlsAgree(locs[1..]);
    }
  }

  lemma {:induction false} OtherLinksNoOpenAccess(locs: seq<Option<Location>>)
    ensures forall i :: 0 <= i < |OtherLinks(locs)| ==> OtherLinks(locs)[i].kind != OpenAccessKind
    decreases |locs|
  {
    if locs != [] {
      OtherLinksNoOpenAccess(locs[1..]);
      if locs[0].Some? {
        var name := SourceName(locs[0].value.source);
        LocationKindsDiffer(name);
      }
    }
  }

  /** A location-derived label ends in " Landing Page" or " PDF", so it is never
      the open-access label. */
  lemma LocationKindsDiffer(name: string)
    ensures name + " Landing Page" != OpenAccessKind
    ensures name + " PDF" != OpenAccessKind
  {
    var s := name + " Landing Page";
    var t := name + " PDF";
    assert s[|s| - 1] == 'e';
    assert t[|t| - 2] == 'D';
    assert OpenAccessKind[|OpenAccessKind| - 1] == 'L';
    assert OpenAccessKind[|OpenAccessKind| - 2] == 'R';
  }

  lemma PrimaryLinksNoOpenAccess(f: Field<Location>)
    ensures forall i :: 0 <= i < |PrimaryLinks(f)| ==> PrimaryLinks(f)[i].kind != OpenAccessKind
  {
  }

  /** `get_section_keywords`: the base keywords, extended for four section
      names looked up case-insensitively. */
  function SectionKeywords(section: string, base: seq<string>): (r: seq<string>)
    ensures |r| >= |base| && r[..|base|] == base
    ensures Lower(section) !in {"related_work", "methodology", "results", "conclusion"} ==> r == base
    ensures |r| <= |base| + 5
    ensures Lower(section) == "related_work" ==> r == base + ["existing methods", "previous studies", "literature review"]
    ensures Lower(section) == "methodology" ==> r == base + ["techniques", "approach", "model", "framework"]
    ensures Lower(section) == "results" ==> r == base + ["dataset", "evaluation", "metrics", "accuracy", "performance"]
    ensures Lower(section) == "conclusion" ==> r == base + ["future work", "limitations", "impact", "implications"]
  {
    match Lower(section)
    case "introduction" => base
    case "related_work" => base + ["existing methods", "previous studies", "literature review"]
    case "methodology" => base + ["techniques", "approach", "model", "framework"]
    case "results" => base + ["dataset", "evaluation", "metrics", "accuracy", "performance"]
    case "conclusion" => base + ["future work", "limitations", "impact", "implications"]
    case _ => base
  }

  /** "Methodology", capitalised, gets the methodology keywords; "Related
      Work", with a space, is not "related_work" and gets the base alone. */
  lemma SectionKeywordsExamples(base: seq<string>)
    ensures SectionKeywords("Methodology", base) == base + ["techniques", "approach", "model", "framework"]
    ensures SectionKeywords("Related Work", base) == base
  {
    assert Lower("Methodology") == "methodology";
    assert Lower("Related Work") == "related work";
  }

  /** Section names differing only in letter case get the same keywords. */
  lemma SectionKeywordsIgnoreCase(a: string, b: string, base: seq<string>)
    requires Lower(a) == Lower(b)
    ensures SectionKeywords(a, base) == SectionKeywords(b, base)
  {
  }

  /** A character the file-name sanitiser keeps: an ASCII letter or digit,
      a space, `-` or `_`. */
  predicate IsFileNameChar(c: char) {
    ('a' <= c <= 'z') || ('A' <= c <= 'Z') || ('0' <= c <= '9') || c == ' ' || c == '-' || c == '_'
  }

  /** Every other character of the title becomes `_`. */
  function SanitizeTitle(title: string): (r: string)
    ensures |r| == |title|
    ensures forall i :: 0 <= i < |r| ==> IsFileNameChar(r[i])
    ensures forall i :: 0 <= i < |r| ==> (IsFileNameChar(title[i]) <==> r[i] == title[i])
  {
    seq(|title|, i requires 0 <= i < |title| => if IsFileNameChar(title[i]) then title[i] else '_')
  }

  const MaxFileTitle: nat := 100

  /** The last position of `c` in `s`, or -1. */
  function LastIndexOf(s: string, c: char): (i: int)
    ensures -1 <= i < |s|
    ensures i >= 0 ==> s[i] == c
    ensures forall j :: i < j < |s| ==> s[j] != c
  {
    if s == [] then -1
    else if s[|s| - 1] == c then |s| - 1
    else LastIndexOf(s[..|s| - 1], c)
  }

  /** The last position of `c` is the one after which `c` no longer occurs. */
  lemma {:induction false} LastIndexOfAt(s: string, c: char, i: nat)
    requires i < |s| && s[i] == c
    requires forall j :: i < j < |s| ==> s[j] != c
    ensures LastIndexOf(s, c) == i
  {
    if s[|s| - 1] != c {
      LastIndexOfAt(s[..|s| - 1], c, i);
    }
  }

  /** `os.path.splitext(path)[1]` with `/` as separator: the text from the
      last dot of the last path component, unless that component is only
      dots up to that dot. */
  function Extension(path: string): (ext: string)
    ensures ext == "" || (ext[0] == '.' && EndsWith(path, ext) && '/' !in ext && '.' !in ext[1..])
  {
    var sep := LastIndexOf(path, '/');
    var dot := LastIndexOf(path, '.');
    if dot > sep && exists k :: sep + 1 <= k < dot && path[k] != '.' then
      assert forall j :: dot < j < |path| ==> path[j] != '.' && path[j] != '/';
      path[dot..]
    else ""
  }

  /** A last path component made of a plain stem, a dot and a plain suffix
      has that dot and suffix as its extension. */
  lemma ExtensionOfName(dir: string, stem: string, e: string)
    requires stem != [] && '/' !in stem && '.' !in stem
    requires '/' !in e && '.' !in e
    ensures Extension(dir + "/" + stem + "." + e) == "." + e
  {
    var path := dir + "/" + stem + "." + e;
    var sep, dot := |dir|, |dir| + 1 + |stem|;
    assert path[sep] == '/' && path[dot] == '.';
    assert forall j :: sep < j < dot ==> path[j] == stem[j - sep - 1];
    assert forall j :: dot < j < |path| ==> path[j] == e[j - dot - 1];
    LastIndexOfAt(path, '/', sep);
    LastIndexOfAt(path, '.', dot);
    assert path[sep + 1] != '.';
    assert path[dot..] == "." + e;
  }

  /** The file name `download_paper` saves a paper under, given the title and
      the path component of the download URL. */
  function DownloadFileName(title: string, urlPath: string): (r: string)
    ensures EndsWith(r, ".pdf")
    ensures var clean := Take(SanitizeTitle(title), MaxFileTitle);
      && StartsWith(r, clean)
      && (r == clean + Extension(urlPath) || r == clean + Extension(urlPath) + ".pdf")
      && (EndsWith(clean + Extension(urlPath), ".pdf") ==> r == clean + Extension(urlPath))
  {
    var clean := Take(SanitizeTitle(title), MaxFileTitle);
    var filename := clean + Extension(urlPath);
    if EndsWith(filename, ".pdf") then filename else filename + ".pdf"
  }

  /** A URL path ending in a ".pdf" file name gets no second ".pdf". */
  lemma DownloadFileNamePdfUrl(title: string, dir: string, stem: string)
    requires stem != [] && '/' !in stem && '.' !in stem
    ensures DownloadFileName(title, dir + "/" + stem + ".pdf") == Take(SanitizeTitle(title), MaxFileTitle) + ".pdf"
  {
    assert dir + "/" + stem + ".pdf" == dir + "/" + stem + "." + "pdf";
    ExtensionOfName(dir, stem, "pdf");
    var name := Take(SanitizeTitle(title), MaxFileTitle) + ".pdf";
    assert name[|name| - 4..] == ".pdf";
  }

  /** Without a URL extension, the file name is the cleaned title plus ".pdf":
      a cleaned title holds no dot, so it never already ends in ".pdf". */
  lemma DownloadFileNameNoExtension(title: string, urlPath: string)
    requires Extension(urlPath) == ""
    ensures DownloadFileName(title, urlPath) == Take(SanitizeTitle(title), MaxFileTitle) + ".pdf"
  {
    var clean := Take(SanitizeTitle(title), MaxFileTitle);
    assert |clean| < 4 || clean[|clean| - 4] != '.';
    assert |clean| < 4 || clean[|clean| - 4..][0] != ".pdf"[0];
  }
}

=== FILE: wrappers.dfy ===
/** Failure-compatible result types used throughout the model.
    `Option` stands for a Python value that may be `None`; `Result` stands for
    a computation that may raise, the error carrying a short description. */
module Wrappers {

  datatype Option<+T> = None | Some(value: T) {

    /** The value, or `default` when there is none (Python's `x or default`
        for a nullable container). */
    function GetOr(default: T): T {
      match this
      case Some(v) => v
      case None => default
    }
  }

  datatype Result<+T> = Ok(value: T) | Err(error: string) {

    predicate IsFailure() {
      Err?
    }

    function PropagateFailure<U>(): Result<U>
      requires Err?
    {
      Err(error)
    }

    function Extract(): T
      requires Ok?
    {
      value
    }
  }
}
